=== FILE: README.md ===
# ClipAway repair engine in Dafny

This project models the signal-repair core of ClipAway (REPAIR), a browser tool that
repairs clipped and noisy audio. The model covers these parts:

- **Block substrate.** Block/sample index conversion, the bounded block copies and
  the overlap-add, and the gathering of time ranges into one signal.
- **Short-burst declipper.** Each clip interval is replaced by a cubic spline
  trained on at most 20 reliable samples on each side of it.
- **Long-burst declipper.** The channel is split into bands and the high band's
  clipped blocks are resynthesised from interpolated "known point" magnitudes,
  then cross-faded in. The known points are also collected here.
- **Noise remover.** It finds quiet blocks by RMS, averages their magnitude spectra
  into a noise profile, and removes noise block by block with spectral masks.
- **Preview selector.** It picks the loudest full block.
- **Channel helpers.** Copying an audio buffer, and the running-mean mono mix.
- **Controller helpers.** The action queues a repair or preview pushes, the enable
  predicates of the pipeline stages, and the cropping of clip intervals to a range.

Samples are `real`. Most of what the core calls but does not define becomes a
parameter of the operation that calls it. That covers the FFT pair and its
shifts, the Hann window, RMS, L2 norm and peak, the feed-forward filters, the
median filter, weighted averages, the cubic spline and the clip-interval
utilities. The only facts assumed about these parameters are the ones the core
relies on.

Five helpers of the signal-processing library are not parameters. They are
defined in `Types` as entry-wise operations on equal-length signals:
`SignalAdd` (`Add`), `SignalSubtract` (`Subtract`), `SignalScale` (`Scale`),
`SignalPointwiseMultiplyInPlace` (`Multiply`) and `SignalPointwiseDivideInPlace`
(`Divide`). This is an assumption about code outside the model. Results that rest
on it include the band split's `low + high == x` (`SplitIntoBands`) and the
reconstruction outside the repaired ranges (`ReconstructsOutsideRepairs`).

A few modelling conventions run through the project:

- The source writes many results into preallocated `Float32Array`s. In the model,
  such a result is cut or zero-padded to the buffer's length with `Types.Fit`.
- Where the source throws, or reads an entry that does not exist, the model
  returns `None`.

The modules follow the source files:

| module | source |
|---|---|
| `Types`, `RealFacts` | shared data and arithmetic facts |
| `Blocking` | `js/modules/signal_processing/Blocking.js` |
| `ClipIntervals`, `DeclipShortBursts`, `Interpolation`, `DeclipLongBursts`, `KnownPoints` | `js/modules/declipping/Declip.js` |
| `Averaging`, `NoiseRemoval` | `js/modules/noise_removal/NoiseRemoval.js` |
| `Preview` | `js/modules/preview/Preview.js` |
| `WebAudioUtils` | `js/WebAudioUtils.js` |
| `IndexController` | `js/IndexController.js` |

Behaviours of the source that the model keeps as written:

- **One-based training and boundary runs.** The left training run of the first
  burst starts at sample 1, not 0. Likewise, the left run before the first clip
  interval used for known points starts at sample 1.
- **Sub-blocks of a long run.** For a reliable run longer than a block, two
  sub-blocks are taken from the run's own buffer. The first starts at offset 1, so
  the run's first sample is skipped. The second ends at offset `len`, one past the
  buffer's end, and the copy zero-fills that last entry.
- **Last segment skipped.** The high-band loop stops one segment early, so the last
  clip segment is never replaced.
- **Unsupported sample rate.** For any rate other than 44100 Hz, `SplitIntoBands`
  returns the signal instead of the band triple. `DeclipLongBursts` then indexes
  that signal as if it were the triple. The model returns no result in that case.
- **Empty boundary points.** A left boundary run that ends before sample 0, or a
  right one that starts past the last sample, gives a point at time 1 with zero
  magnitudes. The right-hand one has
  as many magnitudes as the run has samples, not a block's worth.
- **Known points out of time order.** The interpolation's search assumes the points
  are sorted by time. When the last clip interval ends on the last sample, the
  list ends with the empty right point at time 1, after points at later times.
  The search never uses that point: no query lies between a later time and 1.
  Two neighbouring segments can also give two points at the same time. When the
  points before them are in order, an earlier pair brackets that time first.
- **Odd block sizes.** When the block size is odd, a single-block segment makes the
  cross-fade ask for a middle buffer of length -1, and the source throws.
- **Block and hop swapped.** The noise-profile controller passes the block size as
  the hop and the hop as the block size to `RMSThreshold`. It also passes a fifth
  argument, which `RMSThreshold` ignores.
- **Inverted name.** `NoPluginsActive` returns true exactly when some plugin IS
  active.
- **Cropping mutates its input.** `GetCroppedClipIntervals` clamps the interval
  objects it is given, in place. The model returns the clamped input list as a
  second result.

## Model

| member | source | states |
|---|---|---|
| Blocking.BlockIdxRoundTrip | js/modules/signal_processing/Blocking.js:40-42 | BlockIdxToSampleIdx: block b starts at sample b*hop, a multiple of the hop from which b is recovered, one hop before block b+1 |
| Blocking.BlockIdxStrictlyIncreasing | js/modules/signal_processing/Blocking.js:40-42 | with a positive hop, a later block starts strictly later, at least one hop after the earlier one |
| Blocking.IntervalsBlockIdxToSeconds | js/modules/signal_processing/Blocking.js:44-60 | one interval per input, in the same order; start and stop times the rate equal the block index times the hop |
| Blocking.SecondsRoundTrip | js/modules/signal_processing/Blocking.js:44-60 | converting the seconds back to a sample index gives the first sample of the block the interval came from |
| Blocking.CopyToBlock | js/modules/signal_processing/Blocking.js:67-83 | block entry k is channel[start+k] within the range and the channel, 0 past the channel end, and unchanged past the range |
| Blocking.CopiedBlockLocal | js/modules/signal_processing/Blocking.js:67-83 | the copied block depends only on the channel samples inside [start, stop] |
| Blocking.CopyWholeBlock | js/modules/signal_processing/Blocking.js:67-83 | copying a whole in-range block gives exactly that channel slice, whatever the buffer held |
| Blocking.CopyToChannel | js/modules/signal_processing/Blocking.js:90-106 | only samples in [start, stop] change: they become block[i-start], or 0 past the block's end; every other sample is kept |
| Blocking.CopyRoundTrip | js/modules/signal_processing/Blocking.js:67-106 | writing a block into an in-range slice of the channel and copying that slice back yields the block |
| Blocking.OverlapAndAdd | js/modules/signal_processing/Blocking.js:114-125 | block[i-start] is added to sample i only inside the range and the block; all other samples are kept |
| Blocking.OverlapAddZeroBlock | js/modules/signal_processing/Blocking.js:114-125 | adding an all-zero block leaves the channel unchanged |
| Blocking.OverlapAddCommutes | js/modules/signal_processing/Blocking.js:114-125 | two overlap-adds give the same channel in either order |
| Blocking.FullBlockBound | js/modules/noise_removal/NoiseRemoval.js:50-72 | block k is one of the full blocks the loop visits iff k*hop + blockSize <= length |
| Blocking.ReadFullBlock | js/modules/noise_removal/NoiseRemoval.js:55-59 | a full block lies inside the signal, and the block read is that slice |
| Blocking.ReadIntoBuffer | js/modules/noise_removal/NoiseRemoval.js:55-59 | copying a full block into a stale buffer gives that block |
| Blocking.OlaWindowsUncovered | js/modules/noise_removal/NoiseRemoval.js:241-249 | the window sum is zero at every sample no processed block covers |
| Blocking.FloorEntries | js/modules/noise_removal/NoiseRemoval.js:251-256 | among the first count entries, every entry is at least the threshold afterwards; entries already at or above it, and those past count, are kept |
| Blocking.ConcatenateIntervals | js/modules/signal_processing/Blocking.js:128-146 | a result exists iff every slice [floor(s*rate), floor(e*rate)] lies inside x, and it is the in-order concatenation of those slices |
| ClipIntervals.LeftGap | js/modules/declipping/Declip.js:87-98 | the left run ends just before the burst, starts no earlier than after the previous burst (or at 1), holds at most maxLen samples and is cut only to hold exactly maxLen |
| ClipIntervals.RightGap | js/modules/declipping/Declip.js:100-109 | the right run starts just after the burst, ends no later than before the next burst (or at the last sample), holds at most maxLen samples and is cut only to hold exactly maxLen |
| ClipIntervals.GapsAvoidIntervals | js/modules/declipping/Declip.js:87-109 | with well-formed ordered intervals, no training sample lies inside any clip interval |
| ClipIntervals.GapsStartPastZero | js/modules/declipping/Declip.js:89-92 | both training runs start at sample 1 or later |
| DeclipShortBursts.TrainingReadsOriginal | js/modules/declipping/Declip.js:87-120 | with ordered bursts, once the earlier bursts are replaced the training runs still read original samples |
| DeclipShortBursts.RepairBurst | js/modules/declipping/Declip.js:64-133 | one burst step: skipped when either run has fewer than 3 samples, else the burst is replaced by the spline; only replaced bursts differ from the input, and with ordered bursts the result is the reference |
| DeclipShortBursts.DeclipShortBurstsInPlace | js/modules/declipping/Declip.js:52-134 | only samples inside non-skipped bursts change; no intervals leaves the channel unchanged; with ordered bursts the result equals replacing each burst by a spline trained on the original samples |
| Interpolation.UsableIsInterpolable | js/modules/declipping/Declip.js:283-298 | distinct adjacent times and enough magnitudes everywhere make interpolation defined at every query time |
| Interpolation.EarlierTrailingPointUnused | js/modules/declipping/Declip.js:283-289 | appending a point earlier than the last one never changes the pair a query finds |
| Interpolation.EarlierTrailingPointKeepsInterpolable | js/modules/declipping/Declip.js:283-298 | such a trailing point, whatever its magnitudes, keeps interpolation defined at every query time |
| KnownPoints.EarlierLastPointUnused | js/modules/declipping/Declip.js:283-289 | a last point earlier than its predecessor is never part of the pair a query uses |
| Interpolation.FindBracket | js/modules/declipping/Declip.js:283-289 | the pair found brackets the query and no earlier pair does; no result means no pair brackets it |
| Interpolation.WeightsConvex | js/modules/declipping/Declip.js:293-294 | inside the bracket both weights lie in [0, 1] and sum to 1; the left weight is 1 at the left time and 0 at the right time |
| Interpolation.LinearInterpolate | js/modules/declipping/Declip.js:277-302 | with no bracketing pair the estimate is untouched; otherwise each bin lies between the two points' magnitudes at that bin |
| Interpolation.InterpolateAtKnownTime | js/modules/declipping/Declip.js:289-298 | at a bracketing point's own time the estimate is that point's magnitudes |
| Interpolation.NoBracketKeepsEstimate | js/modules/declipping/Declip.js:283-301 | a query earlier than every known point finds no pair and leaves the estimate untouched |
| DeclipLongBursts.LowpassIsLinearPhase | js/modules/declipping/Declip.js:394-401 | the 44.1 kHz lowpass has order+1 = 26 taps, symmetric about the centre |
| DeclipLongBursts.SplitIntoBands | js/modules/declipping/Declip.js:393-411 | the signal comes back unsplit iff the rate is not 44100; otherwise low is the forward-then-backward filtered signal, order is 25, and low + high == x |
| DeclipLongBursts.NumReplacementSamples | js/modules/declipping/Declip.js:217-219 | a non-empty segment needs at least one block of samples, and a one-block segment exactly one |
| DeclipLongBursts.BlockOffset | js/modules/declipping/Declip.js:231-262 | each block is added at (b - start)*hop, which is non-negative and leaves room for a whole block inside the replacement buffer |
| DeclipLongBursts.Clamp | js/modules/declipping/Declip.js:248-252 | each bin is the smaller of the estimate and the clipped magnitude |
| DeclipLongBursts.BlockEstimate | js/modules/declipping/Declip.js:244-252 | the block's magnitude estimate never exceeds its clipped magnitudes in any bin; interpolation need only be defined at this block's centre |
| DeclipLongBursts.EverywhereCoversSegments | js/modules/declipping/Declip.js:183-252 | points interpolable at every time are interpolable at the block centres of any segments |
| DeclipLongBursts.UnprocessedSegmentNeedsNoPoints | js/modules/declipping/Declip.js:183-204 | with at most one segment no block centre is queried, so even the end-to-end clip's points [(1, zeros), (1, [0])], not interpolable at time 1, are accepted |
| DeclipLongBursts.ProcessSegmentsStep | js/modules/declipping/Declip.js:183-204 | equal bands after m-1 segments and the same segment m-1 give equal bands after m |
| DeclipLongBursts.SegmentAfter | js/modules/declipping/Declip.js:219-264 | the replacement buffer keeps the length (blocks-1)*hop + blockSize through the block loop, and the estimate stays one block long |
| DeclipLongBursts.ReplaceClipSegment | js/modules/declipping/Declip.js:210-275 | the replacements have length (blocks-1)*hop + blockSize |
| DeclipLongBursts.WindowGuard | js/modules/declipping/Declip.js:263-271 | for a segment that fits the band, every window-compensation entry is at least 0.00001 |
| DeclipLongBursts.FadeIn | js/modules/declipping/Declip.js:308-312 | the fade-in curve is the first ceil(blockSize/2) window samples |
| DeclipLongBursts.FadeOut | js/modules/declipping/Declip.js:313-316 | fade-out plus fade-in is 1 at every fade sample |
| DeclipLongBursts.FadedBlock | js/modules/declipping/Declip.js:335-343 | each cross-faded sample is the window-weighted blend of the fading-in and fading-out samples |
| DeclipLongBursts.LeftFaded | js/modules/declipping/Declip.js:319-344 | on the left fade the sample becomes repl*w + x*(1-w); elsewhere it is kept |
| DeclipLongBursts.MiddleWritten | js/modules/declipping/Declip.js:346-357 | between the fades each sample is the replacement at the same offset (0 past the middle copy); elsewhere it is kept |
| DeclipLongBursts.RightFaded | js/modules/declipping/Declip.js:326-369 | on the right fade the sample becomes x*w + repl*(1-w), reading the replacements' last fade samples; elsewhere it is kept |
| DeclipLongBursts.CrossFade | js/modules/declipping/Declip.js:304-370 | it completes iff the replacements hold at least two fades, keeps the length, and leaves every sample outside [writeStart, writeStop+blockSize-1] unchanged |
| DeclipLongBursts.CrossFadeLeft | js/modules/declipping/Declip.js:334-344 | in the full cross-fade, a left-fade sample is the blend of the replacement and the original |
| DeclipLongBursts.CrossFadeMiddle | js/modules/declipping/Declip.js:346-357 | the middle's write length and read length both equal len - 2*fade, and a middle sample is the replacement at the same offset |
| DeclipLongBursts.CrossFadeRight | js/modules/declipping/Declip.js:359-369 | in the full cross-fade, a right-fade sample is the blend of the original and the replacement at the same offset |
| DeclipLongBursts.ProcessSegments | js/modules/declipping/Declip.js:183-204 | the first m segments complete iff each holds two fades; outside their write ranges the band is unchanged |
| DeclipLongBursts.ProcessSegment | js/modules/declipping/Declip.js:183-204 | segment m-1 completes iff the earlier ones did and it holds two fades; samples outside the touched ranges are kept |
| DeclipLongBursts.HighBandInPlace | js/modules/declipping/Declip.js:168-208 | the band keeps its length, and with at most one segment it is returned unchanged |
| DeclipLongBursts.ProcessSegmentsPrefix | js/modules/declipping/Declip.js:183 | the first m segments' result depends only on those m segments |
| DeclipLongBursts.LastSegmentNeverProcessed | js/modules/declipping/Declip.js:183 | the result does not depend on the last segment at all |
| DeclipLongBursts.EvenBlocksNeverThrow | js/modules/declipping/Declip.js:308-357 | with an even block size, every segment that fits the band cross-fades without throwing |
| DeclipLongBursts.OddSingleBlockSegmentThrows | js/modules/declipping/Declip.js:308-357 | with an odd block size, a processed one-block segment makes the high-band pass throw |
| DeclipLongBursts.DeclipLongBursts | js/modules/declipping/Declip.js:136-166 | an unsupported rate gives no result; otherwise the channel keeps its length, and with at most one segment it is returned unchanged |
| DeclipLongBursts.ReconstructsOutsideRepairs | js/modules/declipping/Declip.js:136-166 | outside the processed segments' write ranges, low + high gives back the original sample |
| KnownPoints.LocalKnownPoints | js/modules/declipping/Declip.js:558-642 | 0, 1 or 2 points according to the run length, each with a block of magnitudes and a time within the run; a long run's points sit at start + ceil(blockSize/2) and start + len - blockSize + ceil(blockSize/2), a shorter run's point at start + ceil(len/2) |
| KnownPoints.SubBlocksOfLongRun | js/modules/declipping/Declip.js:574-611 | a long run's first sub-block is run[1 .. blockSize+1]; the second is the run's last blockSize-1 samples followed by a 0 for the read past its end |
| KnownPoints.TrimmedRunYieldsOnePoint | js/modules/declipping/Declip.js:566-641 | a run of at most one block gives at most one point, and exactly one iff it reaches the minimum length |
| KnownPoints.ShortRunIsRescaled | js/modules/declipping/Declip.js:625-641 | a short run's point sits at start + ceil(len/2) and its magnitudes are the zero-padded spectrum scaled by the window's energy factor |
| KnownPoints.LeftBoundaryPoint | js/modules/declipping/Declip.js:457-489 | a burst at sample 0 gives an empty point at time 1; otherwise a point exists iff the left run is non-empty and long enough, at a time inside the run |
| KnownPoints.RightBoundaryPoint | js/modules/declipping/Declip.js:520-553 | a run past the last sample gives an empty point at time 1 with one zero per run sample; otherwise a point exists iff the run is long enough, at a time inside the run |
| KnownPoints.RightOfLastSampleIsOneZero | js/modules/declipping/Declip.js:520-553 | a last burst ending on the last sample gives the point (time 1, [0]) |
| KnownPoints.InteriorPoints | js/modules/declipping/Declip.js:493-518 | points exist iff every reliable run can be copied; at most two per run, each with a block of magnitudes |
| KnownPoints.InteriorPointsSnoc | js/modules/declipping/Declip.js:493-518 | one more run appends exactly that run's local points |
| KnownPoints.SegmentPoints | js/modules/declipping/Declip.js:439-554 | a segment's points are its left boundary point, then its interior points, then its right boundary point |
| KnownPoints.Concatenated | js/modules/declipping/Declip.js:439-556 | the per-segment lists concatenate iff every one of them exists, giving at least two points per segment |
| KnownPoints.GetAllKnownPoints | js/modules/declipping/Declip.js:413-556 | a result exists iff every segment's points exist; at least two points per segment; no segments gives the empty list |
| KnownPoints.KnownPointsEnds | js/modules/declipping/Declip.js:439-553 | the list starts with the first segment's left point and ends with the last segment's right point |
| KnownPoints.EndsWithOneZero | js/modules/declipping/Declip.js:520-553 | when the last segment's right interval ends on the last sample, the list's last point is (time 1, [0]) |
| KnownPoints.ConcatenatedEnds | js/modules/declipping/Declip.js:439-553 | the segment-by-segment list starts with segment 0's first point and ends with the last segment's last point |
| KnownPoints.TrailingZeroPointOutOfOrder | js/modules/declipping/Declip.js:280-301 | when the last segment's right interval ends on the last sample, the list ends with (time 1, [0]); it is then out of time order whenever an earlier point lies after time 1, and if the point before it does, every query finds the same pair without it |
| KnownPoints.ConcatenatedPrefix | js/modules/declipping/Declip.js:439-556 | the points of the first j segments are a prefix of the points of the first m |
| NoiseRemoval.RMSThreshold | js/modules/noise_removal/NoiseRemoval.js:44-77 | one 0/1 flag per full block, 1 iff that block's RMS is below the threshold; the intervals are those flags' intervals |
| NoiseRemoval.AverageBlockMagnitudes | js/modules/noise_removal/NoiseRemoval.js:105-138 | the profile is the 1/k online average of the full blocks' magnitude spectra, started from zeros |
| NoiseRemoval.GetNoiseProfile | js/modules/noise_removal/NoiseRemoval.js:79-141 | block-sized; all zeros when no full block fits, else the arithmetic mean of the blocks' magnitude spectra |
| NoiseRemoval.AccumulateUncovered | js/modules/noise_removal/NoiseRemoval.js:150-153 | samples no processed block reaches stay zero in the accumulator |
| NoiseRemoval.WindowCompensation | js/modules/noise_removal/NoiseRemoval.js:240-256 | every window-compensation entry is at least 0.01 |
| NoiseRemoval.AccumulateFrames | js/modules/noise_removal/NoiseRemoval.js:172-238 | the loop visits exactly the full blocks and accumulates their windowed frame outputs at each block's start |
| NoiseRemoval.WindowSum | js/modules/noise_removal/NoiseRemoval.js:240-249 | the window compensation is accumulated over exactly the blocks that were processed |
| NoiseRemoval.RemoveNoiseGivenProfile | js/modules/noise_removal/NoiseRemoval.js:143-261 | the output has the input's length, is the accumulated frames divided by the floored window sum, and is 0 at samples no full block covers |
| NoiseRemoval.PosteriorSnr | js/modules/noise_removal/NoiseRemoval.js:274 | the posterior SNR times n squared is y squared; it is non-negative, and positive when y is non-zero |
| NoiseRemoval.PriorSnr | js/modules/noise_removal/NoiseRemoval.js:275-276 | the smoothed prior is non-negative when the previous SNR is, and 0 for pure noise with no previous SNR |
| NoiseRemoval.MaskBin | js/modules/noise_removal/NoiseRemoval.js:270-281 | a mask is at least prior/(1+prior) >= 0, and it is 0 iff the prior SNR is 0 |
| NoiseRemoval.MaskTermNonneg | js/modules/noise_removal/NoiseRemoval.js:278 | the term under the square root is at least prior squared, so it is non-negative |
| NoiseRemoval.MaskBinBounds | js/modules/noise_removal/NoiseRemoval.js:278-281 | (prior + root)/(2(1+prior)) is at least prior/(1+prior), and it is 0 iff prior is 0 |
| NoiseRemoval.GetMasks | js/modules/noise_removal/NoiseRemoval.js:264-285 | one mask per bin, each at least prior/(1+prior) >= 0 |
| NoiseRemoval.MasksAreLocal | js/modules/noise_removal/NoiseRemoval.js:269-282 | a bin's mask depends only on that bin's inputs |
| NoiseRemoval.PureNoiseIsSilenced | js/modules/noise_removal/NoiseRemoval.js:270-281 | a bin equal to the noise profile, with no previous SNR, gets mask 0 |
| NoiseRemoval.CalculateSNR | js/modules/noise_removal/NoiseRemoval.js:289-299 | one entry per bin, non-negative, and entry times n squared is s squared |
| NoiseRemoval.MaskedSnr | js/modules/noise_removal/NoiseRemoval.js:218-221 | the SNR of the masked spectrum is the mask squared times the posterior SNR |
| Averaging.OnlineAverageSnoc | js/modules/noise_removal/NoiseRemoval.js:128-133 | averaging one more row is one online update with k = rows + 1 |
| Averaging.OnlineAveragePrefix | js/modules/noise_removal/NoiseRemoval.js:128-133 | the average of the first k+1 rows is the update of the average of the first k |
| Averaging.OnlineAverageFirst | js/modules/noise_removal/NoiseRemoval.js:128-133 | the first update replaces the start value by the first row |
| Averaging.OnlineStepExtendsMean | js/modules/noise_removal/NoiseRemoval.js:129-132 | if avg is the mean of k-1 values, the k-th step gives the mean of k values |
| Averaging.OnlineAverageIsMean | js/modules/noise_removal/NoiseRemoval.js:128-133 | the online average of a non-empty list of rows is their column-wise arithmetic mean |
| Averaging.MeanOfOne | js/WebAudioUtils.js:63-64 | the mean of a single row is that row |
| Preview.GetPreviewBounds | js/modules/preview/Preview.js:44-76 | (-1,-1) iff no full block has RMS > 0; otherwise a full block, a multiple of hop, stop = start+blockSize-1 < length, with the largest RMS, and the earliest such block |
| WebAudioUtils.CopyAudioBuffer | js/WebAudioUtils.js:39-54 | same channel count, length and rate, and every sample equal to the source |
| WebAudioUtils.CopyIsIdentity | js/WebAudioUtils.js:39-54 | a buffer agreeing on shape and every sample is the source buffer itself |
| WebAudioUtils.MixStepIsOnlineUpdate | js/WebAudioUtils.js:65-74 | scaling the mix by (k-1)/k and the channel by 1/k is one online-average step |
| WebAudioUtils.AudioBufferToMono | js/WebAudioUtils.js:57-78 | no channels gives [], one channel gives channel 0, otherwise the sample-wise mean of all channels, of the common length |
| IndexController.ChainOrderAppend | js/IndexController.js:351-369 | joining two stage-ordered queues, the first ending before the second starts, gives a stage-ordered queue |
| IndexController.MatchKeptByTail | js/IndexController.js:351-369 | appending the normalisation actions does not change which plugin actions are queued |
| IndexController.PluginActions | js/IndexController.js:354-364 | the plugin actions come in pipeline stage order, all before input normalisation |
| IndexController.PluginActionsMatch | js/IndexController.js:354-364 | the three declip actions are queued iff declip is active, noise removal iff it is active, EQ iff it is active |
| IndexController.RepairActions | js/IndexController.js:351-369 | stage order, the plugin actions followed by NormalizeInput, NormalizeOutput, and no preview |
| IndexController.RepairActionsMatch | js/IndexController.js:351-369 | each plugin action is in the repair queue iff its plugin is active |
| IndexController.PreviewActions | js/IndexController.js:1141-1162 | the repair queue with PlayPreview appended last, in stage order |
| IndexController.PreviewActionsMatch | js/IndexController.js:1141-1162 | each plugin action is in the preview queue iff its plugin is active |
| IndexController.RepairClicked | js/IndexController.js:351-369 | the processed buffer is a copy of the input, and the repair actions are appended to the queue |
| IndexController.DoPreview | js/IndexController.js:1141-1162 | the preview buffer is a copy of the preview input, and the preview actions are appended to the queue |
| IndexController.NoPluginsActive | js/IndexController.js:1220-1232 | true iff some plugin action would be queued, i.e. the name is inverted |
| IndexController.ShouldAllowWaveformInteraction | js/IndexController.js:1562-1568 | waveform interaction is allowed exactly when clipping detection is enabled |
| IndexController.DetectClippingOpensChain | js/IndexController.js:1566-1580 | ShouldEnableDetectClipping is true exactly when audio is loaded, the first stage of the enable chain: without it no later stage is enabled, and the last stage needs every earlier step done |
| IndexController.ShouldEnableDeclipShortBursts | js/IndexController.js:1570-1572 | implies the previous stage is enabled, and adds that clipping detection was done |
| IndexController.ShouldEnableGetKnownPoints | js/IndexController.js:1574-1576 | implies the previous stage is enabled, and adds that short bursts were declipped |
| IndexController.ShouldEnableDeclipLongBursts | js/IndexController.js:1578-1580 | implies the previous stage is enabled, and adds that known points were found |
| IndexController.Clamped | js/IndexController.js:1245-1250 | each end moves to the range only when it lies outside it |
| IndexController.CroppedIntervals | js/IndexController.js:1234-1258 | no more intervals than the input, every kept interval inside [0, range.stop - range.start] |
| IndexController.GetCroppedClipIntervals | js/IndexController.js:1234-1258 | the result is the crop-and-shift of the overlapping intervals; as a side effect the overlapping inputs are clamped, the others left as they were |
| IndexController.CroppedEndBefore | js/IndexController.js:1238-1256 | cropping does not move an interval's end past a bound all input ends are below |
| IndexController.CroppingKeepsOrder | js/IndexController.js:1238-1256 | well-formed ordered intervals stay well-formed and ordered after cropping to a non-inverted range |
| IndexController.UpdateNoiseProfileIntervals | js/IndexController.js:396-410 | one 0/1 flag per block of the mono mix, with noiseHopSize-sample blocks stepped by noiseBlockSize; flag k is 1 iff the block's RMS is below the percentage of the peak's magnitude; each region's start and stop, converted back, are their block indices times noiseBlockSize |

## Left out

- **I/O and concurrency.** The DOM and UI wiring, file loading, progress messages,
  web workers, and the global action-queue plumbing are left out. Queues are
  returned as values.
- **Foreign computations.** The FFT pair and FFT shifts, Hann window, RMS, L2 norm,
  feed-forward filters, median filter, weighted average, cubic spline and
  clip-interval utilities are not part of this model. Each one is a
  function-typed parameter.
- **Fixed noise-remover settings.** The per-frame spectral stage of the noise remover
  is one parameter. That stage covers the FFT, masks, smoothing, median filter, SNR
  tracking and inverse FFT. Its constants (alpha 1, median order 11, prior weight
  0.5) are therefore not fixed. `GetMasks` and `CalculateSNR` are modelled on their
  own.
- **Floating point.** There is no `Float32Array` rounding, NaN or infinity.
- **Perceptual EQ and loudness normalisation.** Both are Web Audio or third-party
  calls.
- **Mono output object.** `AudioBufferToMono` returns the channel object itself when
  there is one channel. The model returns its samples.
- **Test reference values.** The noise remover's expected outputs depend on the
  concrete FFT.

Contracts stated more narrowly than the source:

- NoiseRemoval.RMSThreshold: requires a positive hop. With hop 0 the source's `while(stop_idx < channel_length)` loop never ends once one full block fits. With hop 0 and no full block, it would return an empty result, and the model excludes that case too.
- NoiseRemoval.GetNoiseProfile: requires a positive hop, for the same reason as RMSThreshold.
- NoiseRemoval.RemoveNoiseGivenProfile: requires a positive hop, for the same reason as RMSThreshold.
- Preview.GetPreviewBounds: requires a positive hop, for the same reason as RMSThreshold. The preview controller sets the hop to half the block size when the input is shorter than a block. That hop is 0 for an empty input and fractional for a one-sample input. Neither case is modelled.
- IndexController.UpdateNoiseProfileIntervals: requires a positive `noiseBlockSize` (the hop it passes on), for the same reason. The configured sizes are globals that are not part of this model.

- DeclipLongBursts.ReplaceClipSegment: requires the segment to fit the band, and requires that at the centre of each of its blocks the first bracketing pair of known points has distinct times and a block of magnitudes each. Only those centres are queried, so the points are otherwise unconstrained: the trailing one-zero point at time 1, later repeated times, and any list when no segment is processed are all allowed. A first bracketing pair with equal times at a queried centre makes the source's weight NaN, which the model does not represent. Only the output length is stated; the per-bin facts are stated on BlockEstimate.
- DeclipLongBursts.HighBandInPlace: requires the condition above only for the processed segments (all but the last); ProcessSegments, ProcessSegment and DeclipLongBursts require it for the segments they process, BlockEstimate for its own block and SegmentAfter for the blocks it has run.
- NoiseRemoval.CalculateSNR: requires non-zero noise magnitudes. The source divides by them and would give infinity or NaN for a zero.
- DeclipLongBursts.WindowGuard: the source accumulates the window into the compensation buffer inside the block loop. The model uses the window sum over the segment's blocks directly, which is the same buffer because it never depends on the signal.
- DeclipLongBursts.DeclipLongBursts: an unsupported rate gives no result rather than the source's mis-indexed arithmetic on the unsplit signal.
- DeclipLongBursts.CrossFade: when the source throws, it has already written the left fade. The model returns no result and does not describe those partial writes.
- Interpolation.LinearInterpolate: requires distinct times and enough magnitudes at the bracketing pair. The source divides by zero or reads undefined entries otherwise.
- KnownPoints.LeftBoundaryPoint: no result for a run of negative length, where the source throws a RangeError, and for a run that can be copied but is shorter than the minimum FFT length, where the source stores `undefined` as the point. The same applies to KnownPoints.RightBoundaryPoint and KnownPoints.SegmentPoints.
- KnownPoints.GetAllKnownPoints: one `undefined` boundary point makes the whole list `None`. The source returns the list with that entry, and the interpolation scan throws a TypeError only if it reaches the entry before a bracketing pair; an entry in the unprocessed last segment is not reached when the points before it are in time order. The model does not describe those lists or the long-burst pass on them.
- Blocking.ConcatenateIntervals: requires non-negative slice starts. Negative times never reach it.
- IndexController.CroppingKeepsOrder: requires range.start <= range.stop. An inverted range can produce intervals with start > stop.
- NoiseRemoval.GetMasks: requires non-zero magnitudes and noise, and a non-negative previous SNR. The source does not guarantee these, and would produce NaN or infinity.

=== FILE: averaging.dfy ===
/** Online (running) averaging, as used both by the noise-profile estimator
    and by the down-mix to mono: the k-th vector is folded in with weight
    `1/k` and the running average is kept with weight `(k-1)/k`. The main
    result is that this fold is exactly the arithmetic mean. */
module Averaging {
  import opened Types

  /** Every row has `len` entries. */
  predicate Rectangular(rows: seq<seq<real>>, len: nat)
  {
    forall r :: 0 <= r < |rows| ==> |rows[r]| == len
  }

  /** Sum of entry `i` over all rows. */
  function ColumnSum(rows: seq<seq<real>>, i: nat): real
    requires forall r :: 0 <= r < |rows| ==> i < |rows[r]|
  {
    if |rows| == 0 then 0.0
    else ColumnSum(rows[..|rows| - 1], i) + rows[|rows| - 1][i]
  }

  /** The entry-wise arithmetic mean of at least one row of length `len`. */
  function Mean(rows: seq<seq<real>>, len: nat): (m: seq<real>)
    requires |rows| > 0 && Rectangular(rows, len)
    ensures |m| == len
  {
    seq(len, i requires 0 <= i < len => ColumnSum(rows, i) / (|rows| as real))
  }

  /** One online update with the `k`-th value: `avg * (k-1)/k + value * 1/k`. */
  function OnlineStep(avg: real, value: real, k: nat): real
    requires k >= 1
  {
    avg * (((k - 1) as real) / (k as real)) + value * (1.0 / (k as real))
  }

  /** The online update applied entry by entry to a running vector. */
  function OnlineUpdate(avg: seq<real>, value: seq<real>, k: nat): (r: seq<real>)
    requires k >= 1 && |value| == |avg|
    ensures |r| == |avg|
  {
    seq(|avg|, i requires 0 <= i < |avg| => OnlineStep(avg[i], value[i], k))
  }

  /** The running vector after folding every row in, starting from `init`. */
  function OnlineAverage(rows: seq<seq<real>>, init: seq<real>): (r: seq<real>)
    requires Rectangular(rows, |init|)
    ensures |r| == |init|
  {
    if |rows| == 0 then init
    else OnlineUpdate(OnlineAverage(rows[..|rows| - 1], init), rows[|rows| - 1], |rows|)
  }

  /** Folding one more row in is one more online update. */
  lemma OnlineAverageSnoc(rows: seq<seq<real>>, row: seq<real>, init: seq<real>)
    requires Rectangular(rows, |init|) && |row| == |init|
    ensures Rectangular(rows + [row], |init|)
    ensures OnlineAverage(rows + [row], init) == OnlineUpdate(OnlineAverage(rows, init), row, |rows| + 1)
  {
    var all := rows + [row];
    assert all[..|all| - 1] == rows;
    assert all[|all| - 1] == row;
    assert Rectangular(all, |init|);
    assert OnlineAverage(all[..|all| - 1], init) == OnlineAverage(rows, init);
  }

  /** Folding in the first `k + 1` rows is one update past the first `k`. */
  lemma OnlineAveragePrefix(rows: seq<seq<real>>, k: nat, init: seq<real>)
    requires k < |rows| && Rectangular(rows, |init|)
    ensures Rectangular(rows[..k], |init|) && Rectangular(rows[..k + 1], |init|)
    ensures OnlineAverage(rows[..k + 1], init) == OnlineUpdate(OnlineAverage(rows[..k], init), rows[k], k + 1)
  {
    var next := rows[..k + 1];
    assert next[..k] == rows[..k];
    assert Rectangular(next, |init|);
    assert OnlineAverage(next, init) == OnlineUpdate(OnlineAverage(next[..k], init), next[k], k + 1);
  }

  /** The first update replaces the start vector by the first row. */
  lemma OnlineAverageFirst(row: seq<real>, init: seq<real>)
    requires |row| == |init|
    ensures OnlineAverage([row], init) == row
  {
    OnlineAverageSnoc([], row, init);
    assert [] + [row] == [row];
    var r := OnlineAverage([row], init);
    forall i | 0 <= i < |row|
      ensures r[i] == row[i]
    {
      assert r[i] == init[i] * 0.0 + row[i] * 1.0;
    }
  }

  /** If the running value is the mean of `k - 1` values summing to `sum`,
      one update makes it the mean of `k` values. The first update ignores
      whatever the running value was. */
  lemma OnlineStepExtendsMean(avg: real, sum: real, value: real, k: nat)
    requires k >= 1
    requires k >= 2 ==> avg == sum / ((k - 1) as real)
    requires k == 1 ==> sum == 0.0
    ensures OnlineStep(avg, value, k) == (sum + value) / (k as real)
  {
    var K := k as real;
    if k == 1 {
      assert OnlineStep(avg, value, k) == avg * 0.0 + value * 1.0;
    } else {
      var K1 := (k - 1) as real;
      assert avg * K1 == sum;
      calc {
        OnlineStep(avg, value, k);
        avg * (K1 / K) + value * (1.0 / K);
        (avg * K1) / K + value / K;
        (sum + value) / K;
      }
    }
  }

  /** Online averaging yields the arithmetic mean, whatever the start vector. */
  lemma {:induction false} OnlineAverageIsMean(rows: seq<seq<real>>, init: seq<real>)
    requires |rows| > 0 && Rectangular(rows, |init|)
    ensures OnlineAverage(rows, init) == Mean(rows, |init|)
  {
    var n := |rows|;
    var prefix := rows[..n - 1];
    var prev := OnlineAverage(prefix, init);
    if n >= 2 {
      OnlineAverageIsMean(prefix, init);
    }
    var r := OnlineAverage(rows, init);
    var m := Mean(rows, |init|);
    forall i | 0 <= i < |init|
      ensures r[i] == m[i]
    {
      var sum := ColumnSum(prefix, i);
      if n >= 2 {
        assert prev[i] == sum / ((n - 1) as real);
      } else {
        assert prefix == [];
      }
      OnlineStepExtendsMean(prev[i], sum, rows[n - 1][i], n);
    }
  }

  /** A single row is its own mean. */
  lemma MeanOfOne(row: seq<real>)
    ensures Mean([row], |row|) == row
  {
    var m := Mean([row], |row|);
    forall i | 0 <= i < |row|
      ensures m[i] == row[i]
    {
      assert [row][..0] == [];
      assert ColumnSum([row], i) == ColumnSum([], i) + row[i];
    }
  }
}

=== FILE: blocking.dfy ===
/** The block substrate: conversion between block and sample indices, and the
    bounded copy / overlap-add loops every other stage builds frames with.
    The source passes each array's own length as `channel_length` and
    `block_length` at every call site, so the model reads both lengths off
    the sequences. The JavaScript loops run over every index in
    `[start_idx, stop_idx]`, however far that reaches past either array;
    the guards inside decide what is written. */
module Blocking {
  import opened Types

  /** The first sample of block `blockIdx` on a grid with stride `hop`. */
  function BlockIdxToSampleIdx(blockIdx: int, hop: int): int
  {
    blockIdx * hop
  }

  /** With a positive hop, later blocks start strictly later. */
  lemma BlockIdxStrictlyIncreasing(b1: int, b2: int, hop: int)
    requires hop > 0 && b1 < b2
    ensures BlockIdxToSampleIdx(b1, hop) < BlockIdxToSampleIdx(b2, hop)
    ensures BlockIdxToSampleIdx(b2, hop) - BlockIdxToSampleIdx(b1, hop) >= hop
  {
    var d := b2 - b1 - 1;
    assert b2 * hop == b1 * hop + d * hop + hop;
    assert d * hop >= 0;
  }

  /** Seconds at which block `blockIdx` starts. */
  function BlockSeconds(blockIdx: int, hop: int, rate: real): real
    requires rate > 0.0
  {
    (BlockIdxToSampleIdx(blockIdx, hop) as real) / rate
  }

  /** The sample index of a time in seconds: `Math.floor(seconds * sample_rate)`. */
  function SecondsToSampleIdx(seconds: real, rate: real): int
  {
    (seconds * rate).Floor
  }

  /** Block-index intervals converted to seconds, pushed in input order. */
  function IntervalsBlockIdxToSeconds(blockIntervals: seq<Interval>, hop: int, rate: real): (r: seq<SecondsInterval>)
    requires rate > 0.0
    ensures |r| == |blockIntervals|
    ensures forall i :: 0 <= i < |r| ==>
      r[i].start * rate == (blockIntervals[i].start * hop) as real &&
      r[i].stop * rate == (blockIntervals[i].stop * hop) as real
  {
    if |blockIntervals| == 0 then []
    else
      var last := blockIntervals[|blockIntervals| - 1];
      IntervalsBlockIdxToSeconds(blockIntervals[..|blockIntervals| - 1], hop, rate)
        + [SecondsInterval(BlockSeconds(last.start, hop, rate), BlockSeconds(last.stop, hop, rate))]
  }

  /** Reading the seconds back as `ConcatenateIntervals` does recovers the
      exact first sample of each block. */
  lemma SecondsRoundTrip(blockIntervals: seq<Interval>, hop: int, rate: real, i: nat)
    requires rate > 0.0 && i < |blockIntervals|
    ensures SecondsToSampleIdx(IntervalsBlockIdxToSeconds(blockIntervals, hop, rate)[i].start, rate)
            == BlockIdxToSampleIdx(blockIntervals[i].start, hop)
    ensures SecondsToSampleIdx(IntervalsBlockIdxToSeconds(blockIntervals, hop, rate)[i].stop, rate)
            == BlockIdxToSampleIdx(blockIntervals[i].stop, hop)
  {
    var r := IntervalsBlockIdxToSeconds(blockIntervals, hop, rate);
    assert r[i].start * rate == (blockIntervals[i].start * hop) as real;
    assert r[i].stop * rate == (blockIntervals[i].stop * hop) as real;
  }

  /** The block `CopyToBlock` leaves behind: entry `k` of the first
      `stop - start + 1` entries is `channel[start + k]`, or zero past the
      channel's end; every other entry keeps its old value. */
  function CopiedBlock(channel: seq<real>, start: nat, stop: int, block: seq<real>): seq<real>
  {
    seq(|block|, k requires 0 <= k < |block| =>
      if k <= stop - start then (if start + k < |channel| then channel[start + k] else 0.0)
      else block[k])
  }

  /** The channel `CopyToChannel` leaves behind: an index `i` in
      `[start, stop]` takes `block[i - start]`, or zero past the block's
      end; every other index keeps its sample. */
  function CopiedChannel(channel: seq<real>, start: nat, stop: int, block: seq<real>): seq<real>
  {
    seq(|channel|, i requires 0 <= i < |channel| =>
      if start <= i <= stop then (if i - start < |block| then block[i - start] else 0.0)
      else channel[i])
  }

  /** The channel `OverlapAndAdd` leaves behind: an index `i` in
      `[start, stop]` with `i - start` inside the block gains
      `block[i - start]`; every other index keeps its sample. */
  function OverlapAdded(channel: seq<real>, start: nat, stop: int, block: seq<real>): seq<real>
  {
    seq(|channel|, i requires 0 <= i < |channel| =>
      if start <= i <= stop && i - start < |block| then channel[i] + block[i - start]
      else channel[i])
  }

  /** `CopyToBlock` only looks at the channel inside `[start, stop]`. */
  lemma CopiedBlockLocal(c1: seq<real>, c2: seq<real>, start: nat, stop: int, block: seq<real>)
    requires |c1| == |c2|
    requires forall j :: start <= j <= stop && j < |c1| ==> c1[j] == c2[j]
    ensures CopiedBlock(c1, start, stop, block) == CopiedBlock(c2, start, stop, block)
  {
    var b1 := CopiedBlock(c1, start, stop, block);
    var b2 := CopiedBlock(c2, start, stop, block);
    forall k | 0 <= k < |block|
      ensures b1[k] == b2[k]
    {
      if k <= stop - start && start + k < |c1| {
        assert c1[start + k] == c2[start + k];
      }
    }
  }

  /** Copy `channel[start..stop]` into the front of `block`, zero-filling once
      the channel runs out and dropping whatever does not fit the block. */
  method CopyToBlock(channel: seq<real>, start: nat, stop: int, block: seq<real>) returns (r: seq<real>)
    ensures |r| == |block|
    ensures forall k :: 0 <= k < |r| && k <= stop - start && start + k < |channel| ==> r[k] == channel[start + k]
    ensures forall k :: 0 <= k < |r| && k <= stop - start && start + k >= |channel| ==> r[k] == 0.0
    ensures forall k :: 0 <= k < |r| && k > stop - start ==> r[k] == block[k]
    ensures r == CopiedBlock(channel, start, stop, block)
  {
    r := block;
    var channelIdx := start;
    var blockIdx := 0;
    while channelIdx <= stop
      invariant channelIdx == start + blockIdx
      invariant |r| == |block|
      invariant forall k :: 0 <= k < |r| ==>
        r[k] == if k < blockIdx then CopiedBlock(channel, start, stop, block)[k] else block[k]
      decreases stop - channelIdx
    {
      if blockIdx < |block| {
        if channelIdx < |channel| {
          r := r[blockIdx := channel[channelIdx]];
        } else {
          r := r[blockIdx := 0.0];
        }
      }
      channelIdx := channelIdx + 1;
      blockIdx := blockIdx + 1;
    }
  }

  /** Copy `block` onto `channel[start..stop]`, writing zeros once the block
      runs out and never writing past the channel's end. */
  method CopyToChannel(channel: seq<real>, start: nat, stop: int, block: seq<real>) returns (r: seq<real>)
    ensures |r| == |channel|
    ensures forall i :: 0 <= i < |r| && start <= i <= stop && i - start < |block| ==> r[i] == block[i - start]
    ensures forall i :: 0 <= i < |r| && start <= i <= stop && i - start >= |block| ==> r[i] == 0.0
    ensures forall i :: 0 <= i < |r| && !(start <= i <= stop) ==> r[i] == channel[i]
    ensures r == CopiedChannel(channel, start, stop, block)
  {
    r := channel;
    var channelIdx := start;
    var blockIdx := 0;
    while channelIdx <= stop
      invariant channelIdx == start + blockIdx
      invariant |r| == |channel|
      invariant forall i :: 0 <= i < |r| ==>
        r[i] == if i < channelIdx then CopiedChannel(channel, start, stop, block)[i] else channel[i]
      decreases stop - channelIdx
    {
      if channelIdx < |channel| {
        if blockIdx < |block| {
          r := r[channelIdx := block[blockIdx]];
        } else {
          r := r[channelIdx := 0.0];
        }
      }
      channelIdx := channelIdx + 1;
      blockIdx := blockIdx + 1;
    }
  }

  /** Add `block` onto `channel[start..stop]`, leaving the channel alone
      wherever the block or the channel has run out. */
  method OverlapAndAdd(channel: seq<real>, start: nat, stop: int, block: seq<real>) returns (r: seq<real>)
    ensures |r| == |channel|
    ensures forall i :: 0 <= i < |r| && start <= i <= stop && i - start < |block| ==> r[i] == channel[i] + block[i - start]
    ensures forall i :: 0 <= i < |r| && !(start <= i <= stop && i - start < |block|) ==> r[i] == channel[i]
    ensures r == OverlapAdded(channel, start, stop, block)
  {
    r := channel;
    var channelIdx := start;
    var blockIdx := 0;
    while channelIdx <= stop
      invariant channelIdx == start + blockIdx
      invariant |r| == |channel|
      invariant forall i :: 0 <= i < |r| ==>
        r[i] == if i < channelIdx then OverlapAdded(channel, start, stop, block)[i] else channel[i]
      decreases stop - channelIdx
    {
      if blockIdx < |block| {
        if channelIdx < |channel| {
          r := r[channelIdx := r[channelIdx] + block[blockIdx]];
        }
      }
      channelIdx := channelIdx + 1;
      blockIdx := blockIdx + 1;
    }
  }

  /** Overlap-adding a silent block changes nothing. */
  lemma OverlapAddZeroBlock(channel: seq<real>, start: nat, stop: int, block: seq<real>)
    requires AllZero(block)
    ensures OverlapAdded(channel, start, stop, block) == channel
  {
    var r := OverlapAdded(channel, start, stop, block);
    forall i | 0 <= i < |channel|
      ensures r[i] == channel[i]
    {
      if start <= i <= stop && i - start < |block| {
        assert block[i - start] == 0.0;
      }
    }
  }

  /** Overlap-add accumulates: the order in which two blocks are added does
      not matter. */
  lemma OverlapAddCommutes(channel: seq<real>, s1: nat, e1: int, b1: seq<real>, s2: nat, e2: int, b2: seq<real>)
    ensures OverlapAdded(OverlapAdded(channel, s1, e1, b1), s2, e2, b2)
         == OverlapAdded(OverlapAdded(channel, s2, e2, b2), s1, e1, b1)
  {
  }

  /** Copying a block into a channel and reading the same range back returns
      the block, as long as the range lies inside the channel. */
  lemma CopyRoundTrip(channel: seq<real>, start: nat, block: seq<real>, scratch: seq<real>)
    requires |block| == |scratch| && start + |block| <= |channel|
    ensures CopiedBlock(CopiedChannel(channel, start, start + |block| - 1, block),
                        start, start + |block| - 1, scratch) == block
  {
  }

  /** `a <= b` survives multiplication by a non-negative stride. */
  lemma MulMonotone(a: int, b: int, hop: nat)
    requires a <= b
    ensures a * hop <= b * hop
  {
    assert b * hop - a * hop == (b - a) * hop;
  }

  /** Block `k` starts at a multiple of `hop`, from which `k` is recovered. */
  lemma BlockStartDivides(k: nat, hop: nat)
    requires hop > 0
    ensures (k * hop) / hop == k && (k * hop) % hop == 0
  {
    DivUnique(k * hop, hop, k, 0);
  }

  /** Block `k` starts at sample `k * hop`: a multiple of the hop, from
      which `k` is recovered, one hop before block `k + 1`. */
  lemma BlockIdxRoundTrip(k: int, hop: int)
    requires hop > 0
    ensures BlockIdxToSampleIdx(k, hop) / hop == k && BlockIdxToSampleIdx(k, hop) % hop == 0
    ensures BlockIdxToSampleIdx(k + 1, hop) == BlockIdxToSampleIdx(k, hop) + hop
  {
    DivUnique(BlockIdxToSampleIdx(k, hop), hop, k, 0);
  }

  /** Euclidean division is unique. */
  lemma DivUnique(a: int, d: nat, q: int, r: int)
    requires d > 0 && a == q * d + r && 0 <= r < d
    ensures a / d == q && a % d == r
  {
    var q', r' := a / d, a % d;
    assert a == q' * d + r';
    if q > q' {
      MulMonotone(q' + 1, q, d);
    } else if q < q' {
      MulMonotone(q + 1, q', d);
    }
  }

  /** How many blocks of `blockSize` samples, `hop` apart and starting at
      sample 0, fit entirely inside `len` samples: the number of passes of
      the `while(stop_idx < channel_length)` loops of the noise, preview and
      threshold stages. */
  function NumFullBlocks(len: nat, blockSize: nat, hop: nat): nat
    requires hop > 0
  {
    if blockSize > len then 0 else (len - blockSize) / hop + 1
  }

  /** Block `k` is one of the full blocks exactly when its last sample
      `k * hop + blockSize - 1` lies inside the signal. */
  lemma FullBlockBound(len: nat, blockSize: nat, hop: nat, k: nat)
    requires hop > 0
    ensures k < NumFullBlocks(len, blockSize, hop) <==> k * hop + blockSize <= len
  {
    if blockSize <= len {
      var q := (len - blockSize) / hop;
      assert q * hop + (len - blockSize) % hop == len - blockSize;
      if k <= q {
        MulMonotone(k, q, hop);
      } else {
        MulMonotone(q + 1, k, hop);
      }
    } else {
      MulMonotone(0, k, hop);
    }
  }

  /** Block `k` as `CopyToBlock` reads it into a fresh buffer of
      `blockSize` entries. */
  function ReadBlock(x: seq<real>, k: nat, blockSize: nat, hop: nat): (b: seq<real>)
    ensures |b| == blockSize
  {
    var start := BlockIdxToSampleIdx(k, hop);
    CopiedBlock(x, start, start + blockSize - 1, Zeros(blockSize))
  }

  /** A full block is read verbatim. */
  lemma ReadFullBlock(x: seq<real>, k: nat, blockSize: nat, hop: nat)
    requires hop > 0 && k < NumFullBlocks(|x|, blockSize, hop)
    ensures BlockIdxToSampleIdx(k, hop) + blockSize <= |x|
    ensures ReadBlock(x, k, blockSize, hop) == x[BlockIdxToSampleIdx(k, hop) .. BlockIdxToSampleIdx(k, hop) + blockSize]
  {
    FullBlockBound(|x|, blockSize, hop, k);
    CopyWholeBlock(x, BlockIdxToSampleIdx(k, hop), Zeros(blockSize));
  }

  /** When the whole range lies inside the channel and matches the block's
      length, `CopyToBlock` overwrites every entry: the old contents of a
      reused block buffer do not matter. */
  lemma CopyWholeBlock(channel: seq<real>, start: nat, stale: seq<real>)
    requires start + |stale| <= |channel|
    ensures CopiedBlock(channel, start, start + |stale| - 1, stale) == channel[start .. start + |stale|]
  {
  }

  /** Reading full block `k` into a reused buffer yields `ReadBlock`,
      whatever the buffer held before. */
  lemma ReadIntoBuffer(x: seq<real>, k: nat, blockSize: nat, hop: nat, stale: seq<real>)
    requires hop > 0 && k < NumFullBlocks(|x|, blockSize, hop) && |stale| == blockSize
    ensures CopiedBlock(x, BlockIdxToSampleIdx(k, hop), BlockIdxToSampleIdx(k, hop) + blockSize - 1, stale)
         == ReadBlock(x, k, blockSize, hop)
  {
    ReadFullBlock(x, k, blockSize, hop);
    CopyWholeBlock(x, BlockIdxToSampleIdx(k, hop), stale);
  }

  /** Sample `i` lies inside one of the first `m` blocks. */
  predicate Covered(i: int, m: nat, blockSize: nat, hop: nat)
  {
    exists k :: 0 <= k < m && BlockIdxToSampleIdx(k, hop) <= i < BlockIdxToSampleIdx(k, hop) + blockSize
  }

  /** The window sum: `window` overlap-added at the start of each of the
      first `m` blocks onto `len` zeros. */
  function OlaWindows(len: nat, window: seq<real>, hop: nat, m: nat): (r: seq<real>)
    ensures |r| == len
  {
    if m == 0 then Zeros(len)
    else
      var start := BlockIdxToSampleIdx(m - 1, hop);
      OverlapAdded(OlaWindows(len, window, hop, m - 1), start, start + |window| - 1, window)
  }

  /** Samples no block reaches get no window weight. */
  lemma {:induction false} OlaWindowsUncovered(len: nat, window: seq<real>, hop: nat, m: nat, i: nat)
    requires i < len && !Covered(i, m, |window|, hop)
    ensures OlaWindows(len, window, hop, m)[i] == 0.0
  {
    if m > 0 {
      OlaWindowsUncovered(len, window, hop, m - 1, i);
      var start := BlockIdxToSampleIdx(m - 1, hop);
      assert !(start <= i < start + |window|);
    }
  }

  /** The divide-by-zero guard of the overlap-add stages: among the first
      `count` entries, every one below `threshold` is replaced by
      `replacement`; the rest are kept. */
  function FloorEntries(c: seq<real>, threshold: real, replacement: real, count: int): (r: seq<real>)
    requires replacement >= threshold
    ensures |r| == |c|
    ensures forall i :: 0 <= i < |c| && i < count ==> r[i] >= threshold
    ensures forall i :: 0 <= i < |c| && (i >= count || c[i] >= threshold) ==> r[i] == c[i]
  {
    seq(|c|, i requires 0 <= i < |c| => if i < count && c[i] < threshold then replacement else c[i])
  }

  /** The sample-index extent of a slice `[floor(s * rate), floor(e * rate)]`. */
  function SliceBounds(iv: SecondsInterval, rate: real): Interval
  {
    Interval(SecondsToSampleIdx(iv.start, rate), SecondsToSampleIdx(iv.stop, rate))
  }

  /** A slice that starts at a valid index and, when non-empty, ends inside `x`. */
  predicate SliceFits(x: seq<real>, iv: SecondsInterval, rate: real)
  {
    var b := SliceBounds(iv, rate);
    0 <= b.start && (b.start <= b.stop ==> b.stop < |x|)
  }

  /** Every slice fits. */
  predicate AllSlicesFit(x: seq<real>, intervals: seq<SecondsInterval>, rate: real)
  {
    forall i :: 0 <= i < |intervals| ==> SliceFits(x, intervals[i], rate)
  }

  /** The concatenation, in order, of `x[floor(s * rate) ..= floor(e * rate)]`
      over the intervals. */
  function Gathered(x: seq<real>, intervals: seq<SecondsInterval>, rate: real): seq<real>
    requires AllSlicesFit(x, intervals, rate)
  {
    if |intervals| == 0 then []
    else
      var b := SliceBounds(intervals[|intervals| - 1], rate);
      Gathered(x, intervals[..|intervals| - 1], rate)
        + (if b.start <= b.stop then x[b.start..b.stop + 1] else [])
  }

  /** Concatenate the samples of every interval (given in seconds). The source
      returns `undefined` the moment an index reaches the end of `x`, even
      after earlier intervals were gathered. */
  method ConcatenateIntervals(x: seq<real>, intervals: seq<SecondsInterval>, rate: real) returns (r: Option<seq<real>>)
    requires forall i :: 0 <= i < |intervals| ==> SliceBounds(intervals[i], rate).start >= 0
    ensures r.Some? <==> AllSlicesFit(x, intervals, rate)
    ensures r.Some? ==> r.value == Gathered(x, intervals, rate)
  {
    var y: seq<real> := [];
    var intervalIdx := 0;
    while intervalIdx < |intervals|
      invariant 0 <= intervalIdx <= |intervals|
      invariant AllSlicesFit(x, intervals[..intervalIdx], rate)
      invariant y == Gathered(x, intervals[..intervalIdx], rate)
    {
      var b := SliceBounds(intervals[intervalIdx], rate);
      var sampleIdx := b.start;
      while sampleIdx <= b.stop
        invariant b.start <= sampleIdx
        invariant sampleIdx > b.start ==> sampleIdx <= |x| && sampleIdx <= b.stop + 1
        invariant y == Gathered(x, intervals[..intervalIdx], rate) + (if sampleIdx > b.start then x[b.start..sampleIdx] else [])
      {
        if sampleIdx >= |x| {
          assert !SliceFits(x, intervals[intervalIdx], rate);
          return None;
        }
        y := y + [x[sampleIdx]];
        sampleIdx := sampleIdx + 1;
      }
      assert intervals[..intervalIdx + 1][..intervalIdx] == intervals[..intervalIdx];
      assert SliceFits(x, intervals[intervalIdx], rate);
      assert AllSlicesFit(x, intervals[..intervalIdx + 1], rate);
      intervalIdx := intervalIdx + 1;
    }
    assert intervals[..intervalIdx] == intervals;
    return Some(y);
  }
}

=== FILE: clip_intervals.dfy ===
/** Clip intervals as the declipper consumes them, and the runs of reliable
    samples on either side of one interval that both declipping passes train
    on. */
module ClipIntervals {
  import opened Types

  /** Every interval is non-empty and starts at a sample index. */
  predicate WellFormed(intervals: seq<Interval>)
  {
    forall i :: 0 <= i < |intervals| ==> 0 <= intervals[i].start <= intervals[i].stop
  }

  /** Intervals are in increasing order and do not touch or overlap. */
  predicate Ordered(intervals: seq<Interval>)
  {
    forall i, j :: 0 <= i < j < |intervals| ==> intervals[i].stop < intervals[j].start
  }

  /** Every interval ends inside a signal of `len` samples. */
  predicate WithinSignal(intervals: seq<Interval>, len: int)
  {
    forall i :: 0 <= i < |intervals| ==> intervals[i].stop < len
  }

  /** Number of indices in `[start, stop]`; zero or negative when empty. */
  function Length(iv: Interval): int
  {
    iv.stop - iv.start + 1
  }

  /** Sample `j` lies in one of the first `m` intervals. */
  predicate InIntervals(j: int, intervals: seq<Interval>, m: nat)
    requires m <= |intervals|
  {
    exists k :: 0 <= k < m && intervals[k].start <= j <= intervals[k].stop
  }

  /** Where the reliable run left of interval `idx` starts before trimming:
      just past the previous interval, or at sample 1 for the first one. */
  function LeftGapStart(intervals: seq<Interval>, idx: nat): int
    requires idx < |intervals|
  {
    if idx == 0 then 1 else intervals[idx - 1].stop + 1
  }

  /** The reliable run left of interval `idx`, cut down to its last
      `maxLen` samples. */
  function LeftGap(intervals: seq<Interval>, idx: nat, maxLen: nat): (g: Interval)
    requires idx < |intervals|
    ensures g.stop == intervals[idx].start - 1
    ensures g.start >= LeftGapStart(intervals, idx)
    ensures Length(g) <= maxLen
    ensures g.start == LeftGapStart(intervals, idx) || Length(g) == maxLen
  {
    var start := LeftGapStart(intervals, idx);
    var stop := intervals[idx].start - 1;
    if stop - start + 1 > maxLen then Interval(stop - maxLen + 1, stop) else Interval(start, stop)
  }

  /** Where the reliable run right of interval `idx` stops before trimming:
      just before the next interval, or at `lastStop` for the last one. */
  function RightGapStop(intervals: seq<Interval>, idx: nat, lastStop: int): int
    requires idx < |intervals|
  {
    if idx < |intervals| - 1 then intervals[idx + 1].start - 1 else lastStop
  }

  /** The reliable run right of interval `idx`, cut down to its first
      `maxLen` samples. */
  function RightGap(intervals: seq<Interval>, idx: nat, lastStop: int, maxLen: nat): (g: Interval)
    requires idx < |intervals|
    ensures g.start == intervals[idx].stop + 1
    ensures g.stop <= RightGapStop(intervals, idx, lastStop)
    ensures Length(g) <= maxLen
    ensures g.stop == RightGapStop(intervals, idx, lastStop) || Length(g) == maxLen
  {
    var start := intervals[idx].stop + 1;
    var stop := RightGapStop(intervals, idx, lastStop);
    if stop - start + 1 > maxLen then Interval(start, start + maxLen - 1) else Interval(start, stop)
  }

  /** No sample of either run lies inside any clip interval, when the
      intervals are well formed and ordered. */
  lemma GapsAvoidIntervals(intervals: seq<Interval>, idx: nat, lastStop: int, maxLen: nat, j: int, k: nat)
    requires WellFormed(intervals) && Ordered(intervals)
    requires idx < |intervals| && k < |intervals|
    requires LeftGap(intervals, idx, maxLen).start <= j <= LeftGap(intervals, idx, maxLen).stop
          || RightGap(intervals, idx, lastStop, maxLen).start <= j <= RightGap(intervals, idx, lastStop, maxLen).stop
    ensures !(intervals[k].start <= j <= intervals[k].stop)
  {
    if LeftGap(intervals, idx, maxLen).start <= j <= LeftGap(intervals, idx, maxLen).stop {
      if k < idx {
        assert intervals[k].stop <= intervals[idx - 1].stop by {
          if k < idx - 1 {
            assert intervals[k].stop < intervals[idx - 1].start;
          }
        }
      } else if k > idx {
        assert intervals[idx].start <= intervals[idx].stop < intervals[k].start;
      }
    } else {
      if k < idx {
        assert intervals[k].stop < intervals[idx].start;
      } else if k > idx {
        assert intervals[idx + 1].start <= intervals[k].start by {
          if k > idx + 1 {
            assert intervals[idx + 1].stop < intervals[k].start;
          }
        }
      }
    }
  }

  /** Both runs start at sample 1 or later: sample 0 never trains anything. */
  lemma GapsStartPastZero(intervals: seq<Interval>, idx: nat, lastStop: int, maxLen: nat)
    requires WellFormed(intervals) && idx < |intervals|
    ensures LeftGap(intervals, idx, maxLen).start >= 1
    ensures RightGap(intervals, idx, lastStop, maxLen).start >= 1
  {
  }
}

=== FILE: declip_long_bursts.dfy ===
/** Long-burst declipping. The channel is split into a low and a high band;
    only the high band is repaired. Its clip intervals are grouped into
    segments of whole blocks; each segment is resynthesised block by block
    from interpolated known-point magnitudes (never above the clipped
    magnitudes) and the clipped phases, overlap-added, normalised by the
    window sum and cross-faded into the band. The FFT pair, the
    feed-forward filters and the interval utilities are collaborators and
    enter as parameters. */
module DeclipLongBursts {
  import opened Types
  import opened Blocking
  import opened Interpolation

  // ---------------------------------------------------------------- bands

  /** The only sample rate with a lowpass design. */
  const SupportedRate: real := 44100.0

  /** The 26 feed-forward taps of the 100 Hz lowpass for 44.1 kHz. */
  const LowpassCoefficients: seq<real> :=
    [0.1304, 0.0218, 0.0233, 0.0248, 0.0262, 0.0276, 0.0288,
     0.0299, 0.0307, 0.0314, 0.0319, 0.0325, 0.0326, 0.0326,
     0.0325, 0.0319, 0.0314, 0.0307, 0.0299, 0.0288, 0.0276,
     0.0262, 0.0248, 0.0233, 0.0218, 0.1304]

  /** The order of that lowpass. */
  const LowpassOrder: nat := 25

  /** A feed-forward filter: signal and taps to filtered signal. */
  type Filter = (seq<real>, seq<real>) -> seq<real>

  /** The filter returns a signal as long as its input. */
  ghost predicate KeepsLength(f: Filter)
  {
    forall s, c :: |f(s, c)| == |s|
  }

  /** What `SplitIntoBands` hands back: the two bands and the filter order,
      or, for an unsupported rate, the input itself. */
  datatype Bands = Bands(low: seq<real>, high: seq<real>, order: nat) | Passthrough(x: seq<real>)

  /** The taps are symmetric and there are `LowpassOrder + 1` of them. */
  lemma LowpassIsLinearPhase()
    ensures |LowpassCoefficients| == LowpassOrder + 1
    ensures forall i :: 0 <= i <= LowpassOrder ==> LowpassCoefficients[i] == LowpassCoefficients[LowpassOrder - i]
  {
  }

  /** Lowpass forwards then backwards; the high band is what the lowpass
      removed, so the two bands add back up to the input exactly. */
  function SplitIntoBands(x: seq<real>, fs: real, forwards: Filter, backwards: Filter): (b: Bands)
    requires KeepsLength(forwards) && KeepsLength(backwards)
    ensures b.Passthrough? <==> fs != SupportedRate
    ensures b.Passthrough? ==> b.x == x
    ensures b.Bands? ==> b.order == LowpassOrder && |b.low| == |x| && |b.high| == |x|
    ensures b.Bands? ==> b.low == backwards(forwards(x, LowpassCoefficients), LowpassCoefficients)
    ensures b.Bands? ==> Add(b.low, b.high) == x && Add(b.high, b.low) == x
  {
    if fs != SupportedRate then Passthrough(x)
    else
      var low := backwards(forwards(x, LowpassCoefficients), LowpassCoefficients);
      var high := Subtract(x, low);
      assert Add(low, high) == x;
      assert Add(high, low) == x;
      Bands(low, high, LowpassOrder)
  }

  // ------------------------------------------------------ segment repair

  /** Magnitudes and phases of one block's spectrum. */
  datatype Spectrum = Spectrum(magnitudes: seq<real>, phases: seq<real>)

  /** The analysis (shift, FFT, magnitude and phase) and synthesis
      (real and imaginary parts, inverse FFT, shift) of one block. */
  datatype Transform = Transform(analyze: seq<real> -> Spectrum, synthesize: Spectrum -> seq<real>)

  /** Samples spanned by a segment of blocks `[start, stop]`:
      `(blocks - 1) * hop + blockSize`. */
  function NumReplacementSamples(seg: Interval, blockSize: nat, hop: nat): (n: int)
    ensures seg.start <= seg.stop ==> n >= blockSize
    ensures seg.start == seg.stop ==> n == blockSize
  {
    if seg.start <= seg.stop then
      MulMonotone(0, seg.stop - seg.start, hop);
      (seg.stop - seg.start + 1 - 1) * hop + blockSize
    else (seg.stop - seg.start + 1 - 1) * hop + blockSize
  }

  /** The segment is a non-empty range of block indices and its replacement
      buffer is no longer than the band (the divide-by-zero guard only
      reaches the band's length). */
  predicate SegmentFits(seg: Interval, blockSize: nat, hop: nat, len: int)
  {
    0 <= seg.start <= seg.stop && NumReplacementSamples(seg, blockSize, hop) <= len
  }

  /** The sample the magnitude estimate of block `b` is taken at. */
  function BlockCentre(b: int, blockSize: nat, hop: nat): int
  {
    BlockIdxToSampleIdx(b, hop) + HalfUp(blockSize)
  }

  /** Interpolation is defined at the centres of blocks `from .. from +
      count - 1`: these are the only query times the pass uses for them. */
  predicate BlocksInterpolable(points: seq<KnownPoint>, from: int, count: int, blockSize: nat, hop: nat)
  {
    forall b :: from <= b < from + count ==> Interpolable(points, BlockCentre(b, blockSize, hop), blockSize)
  }

  /** Interpolation is defined at the centre of every block of `seg`. */
  predicate SegmentInterpolable(points: seq<KnownPoint>, seg: Interval, blockSize: nat, hop: nat)
  {
    BlocksInterpolable(points, seg.start, seg.stop - seg.start + 1, blockSize, hop)
  }

  /** Interpolation is defined at the block centres of the first `m`
      segments, the ones the pass resynthesises; the known points are
      otherwise unconstrained. */
  predicate FirstSegmentsInterpolable(points: seq<KnownPoint>, segments: seq<Interval>, m: int, blockSize: nat, hop: nat)
  {
    forall k :: 0 <= k < m && k < |segments| ==> SegmentInterpolable(points, segments[k], blockSize, hop)
  }

  /** Points interpolable at every time are interpolable at the centres of
      any segments. */
  lemma EverywhereCoversSegments(points: seq<KnownPoint>, segments: seq<Interval>, m: int, blockSize: nat, hop: nat)
    requires InterpolableEverywhere(points, blockSize)
    ensures FirstSegmentsInterpolable(points, segments, m, blockSize, hop)
  {
  }

  /** When the pass processes no segment, any known points are accepted,
      even the list of a channel clipped from its first sample to its last,
      whose only pair has equal times and cannot be interpolated at time 1. */
  lemma UnprocessedSegmentNeedsNoPoints(n: nat, segments: seq<Interval>, hop: nat)
    requires |segments| <= 1
    ensures var points := [KnownPoint(1, Zeros(n)), KnownPoint(1, [0.0])];
      && !InterpolableEverywhere(points, n)
      && FirstSegmentsInterpolable(points, segments, |segments| - 1, n, hop)
  {
    var points := [KnownPoint(1, Zeros(n)), KnownPoint(1, [0.0])];
    assert Brackets(points, 0, 1);
    assert !Interpolable(points, 1, n);
  }

  /** Where block `m - 1` of the segment is overlap-added into the
      replacement buffer: at its own start relative to the segment's first
      block, which is `(m - 1) * hop`, and never past the buffer's last full
      block. */
  lemma BlockOffset(seg: Interval, blockSize: nat, hop: nat, m: nat)
    requires 0 <= seg.start && 1 <= m
    ensures BlockIdxToSampleIdx(seg.start + m - 1, hop) - BlockIdxToSampleIdx(seg.start, hop)
         == BlockIdxToSampleIdx(m - 1, hop) >= 0
    ensures m <= seg.stop - seg.start + 1 ==>
      BlockIdxToSampleIdx(m - 1, hop) + blockSize <= NumReplacementSamples(seg, blockSize, hop)
  {
    assert (seg.start + m - 1) * hop == seg.start * hop + (m - 1) * hop;
    MulMonotone(0, m - 1, hop);
    if m <= seg.stop - seg.start + 1 {
      MulMonotone(m - 1, seg.stop - seg.start, hop);
    }
  }

  /** The per-bin clamp: an estimate above the clipped magnitude is replaced
      by the clipped magnitude, so bin `f` is the smaller of the two. */
  function Clamp(estimate: seq<real>, clipped: seq<real>): (r: seq<real>)
    requires |estimate| == |clipped|
    ensures |r| == |estimate|
    ensures forall f :: 0 <= f < |r| ==> r[f] <= clipped[f] && r[f] <= estimate[f]
    ensures forall f :: 0 <= f < |r| ==> r[f] == estimate[f] || r[f] == clipped[f]
  {
    seq(|estimate|, f requires 0 <= f < |estimate| => if estimate[f] > clipped[f] then clipped[f] else estimate[f])
  }

  /** The buffers of `ReplaceClipSegment` after its first `m` blocks: the
      overlap-added resynthesised blocks and the magnitude estimate, which
      carries over from block to block. The window-compensation buffer the
      source fills in the same loop only ever receives the window at each
      block's offset, whatever the signal, so it is `WindowGuard`'s window
      sum and is not carried here. */
  datatype SegmentState = SegmentState(replacements: seq<real>, estimate: seq<real>)

  /** The spectrum of block `b` of `x`, windowed, with magnitudes and phases
      written into buffers of one block. */
  function BlockSpectrum(x: seq<real>, b: nat, hop: nat, window: seq<real>, t: Transform): (s: Spectrum)
    ensures |s.magnitudes| == |window| && |s.phases| == |window|
  {
    var spectrum := t.analyze(Multiply(ReadBlock(x, b, |window|, hop), window));
    Spectrum(Fit(spectrum.magnitudes, |window|), Fit(spectrum.phases, |window|))
  }

  /** The magnitude estimate for block `b`: the known points interpolated
      at the block's centre (or the previous estimate when none bracket it),
      clamped to the block's clipped magnitudes. */
  function BlockEstimate(x: seq<real>, b: nat, points: seq<KnownPoint>, hop: nat,
                         window: seq<real>, t: Transform, previous: seq<real>): (e: seq<real>)
    requires Interpolable(points, BlockCentre(b, |window|, hop), |window|) && |previous| == |window|
    ensures |e| == |window|
    ensures forall f :: 0 <= f < |e| ==> e[f] <= BlockSpectrum(x, b, hop, window, t).magnitudes[f]
  {
    var centre := BlockCentre(b, |window|, hop);
    Clamp(LinearInterpolate(points, centre, previous), BlockSpectrum(x, b, hop, window, t).magnitudes)
  }

  /** Block `b` resynthesised from `estimate` and its own clipped phases,
      then windowed. */
  function SynthesisedBlock(x: seq<real>, b: nat, hop: nat, window: seq<real>, t: Transform,
                            estimate: seq<real>): (block: seq<real>)
    ensures |block| == |window|
  {
    var spectrum := BlockSpectrum(x, b, hop, window, t);
    Multiply(Fit(t.synthesize(Spectrum(estimate, spectrum.phases)), |window|), window)
  }

  /** The buffers after the first `m` blocks of the segment. Block `m - 1`
      is added at `(m - 1) * hop`, which `BlockOffset` shows is the
      source's `b * hop - start * hop`. */
  function SegmentAfter(x: seq<real>, seg: Interval, points: seq<KnownPoint>, hop: nat,
                        window: seq<real>, t: Transform, m: nat): (s: SegmentState)
    requires 0 <= seg.start <= seg.stop && BlocksInterpolable(points, seg.start, m, |window|, hop)
    ensures |s.replacements| == NumReplacementSamples(seg, |window|, hop)
    ensures |s.estimate| == |window|
  {
    var n := NumReplacementSamples(seg, |window|, hop);
    if m == 0 then SegmentState(Zeros(n), Zeros(|window|))
    else
      var prev := SegmentAfter(x, seg, points, hop, window, t, m - 1);
      var b := seg.start + m - 1;
      var estimate := BlockEstimate(x, b, points, hop, window, t, prev.estimate);
      var block := SynthesisedBlock(x, b, hop, window, t, estimate);
      BlockOffset(seg, |window|, hop, m);
      var offset := BlockIdxToSampleIdx(m - 1, hop);
      SegmentState(OverlapAdded(prev.replacements, offset, offset + |window| - 1, block), estimate)
  }

  /** The resynthesised segment: blocks `seg.start .. seg.stop` of `x`
      replaced by their estimated spectra, overlap-added and divided by the
      window compensation, whose entries below 0.00001 among the first
      `|x|` are first set to 1. */
  function ReplaceClipSegment(x: seq<real>, seg: Interval, points: seq<KnownPoint>, hop: nat,
                              window: seq<real>, t: Transform): (r: seq<real>)
    requires SegmentFits(seg, |window|, hop, |x|) && SegmentInterpolable(points, seg, |window|, hop)
    ensures |r| == NumReplacementSamples(seg, |window|, hop)
  {
    Divide(SegmentAfter(x, seg, points, hop, window, t, seg.stop - seg.start + 1).replacements,
           WindowGuard(|x|, seg, hop, window))
  }

  /** The window sum of the segment's blocks with its entries below
      0.00001 among the first `len` set to 1: when the segment fits, every
      entry is at least 0.00001, so dividing by it is defined. */
  function WindowGuard(len: int, seg: Interval, hop: nat, window: seq<real>): (g: seq<real>)
    requires SegmentFits(seg, |window|, hop, len)
    ensures |g| == NumReplacementSamples(seg, |window|, hop)
    ensures forall i :: 0 <= i < |g| ==> g[i] >= 0.00001
  {
    FloorEntries(OlaWindows(NumReplacementSamples(seg, |window|, hop), window, hop, seg.stop - seg.start + 1),
                 0.00001, 1.0, len)
  }

  // ----------------------------------------------------------- cross-fade

  /** The first half (rounded up) of the window: the fade-in curve. */
  function FadeIn(window: seq<real>): (r: seq<real>)
    ensures |r| == HalfUp(|window|)
    ensures forall i :: 0 <= i < |r| ==> r[i] == window[i]
  {
    var fade := HalfUp(|window|);
    CopiedBlock(window, 0, fade - 1, Zeros(fade))
  }

  /** One minus the fade-in curve, so that the two weights of every
      cross-faded sample sum to one. */
  function FadeOut(window: seq<real>): (r: seq<real>)
    ensures |r| == HalfUp(|window|)
    ensures forall i :: 0 <= i < |r| ==> r[i] + window[i] == 1.0
  {
    var fadeIn := FadeIn(window);
    seq(|fadeIn|, i requires 0 <= i < |fadeIn| => 1.0 - fadeIn[i])
  }

  /** `a` faded in over `b`: weight `w` on `a` and `1 - w` on `b`. */
  function Blend(a: real, b: real, w: real): real
  {
    a * w + b * (1.0 - w)
  }

  /** Two fade-length blocks cross-faded sample by sample: `a` weighted by
      the fade-in curve plus `b` weighted by the fade-out curve. */
  function FadedBlock(a: seq<real>, b: seq<real>, window: seq<real>): (r: seq<real>)
    requires |a| == HalfUp(|window|) && |b| == HalfUp(|window|)
    ensures |r| == HalfUp(|window|)
    ensures forall k :: 0 <= k < |r| ==> r[k] == Blend(a[k], b[k], window[k])
  {
    var fadeIn := FadeIn(window);
    var fadeOut := FadeOut(window);
    var r := Add(Multiply(a, fadeIn), Multiply(b, fadeOut));
    assert forall k :: 0 <= k < |r| ==> fadeIn[k] == window[k] && fadeOut[k] == 1.0 - window[k];
    r
  }

  /** The last sample of the left cross-fade. */
  function LeftFadeStop(writeStart: nat, window: seq<real>): int
  {
    writeStart + HalfUp(|window|) - 1
  }

  /** The first sample of the right cross-fade. */
  function RightFadeStart(writeStop: nat, window: seq<real>): nat
  {
    writeStop + |window| - HalfUp(|window|)
  }

  /** The left cross-fade: the first `fade` replacement samples faded in
      over the band's samples from `writeStart` on, which fade out. */
  function LeftFaded(x: seq<real>, repl: seq<real>, writeStart: nat, window: seq<real>): (r: seq<real>)
    requires |repl| >= HalfUp(|window|)
    ensures |r| == |x|
    ensures forall i :: 0 <= i < |x| ==>
      if writeStart <= i <= LeftFadeStop(writeStart, window)
      then r[i] == Blend(repl[i - writeStart], x[i], window[i - writeStart])
      else r[i] == x[i]
  {
    var fade := HalfUp(|window|);
    var leftStop := LeftFadeStop(writeStart, window);
    var left := FadedBlock(CopiedBlock(repl, 0, fade - 1, Zeros(fade)),
                           CopiedBlock(x, writeStart, leftStop, Zeros(fade)), window);
    CopiedChannel(x, writeStart, leftStop, left)
  }

  /** The middle copy: replacement samples `fade .. |repl| - 1 - fade`
      written between the two fades (zeros once they run out). */
  function MiddleWritten(x: seq<real>, repl: seq<real>, writeStart: nat, writeStop: nat, window: seq<real>): (r: seq<real>)
    requires |repl| >= 2 * HalfUp(|window|)
    ensures |r| == |x|
    ensures forall i :: 0 <= i < |x| ==>
      if LeftFadeStop(writeStart, window) < i < RightFadeStart(writeStop, window)
      then r[i] == (if i - writeStart < |repl| - HalfUp(|window|) then repl[i - writeStart] else 0.0)
      else r[i] == x[i]
  {
    var fade := HalfUp(|window|);
    var middle := CopiedBlock(repl, fade, |repl| - 1 - fade, Zeros(|repl| - 2 * fade));
    CopiedChannel(x, LeftFadeStop(writeStart, window) + 1, RightFadeStart(writeStop, window) - 1, middle)
  }

  /** The right cross-fade: the band's samples up to
      `writeStop + |window| - 1` faded back in over the last `fade`
      replacement samples, which fade out. */
  function RightFaded(x: seq<real>, repl: seq<real>, writeStop: nat, window: seq<real>): (r: seq<real>)
    requires |repl| >= HalfUp(|window|)
    ensures |r| == |x|
    ensures forall i :: RightFadeStart(writeStop, window) <= i <= writeStop + |window| - 1 && i < |x| ==>
      r[i] == Blend(x[i], repl[i + |repl| - (writeStop + |window|)], window[i - RightFadeStart(writeStop, window)])
    ensures forall i :: 0 <= i < |x| && !(RightFadeStart(writeStop, window) <= i <= writeStop + |window| - 1) ==>
      r[i] == x[i]
  {
    var fade := HalfUp(|window|);
    var rightStart := RightFadeStart(writeStop, window);
    var rightStop := writeStop + |window| - 1;
    var right := FadedBlock(CopiedBlock(x, rightStart, rightStop, Zeros(fade)),
                            CopiedBlock(repl, |repl| - fade, |repl| - 1, Zeros(fade)), window);
    CopiedChannel(x, rightStart, rightStop, right)
  }

  /** `CrossFadeReplacementsInPlace`: the band with the replacement written
      over `[writeStart, writeStop + |window| - 1]`, cross-faded over half a
      window at each end. The middle part is allocated with
      `|repl| - 2 * fade` entries, so a replacement shorter than two fades
      throws (`None`). Nothing outside the written range changes. */
  function CrossFade(x: seq<real>, repl: seq<real>, writeStart: nat, writeStop: nat, window: seq<real>): (r: Option<seq<real>>)
    ensures r.Some? <==> |repl| >= 2 * HalfUp(|window|)
    ensures r.Some? ==> |r.value| == |x|
    ensures r.Some? && writeStart <= writeStop ==>
      forall i :: 0 <= i < |x| && !(writeStart <= i <= writeStop + |window| - 1) ==> r.value[i] == x[i]
  {
    if |repl| < 2 * HalfUp(|window|) then None
    else
      var x1 := LeftFaded(x, repl, writeStart, window);
      var x2 := MiddleWritten(x1, repl, writeStart, writeStop, window);
      Some(RightFaded(x2, repl, writeStop, window))
  }

  /** The left cross-fade, for a replacement as long as the write range
      (as every segment's is): sample `i` at offset `j = i - writeStart` is
      `repl[j]` faded in over `x[i]` with weights `window[j]` and
      `1 - window[j]`. */
  lemma CrossFadeLeft(x: seq<real>, repl: seq<real>, writeStart: nat, writeStop: nat, window: seq<real>, i: nat)
    requires |repl| == writeStop - writeStart + |window| && |repl| >= 2 * HalfUp(|window|)
    requires writeStart <= i <= LeftFadeStop(writeStart, window) && i < |x|
    ensures var j := i - writeStart;
      CrossFade(x, repl, writeStart, writeStop, window).value[i] == Blend(repl[j], x[i], window[j])
  {
    var j := i - writeStart;
    var x1 := LeftFaded(x, repl, writeStart, window);
    var x2 := MiddleWritten(x1, repl, writeStart, writeStop, window);
    assert i < RightFadeStart(writeStop, window);
    assert CrossFade(x, repl, writeStart, writeStop, window).value[i] == x2[i];
    assert x2[i] == x1[i];
  }

  /** The middle copy reads and writes `|repl| - 2 * fade` samples, and
      every sample between the fades is `repl[i - writeStart]`. */
  lemma CrossFadeMiddle(x: seq<real>, repl: seq<real>, writeStart: nat, writeStop: nat, window: seq<real>, i: nat)
    requires |repl| == writeStop - writeStart + |window| && |repl| >= 2 * HalfUp(|window|)
    requires LeftFadeStop(writeStart, window) < i < RightFadeStart(writeStop, window) && i < |x|
    ensures (RightFadeStart(writeStop, window) - 1) - (LeftFadeStop(writeStart, window) + 1) + 1
         == (|repl| - 1 - HalfUp(|window|)) - HalfUp(|window|) + 1
         == |repl| - 2 * HalfUp(|window|)
    ensures CrossFade(x, repl, writeStart, writeStop, window).value[i] == repl[i - writeStart]
  {
    var x1 := LeftFaded(x, repl, writeStart, window);
    var x2 := MiddleWritten(x1, repl, writeStart, writeStop, window);
    assert x2[i] == repl[i - writeStart];
  }

  /** The right cross-fade: sample `i` at offset `k` into the last fade is
      `x[i]` faded back in over `repl[i - writeStart]` with weights
      `window[k]` and `1 - window[k]`. */
  lemma CrossFadeRight(x: seq<real>, repl: seq<real>, writeStart: nat, writeStop: nat, window: seq<real>, i: nat)
    requires |repl| == writeStop - writeStart + |window| && |repl| >= 2 * HalfUp(|window|)
    requires RightFadeStart(writeStop, window) <= i <= writeStop + |window| - 1 && i < |x|
    ensures var k := i - RightFadeStart(writeStop, window);
      CrossFade(x, repl, writeStart, writeStop, window).value[i] == Blend(x[i], repl[i - writeStart], window[k])
  {
    var x1 := LeftFaded(x, repl, writeStart, window);
    var x2 := MiddleWritten(x1, repl, writeStart, writeStop, window);
    KeptUpToRightFade(x, repl, writeStart, writeStop, window, i);
    RightFadedAt(x2, repl, writeStart, writeStop, window, i);
  }

  /** The left fade and the middle copy leave the right fade's samples alone. */
  lemma KeptUpToRightFade(x: seq<real>, repl: seq<real>, writeStart: nat, writeStop: nat, window: seq<real>, i: nat)
    requires |repl| == writeStop - writeStart + |window| && |repl| >= 2 * HalfUp(|window|)
    requires RightFadeStart(writeStop, window) <= i < |x|
    ensures MiddleWritten(LeftFaded(x, repl, writeStart, window), repl, writeStart, writeStop, window)[i] == x[i]
  {
    var x1 := LeftFaded(x, repl, writeStart, window);
    assert x1[i] == x[i];
  }

  /** Inside the right fade, the replacement sample read at offset `k` into
      the last fade is `repl[i - writeStart]`. */
  lemma RightFadedAt(y: seq<real>, repl: seq<real>, writeStart: nat, writeStop: nat, window: seq<real>, i: nat)
    requires |repl| == writeStop - writeStart + |window| && |repl| >= 2 * HalfUp(|window|)
    requires RightFadeStart(writeStop, window) <= i <= writeStop + |window| - 1 && i < |y|
    ensures var k := i - RightFadeStart(writeStop, window);
      RightFaded(y, repl, writeStop, window)[i] == Blend(y[i], repl[i - writeStart], window[k])
  {
    var r := RightFaded(y, repl, writeStop, window);
    var k := i - RightFadeStart(writeStop, window);
    var j := i + |repl| - (writeStop + |window|);
    assert r[i] == Blend(y[i], repl[j], window[k]);
    assert j == i - writeStart;
  }

  // ------------------------------------------------------------ high band

  /** Every segment the high-band pass processes fits the band. */
  predicate Processable(segments: seq<Interval>, blockSize: nat, hop: nat, len: int)
  {
    forall i :: 0 <= i < |segments| - 1 ==> SegmentFits(segments[i], blockSize, hop, len)
  }

  /** A segment's write range starts and ends at sample indices, in order. */
  lemma WriteRange(seg: Interval, hop: nat)
    requires 0 <= seg.start <= seg.stop
    ensures 0 <= BlockIdxToSampleIdx(seg.start, hop) <= BlockIdxToSampleIdx(seg.stop, hop)
  {
    MulMonotone(0, seg.start, hop);
    MulMonotone(seg.start, seg.stop, hop);
  }

  /** Sample `i` lies in the write range of one of the first `m` segments. */
  predicate Touched(i: int, segments: seq<Interval>, m: nat, blockSize: nat, hop: nat)
    requires m <= |segments|
  {
    exists k :: 0 <= k < m
      && BlockIdxToSampleIdx(segments[k].start, hop) <= i <= BlockIdxToSampleIdx(segments[k].stop, hop) + blockSize - 1
  }

  /** The segment's replacement is at least two fades long, so its
      cross-fade does not throw. */
  predicate CoversBothFades(seg: Interval, blockSize: nat, hop: nat)
  {
    NumReplacementSamples(seg, blockSize, hop) >= 2 * HalfUp(blockSize)
  }

  /** The band after the first `m` segments were resynthesised and
      cross-faded in, in order, each reading the band as it stands; `None`
      once a cross-fade throws. */
  function ProcessSegments(x: seq<real>, segments: seq<Interval>, points: seq<KnownPoint>, hop: nat,
                           window: seq<real>, t: Transform, m: nat): (r: Option<seq<real>>)
    requires m <= |segments| && FirstSegmentsInterpolable(points, segments, m, |window|, hop)
    requires forall i :: 0 <= i < m ==> SegmentFits(segments[i], |window|, hop, |x|)
    ensures r.Some? <==> forall k :: 0 <= k < m ==> CoversBothFades(segments[k], |window|, hop)
    ensures r.Some? ==> |r.value| == |x|
    ensures r.Some? ==> forall i :: 0 <= i < |x| && !Touched(i, segments, m, |window|, hop) ==> r.value[i] == x[i]
    decreases m, 1
  {
    if m == 0 then Some(x)
    else
      assert (forall k :: 0 <= k < m ==> CoversBothFades(segments[k], |window|, hop))
         <==> (forall k :: 0 <= k < m - 1 ==> CoversBothFades(segments[k], |window|, hop))
              && CoversBothFades(segments[m - 1], |window|, hop);
      ProcessSegment(x, segments, points, hop, window, t, m)
  }

  /** Segment `m - 1` resynthesised from, and cross-faded into, the band
      the first `m - 1` segments left. It throws exactly when an earlier
      one did or its replacement is shorter than two fades, and it changes
      nothing outside its write range. */
  function ProcessSegment(x: seq<real>, segments: seq<Interval>, points: seq<KnownPoint>, hop: nat,
                          window: seq<real>, t: Transform, m: nat): (r: Option<seq<real>>)
    requires 1 <= m <= |segments| && FirstSegmentsInterpolable(points, segments, m, |window|, hop)
    requires forall i :: 0 <= i < m ==> SegmentFits(segments[i], |window|, hop, |x|)
    ensures r.Some? <==> ProcessSegments(x, segments, points, hop, window, t, m - 1).Some?
                         && CoversBothFades(segments[m - 1], |window|, hop)
    ensures r.Some? ==> |r.value| == |x|
    ensures r.Some? ==> forall i :: 0 <= i < |x| && !Touched(i, segments, m, |window|, hop) ==> r.value[i] == x[i]
    decreases m, 0
  {
    match ProcessSegments(x, segments, points, hop, window, t, m - 1)
    case None => None
    case Some(y) =>
      var seg := segments[m - 1];
      assert SegmentFits(seg, |window|, hop, |y|);
      WriteRange(seg, hop);
      CrossFade(y, ReplaceClipSegment(y, seg, points, hop, window, t),
                BlockIdxToSampleIdx(seg.start, hop), BlockIdxToSampleIdx(seg.stop, hop), window)
  }

  /** `DeclipLongBurstsHighBandInPlace`: the loop runs over segments
      `0 .. n - 2`, so the last segment is never processed. */
  function HighBandInPlace(high: seq<real>, segments: seq<Interval>, points: seq<KnownPoint>, hop: nat,
                           window: seq<real>, t: Transform): (r: Option<seq<real>>)
    requires Processable(segments, |window|, hop, |high|)
    requires FirstSegmentsInterpolable(points, segments, |segments| - 1, |window|, hop)
    ensures r.Some? ==> |r.value| == |high|
    ensures |segments| <= 1 ==> r == Some(high)
  {
    ProcessSegments(high, segments, points, hop, window, t, if |segments| == 0 then 0 else |segments| - 1)
  }

  /** Processing the first `m` segments only looks at those `m`. */
  lemma {:induction false} ProcessSegmentsPrefix(x: seq<real>, s1: seq<Interval>, s2: seq<Interval>, points: seq<KnownPoint>,
                                                 hop: nat, window: seq<real>, t: Transform, m: nat)
    requires m <= |s1| && m <= |s2| && s1[..m] == s2[..m] && FirstSegmentsInterpolable(points, s1, m, |window|, hop)
    requires forall i :: 0 <= i < m ==> SegmentFits(s1[i], |window|, hop, |x|)
    ensures forall i :: 0 <= i < m ==> SegmentFits(s2[i], |window|, hop, |x|)
    ensures FirstSegmentsInterpolable(points, s2, m, |window|, hop)
    ensures ProcessSegments(x, s1, points, hop, window, t, m) == ProcessSegments(x, s2, points, hop, window, t, m)
  {
    SharedPrefix(s1, s2, m);
    if m > 0 {
      ProcessSegmentsPrefix(x, s1, s2, points, hop, window, t, m - 1);
      ProcessSegmentsStep(x, s1, s2, points, hop, window, t, m);
    }
  }

  /** Two segment lists with the same first `m` entries agree entry by
      entry there, and on their first `m - 1`. */
  lemma SharedPrefix(s1: seq<Interval>, s2: seq<Interval>, m: nat)
    requires m <= |s1| && m <= |s2| && s1[..m] == s2[..m]
    ensures forall i :: 0 <= i < m ==> s1[i] == s2[i]
    ensures m > 0 ==> s1[..m - 1] == s2[..m - 1]
  {
    assert forall i :: 0 <= i < m ==> s1[i] == s1[..m][i] == s2[..m][i] == s2[i];
    if m > 0 {
      assert s1[..m - 1] == s1[..m][..m - 1] == s2[..m][..m - 1] == s2[..m - 1];
    }
  }

  /** Equal results after `m - 1` segments and the same segment `m - 1`
      give equal results after `m`. */
  lemma ProcessSegmentsStep(x: seq<real>, s1: seq<Interval>, s2: seq<Interval>, points: seq<KnownPoint>,
                            hop: nat, window: seq<real>, t: Transform, m: nat)
    requires 1 <= m <= |s1| && m <= |s2|
    requires FirstSegmentsInterpolable(points, s1, m, |window|, hop) && FirstSegmentsInterpolable(points, s2, m, |window|, hop)
    requires forall i :: 0 <= i < m ==> SegmentFits(s1[i], |window|, hop, |x|) && SegmentFits(s2[i], |window|, hop, |x|)
    requires s1[m - 1] == s2[m - 1]
    requires ProcessSegments(x, s1, points, hop, window, t, m - 1) == ProcessSegments(x, s2, points, hop, window, t, m - 1)
    ensures ProcessSegments(x, s1, points, hop, window, t, m) == ProcessSegments(x, s2, points, hop, window, t, m)
  {
    assert ProcessSegments(x, s1, points, hop, window, t, m) == ProcessSegment(x, s1, points, hop, window, t, m);
    assert ProcessSegments(x, s2, points, hop, window, t, m) == ProcessSegment(x, s2, points, hop, window, t, m);
  }

  /** Whatever the last segment is, the result is the same. */
  lemma LastSegmentNeverProcessed(high: seq<real>, segments: seq<Interval>, last1: Interval, last2: Interval,
                                  points: seq<KnownPoint>, hop: nat, window: seq<real>, t: Transform)
    requires forall i :: 0 <= i < |segments| ==> SegmentFits(segments[i], |window|, hop, |high|)
    requires FirstSegmentsInterpolable(points, segments, |segments|, |window|, hop)
    ensures Processable(segments + [last1], |window|, hop, |high|)
    ensures Processable(segments + [last2], |window|, hop, |high|)
    ensures FirstSegmentsInterpolable(points, segments + [last1], |segments|, |window|, hop)
    ensures FirstSegmentsInterpolable(points, segments + [last2], |segments|, |window|, hop)
    ensures HighBandInPlace(high, segments + [last1], points, hop, window, t)
         == HighBandInPlace(high, segments + [last2], points, hop, window, t)
  {
    var s1, s2 := segments + [last1], segments + [last2];
    assert s1[..|segments|] == segments == s2[..|segments|];
    ProcessSegmentsPrefix(high, s1, s2, points, hop, window, t, |segments|);
  }

  /** With an even block size every replacement covers both fades, so no
      cross-fade throws. */
  lemma EvenBlocksNeverThrow(x: seq<real>, segments: seq<Interval>, points: seq<KnownPoint>, hop: nat,
                             window: seq<real>, t: Transform, m: nat)
    requires m <= |segments| && FirstSegmentsInterpolable(points, segments, m, |window|, hop) && |window| % 2 == 0
    requires forall k :: 0 <= k < m ==> SegmentFits(segments[k], |window|, hop, |x|)
    ensures ProcessSegments(x, segments, points, hop, window, t, m).Some?
  {
    forall k | 0 <= k < m
      ensures CoversBothFades(segments[k], |window|, hop)
    {
      assert SegmentFits(segments[k], |window|, hop, |x|);
    }
  }

  /** With an odd block size, a processed one-block segment is shorter than
      its two fades: the cross-fade throws and the pass has no result. */
  lemma OddSingleBlockSegmentThrows(high: seq<real>, segments: seq<Interval>, points: seq<KnownPoint>, hop: nat,
                                    window: seq<real>, t: Transform, k: nat)
    requires Processable(segments, |window|, hop, |high|)
    requires FirstSegmentsInterpolable(points, segments, |segments| - 1, |window|, hop)
    requires |window| % 2 == 1 && k < |segments| - 1 && segments[k].start == segments[k].stop
    ensures HighBandInPlace(high, segments, points, hop, window, t).None?
  {
    assert !CoversBothFades(segments[k], |window|, hop);
  }

  // ----------------------------------------------------------- long bursts

  /** The collaborators of the long-burst pass: the two feed-forward
      filters, `EnlargeIntervals(intervals, amount, length)`,
      `GetClipSegments(intervals, blockSize, hop, length)` and the block
      transform. */
  datatype LongBurstTools = LongBurstTools(
    forwards: Filter,
    backwards: Filter,
    enlarge: (seq<Interval>, int, int) -> seq<Interval>,
    clipSegments: (seq<Interval>, nat, nat, int) -> seq<Interval>,
    transform: Transform)

  /** The segments the high-band pass sees: the clip intervals enlarged by
      twice the filter order, grouped into segments of blocks. */
  function HighBandSegments(channel: seq<real>, clipIntervals: seq<Interval>, hop: nat,
                            window: seq<real>, tools: LongBurstTools): seq<Interval>
  {
    tools.clipSegments(tools.enlarge(clipIntervals, LowpassOrder * 2, |channel|), |window|, hop, |channel|)
  }

  /** `DeclipLongBursts`: split, repair the high band, add the low band
      back. An unsupported rate has no bands to repair (`None`). */
  function DeclipLongBursts(channel: seq<real>, clipIntervals: seq<Interval>, points: seq<KnownPoint>,
                            fs: real, hop: nat, window: seq<real>, tools: LongBurstTools): (r: Option<seq<real>>)
    requires KeepsLength(tools.forwards) && KeepsLength(tools.backwards)
    requires fs == SupportedRate ==>
      var segments := HighBandSegments(channel, clipIntervals, hop, window, tools);
      && Processable(segments, |window|, hop, |channel|)
      && FirstSegmentsInterpolable(points, segments, |segments| - 1, |window|, hop)
    ensures fs != SupportedRate ==> r.None?
    ensures r.Some? ==> |r.value| == |channel|
    ensures fs == SupportedRate && |HighBandSegments(channel, clipIntervals, hop, window, tools)| <= 1
            ==> r == Some(channel)
  {
    match SplitIntoBands(channel, fs, tools.forwards, tools.backwards)
    case Passthrough(_) => None
    case Bands(low, high, order) =>
      var segments := tools.clipSegments(tools.enlarge(clipIntervals, order * 2, |channel|), |window|, hop, |high|);
      match HighBandInPlace(high, segments, points, hop, window, tools.transform)
      case None => None
      case Some(h) => Some(Add(h, low))
  }

  /** Outside the write ranges of the processed segments the repaired
      channel is the input channel, sample for sample. */
  lemma ReconstructsOutsideRepairs(channel: seq<real>, clipIntervals: seq<Interval>, points: seq<KnownPoint>,
                                   fs: real, hop: nat, window: seq<real>, tools: LongBurstTools, i: nat)
    requires KeepsLength(tools.forwards) && KeepsLength(tools.backwards)
    requires fs == SupportedRate ==>
      var segments := HighBandSegments(channel, clipIntervals, hop, window, tools);
      && Processable(segments, |window|, hop, |channel|)
      && FirstSegmentsInterpolable(points, segments, |segments| - 1, |window|, hop)
    requires DeclipLongBursts(channel, clipIntervals, points, fs, hop, window, tools).Some?
    requires var segments := HighBandSegments(channel, clipIntervals, hop, window, tools);
      i < |channel| && !Touched(i, segments, if |segments| == 0 then 0 else |segments| - 1, |window|, hop)
    ensures DeclipLongBursts(channel, clipIntervals, points, fs, hop, window, tools).value[i] == channel[i]
  {
    var bands := SplitIntoBands(channel, fs, tools.forwards, tools.backwards);
    var segments := HighBandSegments(channel, clipIntervals, hop, window, tools);
    var m := if |segments| == 0 then 0 else |segments| - 1;
    assert bands.high[i] + bands.low[i] == Add(bands.high, bands.low)[i] == channel[i];
  }
}

=== FILE: declip_short_bursts.dfy ===
/** Short-burst declipping: every clip interval is replaced, in place, by a
    cubic spline through at most 20 reliable samples on each side of it. The
    spline (and the index ranges `RangeToIndices` builds for it) is a
    collaborator and enters as the parameter `spline`. */
module DeclipShortBursts {
  import opened Types
  import opened Blocking
  import opened ClipIntervals

  /** Fewer reliable samples than this on either side and the burst is left alone. */
  const MinTrain: int := 3

  /** At most this many reliable samples are used on each side. */
  const MaxTrainSize: nat := 20

  /** The left training run of burst `idx`. */
  function LeftTraining(intervals: seq<Interval>, idx: nat): Interval
    requires idx < |intervals|
  {
    LeftGap(intervals, idx, MaxTrainSize)
  }

  /** The right training run of burst `idx`; for the last burst it may run
      up to the channel's last sample. */
  function RightTraining(intervals: seq<Interval>, idx: nat, len: int): Interval
    requires idx < |intervals|
  {
    RightGap(intervals, idx, len - 1, MaxTrainSize)
  }

  /** The burst is skipped when either training run is too short. */
  predicate Skipped(intervals: seq<Interval>, idx: nat, len: int)
    requires idx < |intervals|
  {
    Length(LeftTraining(intervals, idx)) < MinTrain || Length(RightTraining(intervals, idx, len)) < MinTrain
  }

  /** What the spline is built from: the index range and samples of each
      training run, and the index range to fill in. */
  datatype SplineInput = SplineInput(leftRange: Interval, left: seq<real>,
                                     rightRange: Interval, right: seq<real>,
                                     unknown: Interval)

  /** The spline input for burst `idx`, reading the training samples from `x`. */
  function TrainingInput(x: seq<real>, intervals: seq<Interval>, idx: nat): SplineInput
    requires WellFormed(intervals) && idx < |intervals| && !Skipped(intervals, idx, |x|)
  {
    var l := LeftTraining(intervals, idx);
    var r := RightTraining(intervals, idx, |x|);
    GapsStartPastZero(intervals, idx, |x| - 1, MaxTrainSize);
    SplineInput(l, CopiedBlock(x, l.start, l.stop, Zeros(Length(l))),
                r, CopiedBlock(x, r.start, r.stop, Zeros(Length(r))),
                intervals[idx])
  }

  /** Reference semantics: the first `m` bursts replaced, every spline
      trained on the ORIGINAL samples `x0`. */
  function Repaired(x0: seq<real>, intervals: seq<Interval>, spline: SplineInput -> seq<real>, m: nat): (r: seq<real>)
    requires WellFormed(intervals) && m <= |intervals|
    ensures |r| == |x0|
  {
    if m == 0 then x0
    else
      var prev := Repaired(x0, intervals, spline, m - 1);
      var iv := intervals[m - 1];
      if Skipped(intervals, m - 1, |x0|) then prev
      else CopiedChannel(prev, iv.start, iv.stop, spline(TrainingInput(x0, intervals, m - 1)))
  }

  /** Sample `j` lies in one of the first `m` bursts that is not skipped. */
  predicate Written(j: int, intervals: seq<Interval>, len: int, m: nat)
    requires m <= |intervals|
  {
    exists k :: 0 <= k < m && !Skipped(intervals, k, len) && intervals[k].start <= j <= intervals[k].stop
  }

  /** Once the first `idx` bursts are replaced in place, the training runs of
      burst `idx` still hold original samples, provided the bursts are
      ordered: they lie between the neighbouring bursts. */
  lemma TrainingReadsOriginal(r: seq<real>, x0: seq<real>, intervals: seq<Interval>, idx: nat)
    requires WellFormed(intervals) && Ordered(intervals) && idx < |intervals|
    requires |r| == |x0|
    requires forall j :: 0 <= j < |r| && !Written(j, intervals, |x0|, idx) ==> r[j] == x0[j]
    requires !Skipped(intervals, idx, |x0|)
    ensures TrainingInput(r, intervals, idx) == TrainingInput(x0, intervals, idx)
  {
    var l := LeftTraining(intervals, idx);
    var rt := RightTraining(intervals, idx, |x0|);
    GapsStartPastZero(intervals, idx, |x0| - 1, MaxTrainSize);
    forall j | (l.start <= j <= l.stop || rt.start <= j <= rt.stop) && 0 <= j < |r|
      ensures r[j] == x0[j]
    {
      forall k | 0 <= k < idx
        ensures !(intervals[k].start <= j <= intervals[k].stop)
      {
        GapsAvoidIntervals(intervals, idx, |x0| - 1, MaxTrainSize, j, k);
      }
    }
    CopiedBlockLocal(r, x0, l.start, l.stop, Zeros(Length(l)));
    CopiedBlockLocal(r, x0, rt.start, rt.stop, Zeros(Length(rt)));
  }

  /** Replacing burst `idx` keeps both loop facts: samples outside the
      replaced bursts are original, and with ordered bursts the channel is
      the reference. */
  lemma ReplacedBurstKeeps(channel: seq<real>, intervals: seq<Interval>, spline: SplineInput -> seq<real>,
                           r: seq<real>, idx: nat)
    requires WellFormed(intervals) && idx < |intervals| && |r| == |channel|
    requires !Skipped(intervals, idx, |channel|)
    requires forall j :: 0 <= j < |r| && !Written(j, intervals, |channel|, idx) ==> r[j] == channel[j]
    requires Ordered(intervals) ==> r == Repaired(channel, intervals, spline, idx)
    ensures var next := CopiedChannel(r, intervals[idx].start, intervals[idx].stop, spline(TrainingInput(r, intervals, idx)));
      && (forall j :: 0 <= j < |next| && !Written(j, intervals, |channel|, idx + 1) ==> next[j] == channel[j])
      && (Ordered(intervals) ==> next == Repaired(channel, intervals, spline, idx + 1))
  {
    var burst := intervals[idx];
    var next := CopiedChannel(r, burst.start, burst.stop, spline(TrainingInput(r, intervals, idx)));
    if Ordered(intervals) {
      TrainingReadsOriginal(r, channel, intervals, idx);
    }
    forall j | 0 <= j < |next| && !Written(j, intervals, |channel|, idx + 1)
      ensures next[j] == channel[j]
    {
      assert !(burst.start <= j <= burst.stop);
      assert !Written(j, intervals, |channel|, idx);
    }
  }

  /** One iteration of the burst loop: burst `idx` is left alone when
      either training run is too short, and otherwise replaced by the
      spline trained on the channel as it stands. Both loop facts carry
      over to the next burst. */
  method RepairBurst(channel: seq<real>, intervals: seq<Interval>, spline: SplineInput -> seq<real>,
                     r: seq<real>, idx: nat) returns (next: seq<real>)
    requires WellFormed(intervals) && idx < |intervals| && |r| == |channel|
    requires forall j :: 0 <= j < |r| && !Written(j, intervals, |channel|, idx) ==> r[j] == channel[j]
    requires Ordered(intervals) ==> r == Repaired(channel, intervals, spline, idx)
    ensures |next| == |channel|
    ensures forall j :: 0 <= j < |next| && !Written(j, intervals, |channel|, idx + 1) ==> next[j] == channel[j]
    ensures Ordered(intervals) ==> next == Repaired(channel, intervals, spline, idx + 1)
  {
    var burst := intervals[idx];
    var left := LeftTraining(intervals, idx);
    var right := RightTraining(intervals, idx, |r|);
    if Length(left) < MinTrain || Length(right) < MinTrain {
      assert Repaired(channel, intervals, spline, idx + 1) == Repaired(channel, intervals, spline, idx);
      return r;
    }
    GapsStartPastZero(intervals, idx, |r| - 1, MaxTrainSize);
    var leftSamples := CopyToBlock(r, left.start, left.stop, Zeros(Length(left)));
    var rightSamples := CopyToBlock(r, right.start, right.stop, Zeros(Length(right)));
    var replacements := spline(SplineInput(left, leftSamples, right, rightSamples, burst));
    assert replacements == spline(TrainingInput(r, intervals, idx));
    ReplacedBurstKeeps(channel, intervals, spline, r, idx);
    next := CopyToChannel(r, burst.start, burst.stop, replacements);
  }

  /** Replace every burst that has enough reliable samples around it, in
      order, each by the spline trained on the channel as it stands. Only
      the samples of replaced bursts change; with ordered bursts the result
      is the reference in which every spline sees the original samples. */
  method DeclipShortBurstsInPlace(channel: seq<real>, intervals: seq<Interval>, spline: SplineInput -> seq<real>)
    returns (r: seq<real>)
    requires WellFormed(intervals)
    ensures |r| == |channel|
    ensures forall j :: 0 <= j < |r| && !Written(j, intervals, |channel|, |intervals|) ==> r[j] == channel[j]
    ensures |intervals| == 0 ==> r == channel
    ensures Ordered(intervals) ==> r == Repaired(channel, intervals, spline, |intervals|)
  {
    r := channel;
    var idx := 0;
    while idx < |intervals|
      invariant 0 <= idx <= |intervals|
      invariant |r| == |channel|
      invariant forall j :: 0 <= j < |r| && !Written(j, intervals, |channel|, idx) ==> r[j] == channel[j]
      invariant Ordered(intervals) ==> r == Repaired(channel, intervals, spline, idx)
    {
      r := RepairBurst(channel, intervals, spline, r, idx);
      idx := idx + 1;
    }
  }
}

=== FILE: index_controller.dfy ===
/** The pure helpers of the page controller: the action queues the Repair
    and Preview buttons build, the predicates that enable each step, the
    crop of clip intervals to the preview range, and the quiet-block search
    behind the noise-profile threshold slider. The DOM, the event handlers
    and the queue runner are not modelled. */
module IndexController {
  import opened Types
  import opened Blocking
  import opened ClipIntervals
  import opened WebAudioUtils
  import Averaging
  import NoiseRemoval

  /** The flags of the page state the helpers read. */
  datatype State = State(audioLoaded: bool, didClippingDetection: bool, didDeclipShortBursts: bool,
                         didGetKnownPoints: bool, declipActive: bool, noiseRemovalActive: bool,
                         autoEqActive: bool)

  /** The actions the queue runner executes, named as in the controller. */
  datatype Action = DoDeclipShortBursts | DoGetKnownPoints | DoDeclipLongBursts | DoNoiseRemoval
                  | DoPerceptualEq | DoNormalizeInput | DoNormalizeOutput | PlayPreview

  /** Position of an action in the processing chain. */
  function Stage(a: Action): nat
  {
    match a
    case DoDeclipShortBursts => 0
    case DoGetKnownPoints => 1
    case DoDeclipLongBursts => 2
    case DoNoiseRemoval => 3
    case DoPerceptualEq => 4
    case DoNormalizeInput => 5
    case DoNormalizeOutput => 6
    case PlayPreview => 7
  }

  /** Every action comes strictly later in the chain than the one queued
      just before it. */
  predicate InChainOrder(q: seq<Action>)
  {
    forall i :: 0 <= i < |q| - 1 ==> Stage(q[i]) < Stage(q[i + 1])
  }

  /** The queue holds the plugin actions exactly for the active plugins:
      the three declipping steps iff declipping is on, noise removal iff it
      is on, the equaliser iff it is on. */
  predicate PluginsMatch(q: seq<Action>, s: State)
  {
    && (DoDeclipShortBursts in q <==> s.declipActive)
    && (DoGetKnownPoints in q <==> s.declipActive)
    && (DoDeclipLongBursts in q <==> s.declipActive)
    && (DoNoiseRemoval in q <==> s.noiseRemovalActive)
    && (DoPerceptualEq in q <==> s.autoEqActive)
  }

  /** Chain order survives concatenation when the first appended action
      comes later in the chain than the last queued one. */
  lemma ChainOrderAppend(q: seq<Action>, tail: seq<Action>)
    requires InChainOrder(q) && InChainOrder(tail)
    requires |q| == 0 || |tail| == 0 || Stage(q[|q| - 1]) < Stage(tail[0])
    ensures InChainOrder(q + tail)
  {
    var all := q + tail;
    forall i | 0 <= i < |all| - 1
      ensures Stage(all[i]) < Stage(all[i + 1])
    {
      if i + 1 < |q| {
        assert all[i] == q[i] && all[i + 1] == q[i + 1];
      } else if i + 1 == |q| {
        assert all[i] == q[|q| - 1] && all[i + 1] == tail[0];
      } else {
        assert all[i] == tail[i - |q|] && all[i + 1] == tail[i - |q| + 1];
      }
    }
  }

  /** Appending only normalisation or preview actions leaves the plugin
      actions of a queue as they were. */
  lemma MatchKeptByTail(q: seq<Action>, tail: seq<Action>, s: State)
    requires PluginsMatch(q, s)
    requires forall i :: 0 <= i < |tail| ==> Stage(DoNormalizeInput) <= Stage(tail[i])
    ensures PluginsMatch(q + tail, s)
  {
    var all := q + tail;
    forall p: Action | Stage(p) < Stage(DoNormalizeInput)
      ensures p in all <==> p in q
    {
      if p in all {
        var i :| 0 <= i < |all| && all[i] == p;
        assert i < |q|;
        assert q[i] == p;
      }
      if p in q {
        var i :| 0 <= i < |q| && q[i] == p;
        assert all[i] == p;
      }
    }
  }

  /** The actions of the active plugins, in chain order, each before the
      normalisation steps. */
  function PluginActions(s: State): (q: seq<Action>)
    ensures InChainOrder(q)
    ensures forall i :: 0 <= i < |q| ==> Stage(q[i]) < Stage(DoNormalizeInput)
  {
    var declip: seq<Action> := if s.declipActive then [DoDeclipShortBursts, DoGetKnownPoints, DoDeclipLongBursts] else [];
    var noise: seq<Action> := if s.noiseRemovalActive then [DoNoiseRemoval] else [];
    var eq: seq<Action> := if s.autoEqActive then [DoPerceptualEq] else [];
    ChainOrderAppend(declip, noise);
    ChainOrderAppend(declip + noise, eq);
    declip + noise + eq
  }

  /** The plugin actions queued are exactly those of the active plugins. */
  lemma PluginActionsMatch(s: State)
    ensures PluginsMatch(PluginActions(s), s)
  {
    var declip: seq<Action> := if s.declipActive then [DoDeclipShortBursts, DoGetKnownPoints, DoDeclipLongBursts] else [];
    var noise: seq<Action> := if s.noiseRemovalActive then [DoNoiseRemoval] else [];
    var eq: seq<Action> := if s.autoEqActive then [DoPerceptualEq] else [];
    assert PluginActions(s) == declip + noise + eq;
  }

  /** `RepairClicked`'s queue: the active plugins in chain order, then the
      two normalisation steps. */
  function RepairActions(s: State): (q: seq<Action>)
    ensures InChainOrder(q)
    ensures |q| >= 2 && q[|q| - 2] == DoNormalizeInput && q[|q| - 1] == DoNormalizeOutput
    ensures |q| == |PluginActions(s)| + 2
    ensures forall i :: 0 <= i < |q| - 2 ==> q[i] == PluginActions(s)[i]
    ensures forall i :: 0 <= i < |q| ==> Stage(q[i]) < Stage(PlayPreview)
  {
    var plugins := PluginActions(s);
    var tail := [DoNormalizeInput, DoNormalizeOutput];
    ChainOrderAppend(plugins, tail);
    plugins + tail
  }

  /** The repair queue holds the plugin actions of exactly the active
      plugins. */
  lemma RepairActionsMatch(s: State)
    ensures PluginsMatch(RepairActions(s), s)
  {
    var plugins := PluginActions(s);
    PluginActionsMatch(s);
    MatchKeptByTail(plugins, [DoNormalizeInput, DoNormalizeOutput], s);
    assert RepairActions(s) == plugins + [DoNormalizeInput, DoNormalizeOutput];
  }

  /** `DoPreview`'s queue: the same chain, with the preview played last. */
  function PreviewActions(s: State): (q: seq<Action>)
    ensures InChainOrder(q)
    ensures |q| >= 3 && q[|q| - 1] == PlayPreview
    ensures |q| == |RepairActions(s)| + 1
    ensures forall i :: 0 <= i < |q| - 1 ==> q[i] == RepairActions(s)[i]
  {
    var repair := RepairActions(s);
    ChainOrderAppend(repair, [PlayPreview]);
    repair + [PlayPreview]
  }

  /** The preview queue holds the plugin actions of exactly the active
      plugins. */
  lemma PreviewActionsMatch(s: State)
    ensures PluginsMatch(PreviewActions(s), s)
  {
    var repair := RepairActions(s);
    RepairActionsMatch(s);
    MatchKeptByTail(repair, [PlayPreview], s);
    assert PreviewActions(s) == repair + [PlayPreview];
  }

  /** `RepairClicked`: the processed buffer starts as a copy of the input,
      and the repair actions are appended to the pending queue. */
  method RepairClicked(s: State, input: AudioBuffer, queue: seq<Action>)
    returns (processed: AudioBuffer, q: seq<Action>)
    requires input.Valid()
    ensures processed == input
    ensures |q| == |queue| + |RepairActions(s)|
    ensures q[..|queue|] == queue && q[|queue|..] == RepairActions(s)
  {
    processed := CopyAudioBuffer(input);
    CopyIsIdentity(input, processed);
    q := queue + RepairActions(s);
    assert q[..|queue|] == queue;
  }

  /** `DoPreview`: the processed preview starts as a copy of the preview
      input, and the preview actions are appended to the pending queue. */
  method DoPreview(s: State, previewInput: AudioBuffer, queue: seq<Action>)
    returns (processed: AudioBuffer, q: seq<Action>)
    requires previewInput.Valid()
    ensures processed == previewInput
    ensures |q| == |queue| + |PreviewActions(s)|
    ensures q[..|queue|] == queue && q[|queue|..] == PreviewActions(s)
  {
    processed := CopyAudioBuffer(previewInput);
    CopyIsIdentity(previewInput, processed);
    q := queue + PreviewActions(s);
    assert q[..|queue|] == queue;
  }

  /** `NoPluginsActive`: despite its name, true when at least one plugin is
      active, that is, exactly when the queues hold a plugin action. */
  function NoPluginsActive(s: State): (r: bool)
    ensures r <==> |PluginActions(s)| > 0
    ensures r <==> exists i :: 0 <= i < |RepairActions(s)| && Stage(RepairActions(s)[i]) < Stage(DoNormalizeInput)
  {
    var r := if s.declipActive then true
             else if s.noiseRemovalActive then true
             else if s.autoEqActive then true
             else false;
    var q := RepairActions(s);
    if r then
      assert q[0] == PluginActions(s)[0];
      r
    else
      assert PluginActions(s) == [];
      assert q == [DoNormalizeInput, DoNormalizeOutput];
      r
  }

  // ---------------------------------------------------- enable predicates

  function ShouldAllowWaveformInteraction(s: State): (r: bool)
    ensures r <==> ShouldEnableDetectClipping(s)
  {
    s.audioLoaded
  }

  function ShouldEnableDetectClipping(s: State): bool
  {
    s.audioLoaded
  }

  /** Clipping detection, the first stage, is enabled exactly when audio
      is loaded; the last stage needs every earlier step done. */
  lemma DetectClippingOpensChain(s: State)
    ensures ShouldEnableDetectClipping(s) <==> s.audioLoaded
    ensures ShouldEnableDeclipLongBursts(s)
        <==> s.audioLoaded && s.didClippingDetection && s.didDeclipShortBursts && s.didGetKnownPoints
    ensures !ShouldEnableDetectClipping(s) ==>
      !ShouldEnableDeclipShortBursts(s) && !ShouldEnableGetKnownPoints(s) && !ShouldEnableDeclipLongBursts(s)
  {
  }

  /** Each step is enabled only once the step before it is. */
  function ShouldEnableDeclipShortBursts(s: State): (r: bool)
    ensures r ==> ShouldEnableDetectClipping(s)
    ensures r <==> ShouldEnableDetectClipping(s) && s.didClippingDetection
  {
    s.audioLoaded && s.didClippingDetection
  }

  function ShouldEnableGetKnownPoints(s: State): (r: bool)
    ensures r ==> ShouldEnableDeclipShortBursts(s)
    ensures r <==> ShouldEnableDeclipShortBursts(s) && s.didDeclipShortBursts
  {
    s.audioLoaded && s.didClippingDetection && s.didDeclipShortBursts
  }

  function ShouldEnableDeclipLongBursts(s: State): (r: bool)
    ensures r ==> ShouldEnableGetKnownPoints(s)
    ensures r <==> ShouldEnableGetKnownPoints(s) && s.didGetKnownPoints
  {
    s.audioLoaded && s.didClippingDetection && s.didDeclipShortBursts && s.didGetKnownPoints
  }

  // ------------------------------------------------------ cropped intervals

  /** The interval shares at least one index with `range`. */
  predicate Overlaps(iv: Interval, range: Interval)
  {
    !(iv.stop < range.start || iv.start > range.stop)
  }

  /** The interval with its ends pulled inside `range`, as the crop
      mutates it. */
  function Clamped(iv: Interval, range: Interval): (c: Interval)
    ensures range.start <= iv.start ==> c.start == iv.start
    ensures range.start > iv.start ==> c.start == range.start
    ensures iv.stop <= range.stop ==> c.stop == iv.stop
    ensures iv.stop > range.stop ==> c.stop == range.stop
  {
    Interval(if iv.start < range.start then range.start else iv.start,
             if iv.stop > range.stop then range.stop else iv.stop)
  }

  /** An interval moved left by `range.start`. */
  function Shifted(iv: Interval, range: Interval): Interval
  {
    Interval(iv.start - range.start, iv.stop - range.start)
  }

  /** Reference: the overlapping intervals, clamped to the range and moved
      so that the range starts at 0, in input order. */
  function CroppedIntervals(intervals: seq<Interval>, range: Interval): (r: seq<Interval>)
    ensures |r| <= |intervals|
    ensures forall j :: 0 <= j < |r| ==> 0 <= r[j].start && r[j].stop <= range.stop - range.start
    ensures range.start <= range.stop ==>
      forall j :: 0 <= j < |r| ==> r[j].start <= range.stop - range.start && 0 <= r[j].stop
  {
    if |intervals| == 0 then []
    else
      var last := intervals[|intervals| - 1];
      CroppedIntervals(intervals[..|intervals| - 1], range)
      + (if Overlaps(last, range) then [Shifted(Clamped(last, range), range)] else [])
  }

  /** `GetCroppedClipIntervals`: the cropped intervals, together with the
      input list as the crop leaves it, since the source clamps every
      overlapping input interval in place. */
  method GetCroppedClipIntervals(intervals: seq<Interval>, range: Interval)
    returns (cropped: seq<Interval>, clamped: seq<Interval>)
    ensures cropped == CroppedIntervals(intervals, range)
    ensures |clamped| == |intervals|
    ensures forall i :: 0 <= i < |intervals| && Overlaps(intervals[i], range) ==>
      clamped[i] == Clamped(intervals[i], range)
    ensures forall i :: 0 <= i < |intervals| && !Overlaps(intervals[i], range) ==>
      clamped[i] == intervals[i]
  {
    cropped := [];
    clamped := intervals;
    var readIdx := 0;
    while readIdx < |intervals|
      invariant 0 <= readIdx <= |intervals|
      invariant cropped == CroppedIntervals(intervals[..readIdx], range)
      invariant |clamped| == |intervals|
      invariant forall i :: 0 <= i < readIdx && Overlaps(intervals[i], range) ==>
        clamped[i] == Clamped(intervals[i], range)
      invariant forall i :: 0 <= i < |intervals| && !(i < readIdx && Overlaps(intervals[i], range)) ==>
        clamped[i] == intervals[i]
    {
      assert intervals[..readIdx + 1][..readIdx] == intervals[..readIdx];
      var cur := clamped[readIdx];
      if cur.stop < range.start || cur.start > range.stop {
        readIdx := readIdx + 1;
        continue;
      }
      if cur.start < range.start {
        cur := cur.(start := range.start);
      }
      if cur.stop > range.stop {
        cur := cur.(stop := range.stop);
      }
      clamped := clamped[readIdx := cur];
      cropped := cropped + [Interval(cur.start - range.start, cur.stop - range.start)];
      readIdx := readIdx + 1;
    }
    assert intervals[..|intervals|] == intervals;
  }

  /** Every cropped interval ends before `bound - range.start` when every
      input interval ends before `bound`. */
  lemma {:induction false} CroppedEndBefore(intervals: seq<Interval>, range: Interval, bound: int)
    requires forall k :: 0 <= k < |intervals| ==> intervals[k].stop < bound
    ensures forall j :: 0 <= j < |CroppedIntervals(intervals, range)| ==>
      CroppedIntervals(intervals, range)[j].stop + range.start < bound
  {
    if |intervals| > 0 {
      CroppedEndBefore(intervals[..|intervals| - 1], range, bound);
    }
  }

  /** Cropping keeps well-formed, ordered clip intervals well formed and
      ordered, for a range that is itself an interval (an inverted range
      can turn an interval spanning it into one that ends before it
      starts). */
  lemma {:induction false} CroppingKeepsOrder(intervals: seq<Interval>, range: Interval)
    requires WellFormed(intervals) && Ordered(intervals) && range.start <= range.stop
    ensures WellFormed(CroppedIntervals(intervals, range)) && Ordered(CroppedIntervals(intervals, range))
  {
    if |intervals| > 0 {
      var prefix := intervals[..|intervals| - 1];
      var last := intervals[|intervals| - 1];
      CroppingKeepsOrder(prefix, range);
      CroppedEndBefore(prefix, range, last.start);
      var before := CroppedIntervals(prefix, range);
      var r := CroppedIntervals(intervals, range);
      if Overlaps(last, range) {
        var added := Shifted(Clamped(last, range), range);
        assert 0 <= added.start <= added.stop;
        assert r == before + [added];
        assert forall j :: 0 <= j < |before| ==> before[j].stop < added.start;
      } else {
        assert r == before;
      }
    }
  }

  // ------------------------------------------------- noise-profile intervals

  /** The mono mix `AudioBufferToMono` produces: the per-sample mean of the
      channels, nothing for a buffer without channels. */
  function MonoMix(input: AudioBuffer): seq<real>
    requires input.Valid()
  {
    if |input.channels| == 0 then [] else Averaging.Mean(input.channels, input.length)
  }

  /** The quiet-block threshold: the given percentage of the magnitude of
      the peak the collaborator reports. */
  function QuietThreshold(x: seq<real>, thresholdPercentage: real, peak: seq<real> -> real): real
  {
    (if peak(x) < 0.0 then -peak(x) else peak(x)) * thresholdPercentage / 100.0
  }

  /** `UpdateNoiseProfileIntervals` without its display updates: the mono
      mix of the input is searched for blocks quieter than the given
      percentage of its peak. The controller names its variables the other
      way round, so the quiet-block search runs with blocks of
      `noiseHopSize` samples stepped by `noiseBlockSize`, and the block
      indices are turned into seconds with the same `noiseBlockSize` stride.
      The peak (`MyMax`), the RMS and the flag-to-interval conversion are
      collaborators. */
  method UpdateNoiseProfileIntervals(input: AudioBuffer, thresholdPercentage: real, noiseBlockSize: nat,
                                     noiseHopSize: nat, peak: seq<real> -> real, rms: seq<real> -> real,
                                     flagsToIntervals: seq<int> -> seq<Interval>)
    returns (regions: seq<SecondsInterval>, flags: seq<int>)
    requires input.Valid() && input.sampleRate > 0.0 && noiseBlockSize > 0
    ensures |flags| == NumFullBlocks(if |input.channels| == 0 then 0 else input.length, noiseHopSize, noiseBlockSize)
    ensures |regions| == |flagsToIntervals(flags)|
    ensures forall k :: 0 <= k < |flags| ==> flags[k] == 0 || flags[k] == 1
    ensures forall k :: 0 <= k < |flags| ==>
      (flags[k] == 1 <==> rms(ReadBlock(MonoMix(input), k, noiseHopSize, noiseBlockSize))
                          < QuietThreshold(MonoMix(input), thresholdPercentage, peak))
    ensures forall i :: 0 <= i < |regions| ==>
      && SecondsToSampleIdx(regions[i].start, input.sampleRate)
         == BlockIdxToSampleIdx(flagsToIntervals(flags)[i].start, noiseBlockSize)
      && SecondsToSampleIdx(regions[i].stop, input.sampleRate)
         == BlockIdxToSampleIdx(flagsToIntervals(flags)[i].stop, noiseBlockSize)
  {
    var hopSize := noiseBlockSize;
    var blockSize := noiseHopSize;
    var mono := AudioBufferToMono(input);
    var signalMax := peak(mono);
    var absMax := if signalMax < 0.0 then -signalMax else signalMax;
    var thresholdAmplitude := absMax * thresholdPercentage / 100.0;
    assert mono == MonoMix(input) && thresholdAmplitude == QuietThreshold(mono, thresholdPercentage, peak);
    var intervals;
    intervals, flags := NoiseRemoval.RMSThreshold(mono, thresholdAmplitude, blockSize, hopSize, rms, flagsToIntervals);
    regions := IntervalsBlockIdxToSeconds(intervals, hopSize, input.sampleRate);
    forall i | 0 <= i < |regions|
      ensures SecondsToSampleIdx(regions[i].start, input.sampleRate)
              == BlockIdxToSampleIdx(flagsToIntervals(flags)[i].start, noiseBlockSize)
      ensures SecondsToSampleIdx(regions[i].stop, input.sampleRate)
              == BlockIdxToSampleIdx(flagsToIntervals(flags)[i].stop, noiseBlockSize)
    {
      SecondsRoundTrip(intervals, hopSize, input.sampleRate, i);
    }
  }
}

=== FILE: interpolation.dfy ===
/** Linear interpolation between the trusted spectral magnitudes ("known
    points") that the long-burst declipper uses as its magnitude estimate.
    Known points are searched in list order; the first adjacent pair whose
    times bracket the query is the one used. */
module Interpolation {
  import opened Types
  import opened RealFacts

  /** Points `i` and `i + 1` both exist and their times bracket `q`. */
  predicate Brackets(points: seq<KnownPoint>, i: int, q: int)
  {
    0 <= i < |points| - 1 && points[i].time <= q <= points[i + 1].time
  }

  /** The first bracketing pair at or after `from`, searched in order. */
  function FindBracket(points: seq<KnownPoint>, q: int, from: nat): (r: Option<nat>)
    ensures r.Some? ==> from <= r.value && Brackets(points, r.value, q)
    ensures r.Some? ==> forall i :: from <= i < r.value ==> !Brackets(points, i, q)
    ensures r.None? ==> forall i :: from <= i ==> !Brackets(points, i, q)
    decreases |points| - from
  {
    if from + 1 >= |points| then None
    else if Brackets(points, from, q) then Some(from)
    else FindBracket(points, q, from + 1)
  }

  /** The pair used for query time `q`, if any. */
  function Bracket(points: seq<KnownPoint>, q: int): Option<nat>
  {
    FindBracket(points, q, 0)
  }

  /** What interpolation at `q` needs of the pair it uses: distinct times
      (the weight divides by their difference) and at least `n` magnitudes
      on each side. */
  predicate Interpolable(points: seq<KnownPoint>, q: int, n: nat)
  {
    match Bracket(points, q)
    case None => true
    case Some(i) =>
      points[i].time != points[i + 1].time
      && |points[i].magnitudes| >= n && |points[i + 1].magnitudes| >= n
  }

  /** Adjacent points have distinct times and every point carries at least
      `n` magnitudes: interpolation is then defined at every query time. */
  predicate UsablePoints(points: seq<KnownPoint>, n: nat)
  {
    (forall i :: 0 <= i < |points| ==> |points[i].magnitudes| >= n)
    && (forall i :: 0 <= i < |points| - 1 ==> points[i].time != points[i + 1].time)
  }

  /** Interpolation is defined at every query time: whichever pair the
      search reaches first has distinct times and enough magnitudes. Pairs
      that no query reaches first (a later pair whose times repeat, a
      trailing point earlier than its predecessor) are unconstrained. */
  ghost predicate InterpolableEverywhere(points: seq<KnownPoint>, n: nat)
  {
    forall q: int :: Interpolable(points, q, n)
  }

  /** `UsablePoints` is a sufficient condition: it constrains every pair,
      not only the ones the search uses. */
  lemma UsableIsInterpolable(points: seq<KnownPoint>, n: nat)
    requires UsablePoints(points, n)
    ensures InterpolableEverywhere(points, n)
  {
  }

  /** A point appended after the list with a time before the list's last
      time never changes which pair a query uses: the new pair would need
      `last <= q <= earlier`, which no query satisfies. */
  lemma {:induction false} EarlierTrailingPointUnused(points: seq<KnownPoint>, extra: KnownPoint, q: int, from: nat)
    requires |points| > 0 && extra.time < points[|points| - 1].time
    ensures FindBracket(points + [extra], q, from) == FindBracket(points, q, from)
    decreases |points| - from
  {
    var longer := points + [extra];
    if from + 1 >= |longer| {
    } else if from + 1 == |points| {
      assert !Brackets(longer, from, q);
    } else {
      assert longer[from] == points[from] && longer[from + 1] == points[from + 1];
      if !Brackets(points, from, q) {
        EarlierTrailingPointUnused(points, extra, q, from + 1);
      }
    }
  }

  /** Hence such a trailing point keeps interpolation defined everywhere,
      whatever magnitudes it carries. */
  lemma EarlierTrailingPointKeepsInterpolable(points: seq<KnownPoint>, extra: KnownPoint, n: nat)
    requires |points| > 0 && extra.time < points[|points| - 1].time
    requires InterpolableEverywhere(points, n)
    ensures InterpolableEverywhere(points + [extra], n)
  {
    var longer := points + [extra];
    forall q: int
      ensures Interpolable(longer, q, n)
    {
      EarlierTrailingPointUnused(points, extra, q, 0);
      assert Interpolable(points, q, n);
      match Bracket(points, q)
      case None =>
      case Some(i) =>
        assert longer[i] == points[i] && longer[i + 1] == points[i + 1];
    }
  }

  /** `|q - right| / (right - left)`: the weight of the left point. */
  function LeftWeight(left: int, right: int, q: int): real
    requires left != right
  {
    (if q <= right then right - q else q - right) as real / (right - left) as real
  }

  /** Inside the bracket the weights are convex: both in [0, 1], summing
      to one, the left weight one at the left time and zero at the right. */
  lemma WeightsConvex(left: int, right: int, q: int)
    requires left <= q <= right && left != right
    ensures 0.0 <= LeftWeight(left, right, q) <= 1.0
    ensures 0.0 <= 1.0 - LeftWeight(left, right, q) <= 1.0
    ensures LeftWeight(left, right, q) + (1.0 - LeftWeight(left, right, q)) == 1.0
    ensures q == left ==> LeftWeight(left, right, q) == 1.0
    ensures q == right ==> LeftWeight(left, right, q) == 0.0
  {
    var d := (right - left) as real;
    DivNonneg((right - q) as real, d);
    DivMonotone((right - left) as real, (right - q) as real, d);
    assert d / d == 1.0;
  }

  /** The estimate buffer after interpolating at `q`: untouched when no pair
      brackets `q`, otherwise bin `f` is the weighted sum of the pair's
      magnitudes at `f`. */
  function LinearInterpolate(points: seq<KnownPoint>, q: int, estimate: seq<real>): (r: seq<real>)
    requires Interpolable(points, q, |estimate|)
    ensures |r| == |estimate|
    ensures Bracket(points, q).None? ==> r == estimate
    ensures Bracket(points, q).Some? ==>
      var i := Bracket(points, q).value;
      forall f :: 0 <= f < |r| ==>
        Between(r[f], points[i].magnitudes[f], points[i + 1].magnitudes[f])
  {
    match Bracket(points, q)
    case None => estimate
    case Some(i) =>
      var l := points[i];
      var rt := points[i + 1];
      var lw := LeftWeight(l.time, rt.time, q);
      WeightsConvex(l.time, rt.time, q);
      var r := seq(|estimate|, f requires 0 <= f < |estimate| => l.magnitudes[f] * lw + rt.magnitudes[f] * (1.0 - lw));
      assert forall f :: 0 <= f < |r| ==> Between(r[f], l.magnitudes[f], rt.magnitudes[f]) by {
        forall f | 0 <= f < |r|
          ensures Between(r[f], l.magnitudes[f], rt.magnitudes[f])
        {
          assert r[f] == l.magnitudes[f] * lw + rt.magnitudes[f] * (1.0 - lw);
          ConvexBetween(l.magnitudes[f], rt.magnitudes[f], lw);
        }
      }
      r
  }

  /** `v` lies between `a` and `b`, whichever is larger. */
  predicate Between(v: real, a: real, b: real)
  {
    (a <= b && a <= v <= b) || (b <= a && b <= v <= a)
  }

  /** At a known point's own time the estimate is that point's magnitudes
      (the first `n` of them). */
  lemma InterpolateAtKnownTime(points: seq<KnownPoint>, q: int, estimate: seq<real>)
    requires Interpolable(points, q, |estimate|) && Bracket(points, q).Some?
    ensures var i := Bracket(points, q).value;
      (q == points[i].time ==> LinearInterpolate(points, q, estimate) == points[i].magnitudes[..|estimate|])
      && (q == points[i + 1].time ==> LinearInterpolate(points, q, estimate) == points[i + 1].magnitudes[..|estimate|])
  {
    var i := Bracket(points, q).value;
    WeightsConvex(points[i].time, points[i + 1].time, q);
  }

  /** A query earlier than every known point leaves the estimate untouched. */
  lemma NoBracketKeepsEstimate(points: seq<KnownPoint>, q: int, estimate: seq<real>)
    requires forall i :: 0 <= i < |points| ==> q < points[i].time
    ensures Bracket(points, q).None?
    ensures LinearInterpolate(points, q, estimate) == estimate
  {
  }
}

=== FILE: known_points.dfy ===
/** Extraction of the known points the long-burst declipper interpolates
    between: magnitude spectra of reliable (unclipped) stretches of the
    channel, each anchored at the centre sample of the block it was taken
    from. Around every clip segment there is one point on each side and the
    points of the reliable runs inside the segment. The FFT, the Hann window,
    the zero padding, the energy normalisation and the clip-interval
    utilities are collaborators and enter as function parameters. */
module KnownPoints {
  import opened Types
  import opened Blocking
  import opened ClipIntervals
  import Interpolation

  /** The spectral collaborators: the magnitude spectrum of a (windowed)
      block, the Hann window of a given length, FFTWrapper's zero padding
      to a given length, and the factor that brings a window's energy to
      that of a block of ones, `exp(desired_log_energy - log(L2Norm(w)))`
      where `desired_log_energy = log(sqrt(block_size))`. That target
      depends on the block size and not on `w`, so one `SpectrumTools`
      value stands for one block size; `GetAllKnownPoints` takes the block
      size separately and the two must agree. */
  datatype SpectrumTools = SpectrumTools(magnitudes: seq<real> -> seq<real>,
                                         hann: nat -> seq<real>,
                                         zeroPad: (seq<real>, nat) -> seq<real>,
                                         energyScale: seq<real> -> real)

  /** `block` multiplied in place by the window `w`. */
  function Windowed(block: seq<real>, w: seq<real>): (r: seq<real>)
    ensures |r| == |block|
  {
    Multiply(block, Fit(w, |block|))
  }

  /** The magnitude spectrum of `input`, written into a `blockSize` buffer. */
  function Magnitudes(input: seq<real>, blockSize: nat, tools: SpectrumTools): (m: seq<real>)
    ensures |m| == blockSize
  {
    Fit(tools.magnitudes(input), blockSize)
  }

  /** How many points a reliable run of `len` samples yields: none below
      the minimum FFT length, two (one per end) when it is longer than a
      block, one otherwise. */
  function PointCount(len: nat, blockSize: nat, minLength: int): nat
  {
    if len < minLength then 0 else if len > blockSize then 2 else 1
  }

  /** The points of one reliable run `block` whose first sample is channel
      sample `start`. A run longer than a block yields a point for the block
      at its start and one for the block at its end; a run exactly one block
      long yields its own point; a shorter run is windowed by a Hann window
      of its own length, zero-padded to a block, and its magnitudes are
      rescaled to a full block's energy. Each point sits at the centre of
      the samples it was computed from, inside the run's span. */
  function LocalKnownPoints(block: seq<real>, bigWindow: seq<real>, blockSize: nat, minLength: int,
                            start: int, tools: SpectrumTools): (r: seq<KnownPoint>)
    ensures |r| == PointCount(|block|, blockSize, minLength)
    ensures forall k :: 0 <= k < |r| ==> |r[k].magnitudes| == blockSize
    ensures forall k :: 0 <= k < |r| ==> start <= r[k].time <= start + |block|
    ensures |r| == 2 ==> r[0].time < r[1].time
    ensures |block| >= minLength && |block| > blockSize ==>
      r[0].time == start + HalfUp(blockSize) && r[1].time == start + |block| - blockSize + HalfUp(blockSize)
    ensures minLength <= |block| <= blockSize ==> r[0].time == start + HalfUp(|block|)
  {
    if |block| < minLength then []
    else if |block| > blockSize then
      var secondStart := |block| - blockSize + 1;
      var first := CopiedBlock(block, 1, blockSize, Zeros(blockSize));
      var second := CopiedBlock(block, secondStart, |block|, Zeros(blockSize));
      [KnownPoint(start + HalfUp(blockSize), Magnitudes(Windowed(first, bigWindow), blockSize, tools)),
       KnownPoint(start + secondStart - 1 + HalfUp(blockSize), Magnitudes(Windowed(second, bigWindow), blockSize, tools))]
    else if |block| == blockSize then
      [KnownPoint(start + HalfUp(|block|), Magnitudes(Windowed(block, bigWindow), blockSize, tools))]
    else
      var w := tools.hann(|block|);
      var padded := tools.zeroPad(Windowed(block, w), blockSize);
      [KnownPoint(start + HalfUp(|block|), Scale(Magnitudes(padded, blockSize, tools), tools.energyScale(w)))]
  }

  /** The two blocks of a run longer than a block: the first skips the
      run's sample 0 and reads samples `1 .. blockSize`; the second reads
      the last `blockSize - 1` samples and one index past the run's end,
      which is zero-filled. */
  lemma SubBlocksOfLongRun(block: seq<real>, blockSize: nat)
    requires |block| > blockSize
    ensures CopiedBlock(block, 1, blockSize, Zeros(blockSize)) == block[1 .. blockSize + 1]
    ensures blockSize > 0 ==>
      CopiedBlock(block, |block| - blockSize + 1, |block|, Zeros(blockSize)) == block[|block| - blockSize + 1 ..] + [0.0]
  {
    var first := CopiedBlock(block, 1, blockSize, Zeros(blockSize));
    assert forall k :: 0 <= k < blockSize ==> first[k] == block[1 + k];
    if blockSize > 0 {
      var s := |block| - blockSize + 1;
      var second := CopiedBlock(block, s, |block|, Zeros(blockSize));
      var expected := block[s ..] + [0.0];
      assert |expected| == blockSize;
      forall k | 0 <= k < blockSize
        ensures second[k] == expected[k]
      {
        if k < blockSize - 1 {
          assert s + k < |block|;
          assert expected[k] == block[s + k];
        } else {
          assert s + k == |block|;
          assert expected[k] == 0.0;
        }
      }
    }
  }

  /** A run already trimmed to at most one block yields at most one point,
      and exactly one once it reaches the minimum FFT length. */
  lemma TrimmedRunYieldsOnePoint(block: seq<real>, bigWindow: seq<real>, blockSize: nat, minLength: int,
                                 start: int, tools: SpectrumTools)
    requires |block| <= blockSize
    ensures |LocalKnownPoints(block, bigWindow, blockSize, minLength, start, tools)| <= 1
    ensures |LocalKnownPoints(block, bigWindow, blockSize, minLength, start, tools)| == 1 <==> |block| >= minLength
  {
  }

  /** The point of a run shorter than a block carries the zero-padded
      spectrum rescaled by the energy factor of the run's own window. */
  lemma ShortRunIsRescaled(block: seq<real>, bigWindow: seq<real>, blockSize: nat, minLength: int,
                           start: int, tools: SpectrumTools)
    requires minLength <= |block| < blockSize
    ensures var w := tools.hann(|block|);
      var p := LocalKnownPoints(block, bigWindow, blockSize, minLength, start, tools)[0];
      && p.time == start + HalfUp(|block|)
      && forall f :: 0 <= f < blockSize ==>
           p.magnitudes[f] == Magnitudes(tools.zeroPad(Windowed(block, w), blockSize), blockSize, tools)[f]
                              * tools.energyScale(w)
  {
  }

  // ------------------------------------------------------ boundary points

  /** The known point left of clip interval `idx`: the reliable run before
      it, trimmed to its last `blockSize` samples (starting at sample 1 for
      the first interval). When the interval starts at sample 0 there is no
      such run and the point is all zeros at time 1. `None` stands for what
      the source cannot produce a point from: a run of negative length
      (a RangeError) or one shorter than the minimum FFT length (an
      `undefined` entry). */
  function LeftBoundaryPoint(x: seq<real>, intervals: seq<Interval>, idx: nat, blockSize: nat,
                             minLength: int, bigWindow: seq<real>, tools: SpectrumTools): (p: Option<KnownPoint>)
    requires WellFormed(intervals) && idx < |intervals|
    ensures p.Some? ==> |p.value.magnitudes| == blockSize
    ensures intervals[idx].start == 0 ==> p == Some(KnownPoint(1, Zeros(blockSize)))
    ensures intervals[idx].start > 0 ==>
      (p.Some? <==> Length(LeftGap(intervals, idx, blockSize)) >= 0 && Length(LeftGap(intervals, idx, blockSize)) >= minLength)
    ensures p.Some? && intervals[idx].start > 0 ==>
      LeftGap(intervals, idx, blockSize).start <= p.value.time <= intervals[idx].start
  {
    var run := LeftGap(intervals, idx, blockSize);
    GapsStartPastZero(intervals, idx, |x|, blockSize);
    if run.stop < 0 then Some(KnownPoint(1, Zeros(blockSize)))
    else if Length(run) < 0 then None
    else
      var points := LocalKnownPoints(CopiedBlock(x, run.start, run.stop, Zeros(Length(run))),
                                     bigWindow, blockSize, minLength, run.start, tools);
      if |points| == 0 then None else Some(points[0])
  }

  /** The known point right of clip interval `idx`: the reliable run after
      it up to the next interval, or up to index `|x|` (one past the last
      sample) for the last interval, trimmed to its first `blockSize`
      samples. When the run starts past the channel the point is zeros at
      time 1, with one zero per index of the run rather than `blockSize`.
      `None` as for the left point. */
  function RightBoundaryPoint(x: seq<real>, intervals: seq<Interval>, idx: nat, blockSize: nat,
                              minLength: int, bigWindow: seq<real>, tools: SpectrumTools): (p: Option<KnownPoint>)
    requires WellFormed(intervals) && idx < |intervals|
    ensures var run := RightGap(intervals, idx, |x|, blockSize);
      && (run.start >= |x| ==> (p.Some? <==> Length(run) >= 0))
      && (run.start >= |x| && p.Some? ==> p.value == KnownPoint(1, Zeros(Length(run))))
      && (run.start < |x| ==> (p.Some? <==> Length(run) >= 0 && Length(run) >= minLength))
      && (run.start < |x| && p.Some? ==> |p.value.magnitudes| == blockSize && run.start <= p.value.time <= run.stop + 1)
  {
    var run := RightGap(intervals, idx, |x|, blockSize);
    GapsStartPastZero(intervals, idx, |x|, blockSize);
    if run.start >= |x| then
      if Length(run) < 0 then None else Some(KnownPoint(1, Zeros(Length(run))))
    else if Length(run) < 0 then None
    else
      var points := LocalKnownPoints(CopiedBlock(x, run.start, run.stop, Zeros(Length(run))),
                                     bigWindow, blockSize, minLength, run.start, tools);
      if |points| == 0 then None else Some(points[0])
  }

  /** When the last clip interval ends on the channel's last sample, the
      point right of it is a single zero at time 1: shorter than the
      `blockSize` magnitudes every other point carries. */
  lemma RightOfLastSampleIsOneZero(x: seq<real>, intervals: seq<Interval>, blockSize: nat,
                                   minLength: int, bigWindow: seq<real>, tools: SpectrumTools)
    requires WellFormed(intervals) && |intervals| > 0 && blockSize > 0
    requires intervals[|intervals| - 1].stop == |x| - 1
    ensures RightBoundaryPoint(x, intervals, |intervals| - 1, blockSize, minLength, bigWindow, tools)
         == Some(KnownPoint(1, [0.0]))
  {
    var run := RightGap(intervals, |intervals| - 1, |x|, blockSize);
    assert run == Interval(|x|, |x|);
    assert Zeros(1) == [0.0];
  }

  // ------------------------------------------------------ interior points

  /** Every run starts at a sample index and has a non-negative length, so
      it can be copied out of the channel. */
  predicate CopyableRuns(runs: seq<Interval>)
  {
    forall k :: 0 <= k < |runs| ==> 0 <= runs[k].start && Length(runs[k]) >= 0
  }

  /** The points of the reliable runs inside a segment, run by run in
      order; `None` when some run cannot be copied out of the channel. */
  function InteriorPoints(x: seq<real>, runs: seq<Interval>, blockSize: nat, minLength: int,
                          bigWindow: seq<real>, tools: SpectrumTools): (r: Option<seq<KnownPoint>>)
    ensures r.Some? <==> CopyableRuns(runs)
    ensures r.Some? ==> |r.value| <= 2 * |runs|
    ensures r.Some? ==> forall k :: 0 <= k < |r.value| ==> |r.value[k].magnitudes| == blockSize
    decreases |runs|
  {
    if |runs| == 0 then Some([])
    else
      var run := runs[|runs| - 1];
      match InteriorPoints(x, runs[..|runs| - 1], blockSize, minLength, bigWindow, tools)
      case None =>
        assert !CopyableRuns(runs) by {
          var k :| 0 <= k < |runs| - 1 && !(0 <= runs[..|runs| - 1][k].start && Length(runs[..|runs| - 1][k]) >= 0);
          assert runs[k] == runs[..|runs| - 1][k];
        }
        None
      case Some(prev) =>
        if run.start < 0 || Length(run) < 0 then None
        else
          assert CopyableRuns(runs) by {
            forall k | 0 <= k < |runs|
              ensures 0 <= runs[k].start && Length(runs[k]) >= 0
            {
              if k < |runs| - 1 {
                assert runs[k] == runs[..|runs| - 1][k];
              }
            }
          }
          Some(prev + LocalKnownPoints(CopiedBlock(x, run.start, run.stop, Zeros(Length(run))),
                                       bigWindow, blockSize, minLength, run.start, tools))
  }

  /** The points of one more run come after those of the runs before it. */
  lemma InteriorPointsSnoc(x: seq<real>, runs: seq<Interval>, run: Interval, blockSize: nat, minLength: int,
                           bigWindow: seq<real>, tools: SpectrumTools)
    requires CopyableRuns(runs + [run])
    ensures InteriorPoints(x, runs + [run], blockSize, minLength, bigWindow, tools).value
         == InteriorPoints(x, runs, blockSize, minLength, bigWindow, tools).value
            + LocalKnownPoints(CopiedBlock(x, run.start, run.stop, Zeros(Length(run))),
                               bigWindow, blockSize, minLength, run.start, tools)
  {
    var all := runs + [run];
    assert all[..|all| - 1] == runs;
    assert all[|all| - 1] == run;
  }

  // -------------------------------------------------------------- segments

  /** The clip-interval collaborators: the segmentation of the clip
      intervals into clip segments, the index of the clip interval touching
      a segment's first (last) sample, and cropping, inverting (the
      reliable gaps between intervals) and thinning (dropping runs shorter
      than the minimum FFT length) of intervals inside a sample range. */
  datatype IntervalTools = IntervalTools(clipSegments: (seq<Interval>, nat, nat, int) -> seq<Interval>,
                                         leftmost: (seq<Interval>, int) -> int,
                                         rightmost: (seq<Interval>, int) -> int,
                                         crop: (seq<Interval>, int, int) -> seq<Interval>,
                                         invert: (seq<Interval>, int, int) -> seq<Interval>,
                                         thin: (seq<Interval>, int) -> seq<Interval>)

  /** The sample range a clip segment's blocks cover. */
  function SegmentSamples(seg: Interval, blockSize: nat, hop: nat): Interval
  {
    Interval(BlockIdxToSampleIdx(seg.start, hop), BlockIdxToSampleIdx(seg.stop, hop) + blockSize - 1)
  }

  /** The reliable runs inside a segment's sample range. */
  function ReliableRuns(intervals: seq<Interval>, range: Interval, minLength: int, tools: IntervalTools): seq<Interval>
  {
    tools.thin(tools.invert(tools.crop(intervals, range.start, range.stop), range.start, range.stop), minLength)
  }

  /** The points of one clip segment: the point left of the clip interval
      at the segment's first sample, the interior points, and the point
      right of the clip interval at its last sample. `None` when an index
      the utilities return is not an interval of the list, or a point
      cannot be produced. */
  function SegmentPoints(x: seq<real>, intervals: seq<Interval>, seg: Interval, blockSize: nat, hop: nat,
                         minLength: int, bigWindow: seq<real>, spectrum: SpectrumTools,
                         tools: IntervalTools): (r: Option<seq<KnownPoint>>)
    requires WellFormed(intervals)
    ensures r.Some? ==> |r.value| >= 2
    ensures r.Some? ==>
      var range := SegmentSamples(seg, blockSize, hop);
      var left := tools.leftmost(intervals, range.start);
      var right := tools.rightmost(intervals, range.stop);
      && 0 <= left < |intervals| && 0 <= right < |intervals|
      && Some(r.value[0]) == LeftBoundaryPoint(x, intervals, left, blockSize, minLength, bigWindow, spectrum)
      && Some(r.value[|r.value| - 1]) == RightBoundaryPoint(x, intervals, right, blockSize, minLength, bigWindow, spectrum)
      && Some(r.value[1 .. |r.value| - 1])
         == InteriorPoints(x, ReliableRuns(intervals, range, minLength, tools), blockSize, minLength, bigWindow, spectrum)
  {
    var range := SegmentSamples(seg, blockSize, hop);
    var left := tools.leftmost(intervals, range.start);
    var right := tools.rightmost(intervals, range.stop);
    if !(0 <= left < |intervals|) then None
    else match LeftBoundaryPoint(x, intervals, left, blockSize, minLength, bigWindow, spectrum)
    case None => None
    case Some(leftPoint) =>
      match InteriorPoints(x, ReliableRuns(intervals, range, minLength, tools), blockSize, minLength, bigWindow, spectrum)
      case None => None
      case Some(inner) =>
        if !(0 <= right < |intervals|) then None
        else match RightBoundaryPoint(x, intervals, right, blockSize, minLength, bigWindow, spectrum)
        case None => None
        case Some(rightPoint) =>
          var r := [leftPoint] + inner + [rightPoint];
          assert r[1 .. |r| - 1] == inner;
          Some(r)
  }

  /** Every segment that has points has at least its two boundary points. */
  predicate AtLeastTwoEach(perSegment: seq<Option<seq<KnownPoint>>>)
  {
    forall k :: 0 <= k < |perSegment| && perSegment[k].Some? ==> |perSegment[k].value| >= 2
  }

  /** The points of the first `m` segments, segment after segment, given
      the points of each segment; `None` once a segment has none. */
  function Concatenated(perSegment: seq<Option<seq<KnownPoint>>>, m: nat): (r: Option<seq<KnownPoint>>)
    requires m <= |perSegment| && AtLeastTwoEach(perSegment)
    ensures r.Some? <==> forall k :: 0 <= k < m ==> perSegment[k].Some?
    ensures r.Some? ==> |r.value| >= 2 * m
  {
    if m == 0 then Some([])
    else
      match Concatenated(perSegment, m - 1)
      case None => None
      case Some(prev) =>
        match perSegment[m - 1]
        case None => None
        case Some(points) => Some(prev + points)
  }

  /** The list for `m` segments is the list for `m - 1` followed by the
      points of segment `m - 1`. */
  lemma ConcatenatedStep(perSegment: seq<Option<seq<KnownPoint>>>, m: nat)
    requires 0 < m <= |perSegment| && AtLeastTwoEach(perSegment)
    requires Concatenated(perSegment, m).Some?
    ensures var prev := Concatenated(perSegment, m - 1);
      var r := Concatenated(perSegment, m).value;
      && prev.Some? && perSegment[m - 1].Some?
      && |prev.value| + |perSegment[m - 1].value| == |r|
      && r[..|prev.value|] == prev.value && r[|prev.value|..] == perSegment[m - 1].value
  {
    var prev := Concatenated(perSegment, m - 1).value;
    var points := perSegment[m - 1].value;
    assert Concatenated(perSegment, m).value == prev + points;
    assert (prev + points)[..|prev|] == prev;
    assert (prev + points)[|prev|..] == points;
  }

  /** `GetAllKnownPoints`: the points of every clip segment, in segment
      order, with the Hann window of a full block for the block-sized
      spectra; `None` exactly when some segment has none. */
  function GetAllKnownPoints(x: seq<real>, intervals: seq<Interval>, blockSize: nat, hop: nat, minLength: int,
                             spectrum: SpectrumTools, tools: IntervalTools): (r: Option<seq<KnownPoint>>)
    requires WellFormed(intervals)
    ensures var segments := tools.clipSegments(intervals, blockSize, hop, |x|);
      && (r.Some? <==> forall k :: 0 <= k < |segments| ==>
            SegmentPoints(x, intervals, segments[k], blockSize, hop, minLength, spectrum.hann(blockSize), spectrum, tools).Some?)
      && (r.Some? ==> |r.value| >= 2 * |segments|)
      && (|segments| == 0 ==> r == Some([]))
  {
    var segments := tools.clipSegments(intervals, blockSize, hop, |x|);
    var perSegment := PerSegmentPoints(x, intervals, segments, blockSize, hop, minLength, spectrum, tools);
    var r := Concatenated(perSegment, |segments|);
    assert r.Some? <==> forall k :: 0 <= k < |segments| ==>
      SegmentPoints(x, intervals, segments[k], blockSize, hop, minLength, spectrum.hann(blockSize), spectrum, tools).Some? by {
      if !r.Some? {
        var k :| 0 <= k < |segments| && perSegment[k].None?;
      }
    }
    r
  }

  /** The list starts with the left point of the first segment and ends
      with the right point of the last one. */
  lemma KnownPointsEnds(x: seq<real>, intervals: seq<Interval>, blockSize: nat, hop: nat, minLength: int,
                        spectrum: SpectrumTools, tools: IntervalTools)
    requires WellFormed(intervals)
    requires |tools.clipSegments(intervals, blockSize, hop, |x|)| > 0
    requires GetAllKnownPoints(x, intervals, blockSize, hop, minLength, spectrum, tools).Some?
    ensures var segments := tools.clipSegments(intervals, blockSize, hop, |x|);
      var r := GetAllKnownPoints(x, intervals, blockSize, hop, minLength, spectrum, tools).value;
      var left := tools.leftmost(intervals, SegmentSamples(segments[0], blockSize, hop).start);
      var right := tools.rightmost(intervals, SegmentSamples(segments[|segments| - 1], blockSize, hop).stop);
      && 0 <= left < |intervals| && 0 <= right < |intervals|
      && Some(r[0]) == LeftBoundaryPoint(x, intervals, left, blockSize, minLength, spectrum.hann(blockSize), spectrum)
      && Some(r[|r| - 1]) == RightBoundaryPoint(x, intervals, right, blockSize, minLength, spectrum.hann(blockSize), spectrum)
  {
    var segments := tools.clipSegments(intervals, blockSize, hop, |x|);
    var perSegment := PerSegmentPoints(x, intervals, segments, blockSize, hop, minLength, spectrum, tools);
    var m := |segments|;
    assert GetAllKnownPoints(x, intervals, blockSize, hop, minLength, spectrum, tools) == Concatenated(perSegment, m);
    ConcatenatedEnds(perSegment, m);
    var first := SegmentPoints(x, intervals, segments[0], blockSize, hop, minLength, spectrum.hann(blockSize), spectrum, tools);
    var last := SegmentPoints(x, intervals, segments[m - 1], blockSize, hop, minLength, spectrum.hann(blockSize), spectrum, tools);
    assert perSegment[0] == first && perSegment[m - 1] == last;
  }

  /** The points of each clip segment, segment by segment, with the Hann
      window of a full block. */
  function PerSegmentPoints(x: seq<real>, intervals: seq<Interval>, segments: seq<Interval>, blockSize: nat, hop: nat,
                            minLength: int, spectrum: SpectrumTools, tools: IntervalTools)
    : (r: seq<Option<seq<KnownPoint>>>)
    requires WellFormed(intervals)
    ensures |r| == |segments| && AtLeastTwoEach(r)
    ensures forall k :: 0 <= k < |segments| ==>
      r[k] == SegmentPoints(x, intervals, segments[k], blockSize, hop, minLength, spectrum.hann(blockSize), spectrum, tools)
  {
    var bigWindow := spectrum.hann(blockSize);
    seq(|segments|, k requires 0 <= k < |segments| =>
      SegmentPoints(x, intervals, segments[k], blockSize, hop, minLength, bigWindow, spectrum, tools))
  }

  /** The list for `m > 0` segments starts with the first point of segment
      0 and ends with the last point of segment `m - 1`. */
  lemma {:induction false} ConcatenatedEnds(perSegment: seq<Option<seq<KnownPoint>>>, m: nat)
    requires 0 < m <= |perSegment| && AtLeastTwoEach(perSegment)
    requires Concatenated(perSegment, m).Some?
    ensures perSegment[0].Some? && perSegment[m - 1].Some?
    ensures var r := Concatenated(perSegment, m).value;
      && r[0] == perSegment[0].value[0]
      && r[|r| - 1] == perSegment[m - 1].value[|perSegment[m - 1].value| - 1]
  {
    var prev := Concatenated(perSegment, m - 1).value;
    var points := perSegment[m - 1].value;
    var r := prev + points;
    assert Concatenated(perSegment, m).value == r;
    assert r[|r| - 1] == points[|points| - 1];
    if m == 1 {
      assert prev == [];
      assert r[0] == points[0];
    } else {
      ConcatenatedEnds(perSegment, m - 1);
      assert r[0] == prev[0];
    }
  }

  /** Known points in non-decreasing time order, as the interpolation's
      search takes them to be. */
  predicate TimesAscending(points: seq<KnownPoint>)
  {
    forall i, j :: 0 <= i < j < |points| ==> points[i].time <= points[j].time
  }

  /** The list is not always in time order: when the last segment's right
      interval is the last clip interval and ends on the channel's last
      sample, the list ends with the one-zero point at time 1, after points
      at later times. That point is never used: with the point before it
      later than time 1, every query finds the same pair with or without
      it. */
  lemma TrailingZeroPointOutOfOrder(x: seq<real>, intervals: seq<Interval>, blockSize: nat, hop: nat,
                                    minLength: int, spectrum: SpectrumTools, tools: IntervalTools,
                                    points: seq<KnownPoint>)
    requires WellFormed(intervals) && blockSize > 0 && |intervals| > 0
    requires intervals[|intervals| - 1].stop == |x| - 1
    requires var segments := tools.clipSegments(intervals, blockSize, hop, |x|);
      && |segments| > 0
      && tools.rightmost(intervals, SegmentSamples(segments[|segments| - 1], blockSize, hop).stop) == |intervals| - 1
    requires GetAllKnownPoints(x, intervals, blockSize, hop, minLength, spectrum, tools) == Some(points)
    ensures |points| >= 2 && points[|points| - 1] == KnownPoint(1, [0.0])
    ensures (exists i :: 0 <= i < |points| - 1 && points[i].time > 1) ==> !TimesAscending(points)
    ensures points[|points| - 2].time > 1 ==>
      forall q :: Interpolation.Bracket(points, q) == Interpolation.Bracket(points[..|points| - 1], q)
  {
    EndsWithOneZero(x, intervals, blockSize, hop, minLength, spectrum, tools, points);
    LaterThanLastIsUnordered(points);
    if points[|points| - 2].time > 1 {
      EarlierLastPointUnused(points);
    }
  }

  /** The first half of the above: the list's last point is the one-zero
      point at time 1. */
  lemma EndsWithOneZero(x: seq<real>, intervals: seq<Interval>, blockSize: nat, hop: nat,
                        minLength: int, spectrum: SpectrumTools, tools: IntervalTools, points: seq<KnownPoint>)
    requires WellFormed(intervals) && blockSize > 0 && |intervals| > 0
    requires intervals[|intervals| - 1].stop == |x| - 1
    requires var segments := tools.clipSegments(intervals, blockSize, hop, |x|);
      && |segments| > 0
      && tools.rightmost(intervals, SegmentSamples(segments[|segments| - 1], blockSize, hop).stop) == |intervals| - 1
    requires GetAllKnownPoints(x, intervals, blockSize, hop, minLength, spectrum, tools) == Some(points)
    ensures |points| >= 2 && points[|points| - 1] == KnownPoint(1, [0.0])
  {
    var bigWindow := spectrum.hann(blockSize);
    KnownPointsEnds(x, intervals, blockSize, hop, minLength, spectrum, tools);
    RightOfLastSampleIsOneZero(x, intervals, blockSize, minLength, bigWindow, spectrum);
    assert Some(points[|points| - 1])
        == RightBoundaryPoint(x, intervals, |intervals| - 1, blockSize, minLength, bigWindow, spectrum);
  }

  /** A point before the last one with a later time breaks the order. */
  lemma LaterThanLastIsUnordered(points: seq<KnownPoint>)
    requires |points| > 0
    ensures (exists i :: 0 <= i < |points| - 1 && points[i].time > points[|points| - 1].time) ==> !TimesAscending(points)
  {
  }

  /** A last point earlier than the one before it is never part of the
      pair a query uses. */
  lemma EarlierLastPointUnused(points: seq<KnownPoint>)
    requires |points| >= 2 && points[|points| - 1].time < points[|points| - 2].time
    ensures forall q :: Interpolation.Bracket(points, q) == Interpolation.Bracket(points[..|points| - 1], q)
  {
    var init := points[..|points| - 1];
    assert init + [points[|points| - 1]] == points;
    forall q
      ensures Interpolation.Bracket(points, q) == Interpolation.Bracket(init, q)
    {
      Interpolation.EarlierTrailingPointUnused(init, points[|points| - 1], q, 0);
    }
  }

  /** Each segment appends its own points after those of the segments
      before it: the list for `m` segments extends the list for `j <= m`. */
  lemma {:induction false} ConcatenatedPrefix(perSegment: seq<Option<seq<KnownPoint>>>, j: nat, m: nat)
    requires j <= m <= |perSegment| && AtLeastTwoEach(perSegment)
    requires Concatenated(perSegment, m).Some?
    ensures Concatenated(perSegment, j).Some?
    ensures var short := Concatenated(perSegment, j).value;
      var long := Concatenated(perSegment, m).value;
      |short| <= |long| && long[..|short|] == short
    decreases m - j
  {
    var long := Concatenated(perSegment, m).value;
    if j < m {
      var mid := Concatenated(perSegment, m - 1);
      ConcatenatedStep(perSegment, m);
      ConcatenatedPrefix(perSegment, j, m - 1);
      var short := Concatenated(perSegment, j).value;
      PrefixOfPrefix(long, mid.value, short);
    } else {
      assert long[..|long|] == long;
    }
  }

  /** A prefix of a prefix is a prefix. */
  lemma PrefixOfPrefix<T>(long: seq<T>, mid: seq<T>, short: seq<T>)
    requires |mid| <= |long| && long[..|mid|] == mid
    requires |short| <= |mid| && mid[..|short|] == short
    ensures |short| <= |long| && long[..|short|] == short
  {
    assert forall i :: 0 <= i < |short| ==> long[i] == long[..|mid|][i];
  }
}

=== FILE: noise_removal.dfy ===
/** Noise removal: detecting quiet blocks, estimating a noise profile as the
    mean block spectrum of a noise-only region, and the block / overlap-add
    skeleton of decision-directed spectral subtraction, with its per-bin
    SNR and mask formulas. The transform, the RMS and the square root are
    collaborators and enter as parameters. */
module NoiseRemoval {
  import opened Types
  import opened Blocking
  import opened Averaging
  import opened RealFacts

  /** One flag per full block: 1 when the block's RMS is below the
      threshold, 0 otherwise. The flags go to a collaborator
      (`FlagsToIntervals`) that turns runs of 1s into intervals; both the
      flags and the intervals are returned. */
  method RMSThreshold(x: seq<real>, threshold: real, blockSize: nat, hop: nat,
                      rms: seq<real> -> real, flagsToIntervals: seq<int> -> seq<Interval>)
    returns (intervals: seq<Interval>, flags: seq<int>)
    requires hop > 0
    ensures |flags| == NumFullBlocks(|x|, blockSize, hop)
    ensures forall k :: 0 <= k < |flags| ==> flags[k] == 0 || flags[k] == 1
    ensures forall k :: 0 <= k < |flags| ==>
      (flags[k] == 1 <==> rms(ReadBlock(x, k, blockSize, hop)) < threshold)
    ensures intervals == flagsToIntervals(flags)
  {
    var n := NumFullBlocks(|x|, blockSize, hop);
    var curBlock := Zeros(blockSize);
    flags := [];
    var startIdx := 0;
    var stopIdx := startIdx + blockSize - 1;
    var blockIdx := 0;
    FullBlockBound(|x|, blockSize, hop, 0);
    while stopIdx < |x|
      invariant 0 <= blockIdx <= n
      invariant startIdx == blockIdx * hop && stopIdx == startIdx + blockSize - 1
      invariant stopIdx < |x| <==> blockIdx < n
      invariant |curBlock| == blockSize && |flags| == blockIdx
      invariant forall k :: 0 <= k < blockIdx ==> flags[k] == 0 || flags[k] == 1
      invariant forall k :: 0 <= k < blockIdx ==>
        (flags[k] == 1 <==> rms(ReadBlock(x, k, blockSize, hop)) < threshold)
      decreases n - blockIdx
    {
      var oldBlock := curBlock;
      curBlock := CopyToBlock(x, startIdx, stopIdx, curBlock);
      ReadFullBlock(x, blockIdx, blockSize, hop);
      CopyWholeBlock(x, startIdx, oldBlock);
      assert curBlock == ReadBlock(x, blockIdx, blockSize, hop);
      if rms(curBlock) < threshold {
        flags := flags + [1];
      } else {
        flags := flags + [0];
      }
      startIdx := startIdx + hop;
      stopIdx := startIdx + blockSize - 1;
      blockIdx := blockIdx + 1;
      FullBlockBound(|x|, blockSize, hop, blockIdx);
    }
    intervals := flagsToIntervals(flags);
  }

  /** The magnitude spectrum of block `k` after windowing; `magnitude`
      stands for the FFT followed by `GetFFTMagnitudeAndPhase`, whose output
      lands in a buffer of `blockSize` entries. */
  function BlockMagnitude(x: seq<real>, k: nat, blockSize: nat, hop: nat, window: seq<real>,
                          magnitude: seq<real> -> seq<real>): (m: seq<real>)
    requires |window| == blockSize
    ensures |m| == blockSize
  {
    Fit(magnitude(Multiply(ReadBlock(x, k, blockSize, hop), window)), blockSize)
  }

  /** The magnitude spectra of all full blocks, in block order. */
  function BlockMagnitudes(x: seq<real>, blockSize: nat, hop: nat, window: seq<real>,
                           magnitude: seq<real> -> seq<real>): (ms: seq<seq<real>>)
    requires hop > 0 && |window| == blockSize
    ensures |ms| == NumFullBlocks(|x|, blockSize, hop)
    ensures Rectangular(ms, blockSize)
  {
    seq(NumFullBlocks(|x|, blockSize, hop), k requires 0 <= k => BlockMagnitude(x, k, blockSize, hop, window, magnitude))
  }

  /** The profile loop: every full block is read, windowed and
      transformed, and its magnitudes are folded into the running average
      with weight `1/k` for the `k`-th block. */
  method AverageBlockMagnitudes(x: seq<real>, blockSize: nat, hop: nat, window: seq<real>,
                                magnitude: seq<real> -> seq<real>) returns (profile: seq<real>)
    requires hop > 0 && |window| == blockSize
    ensures profile == OnlineAverage(BlockMagnitudes(x, blockSize, hop, window, magnitude), Zeros(blockSize))
  {
    var n := NumFullBlocks(|x|, blockSize, hop);
    ghost var ms := BlockMagnitudes(x, blockSize, hop, window, magnitude);
    var curBlock := Zeros(blockSize);
    profile := Zeros(blockSize);
    var startIdx := 0;
    var stopIdx := startIdx + blockSize - 1;
    var blockIdx := 0;
    FullBlockBound(|x|, blockSize, hop, 0);
    assert ms[..0] == [];
    while stopIdx < |x|
      invariant 0 <= blockIdx <= n
      invariant startIdx == BlockIdxToSampleIdx(blockIdx, hop) && stopIdx == startIdx + blockSize - 1
      invariant stopIdx < |x| <==> blockIdx < n
      invariant |curBlock| == blockSize
      invariant profile == OnlineAverage(ms[..blockIdx], Zeros(blockSize))
      decreases n - blockIdx
    {
      ReadIntoBuffer(x, blockIdx, blockSize, hop, curBlock);
      curBlock := CopyToBlock(x, startIdx, stopIdx, curBlock);
      var mags := Fit(magnitude(Multiply(curBlock, window)), blockSize);
      assert mags == ms[blockIdx];
      OnlineAveragePrefix(ms, blockIdx, Zeros(blockSize));
      profile := OnlineUpdate(profile, mags, blockIdx + 1);
      startIdx := startIdx + hop;
      stopIdx := startIdx + blockSize - 1;
      blockIdx := blockIdx + 1;
      FullBlockBound(|x|, blockSize, hop, blockIdx);
    }
    assert ms[..blockIdx] == ms;
  }

  /** The noise profile: the online average of the block magnitude spectra,
      which is their arithmetic mean; all zeros when no full block fits. */
  method GetNoiseProfile(x: seq<real>, blockSize: nat, hop: nat, window: seq<real>,
                         magnitude: seq<real> -> seq<real>) returns (profile: seq<real>)
    requires hop > 0 && |window| == blockSize
    ensures |profile| == blockSize
    ensures NumFullBlocks(|x|, blockSize, hop) == 0 ==> profile == Zeros(blockSize)
    ensures NumFullBlocks(|x|, blockSize, hop) > 0 ==>
      profile == Mean(BlockMagnitudes(x, blockSize, hop, window, magnitude), blockSize)
  {
    profile := AverageBlockMagnitudes(x, blockSize, hop, window, magnitude);
    if NumFullBlocks(|x|, blockSize, hop) > 0 {
      OnlineAverageIsMean(BlockMagnitudes(x, blockSize, hop, window, magnitude), Zeros(blockSize));
    }
  }

  /** What the per-frame spectral stage hands back: the inverse-transformed
      block, and the state (previous masks and SNRs) for the next frame. */
  datatype FrameOutput<S> = FrameOutput(block: seq<real>, state: S)

  /** The output accumulator and the frame state after the first `m` full
      blocks: each frame's block lands in a buffer of `blockSize` entries,
      is windowed, and is overlap-added at the block's start. */
  function Accumulate<S>(x: seq<real>, noise: seq<real>, blockSize: nat, hop: nat, window: seq<real>,
                         frame: (seq<real>, seq<real>, S) -> FrameOutput<S>, init: S, m: nat): (r: (seq<real>, S))
    requires |window| == blockSize
    ensures |r.0| == |x|
  {
    if m == 0 then (Zeros(|x|), init)
    else
      var prev := Accumulate(x, noise, blockSize, hop, window, frame, init, m - 1);
      var out := frame(ReadBlock(x, m - 1, blockSize, hop), noise, prev.1);
      var start := BlockIdxToSampleIdx(m - 1, hop);
      (OverlapAdded(prev.0, start, start + blockSize - 1, Multiply(Fit(out.block, blockSize), window)), out.state)
  }

  /** Samples no full block reaches stay zero in the accumulator. */
  lemma {:induction false} AccumulateUncovered<S>(x: seq<real>, noise: seq<real>, blockSize: nat, hop: nat,
                                                  window: seq<real>, frame: (seq<real>, seq<real>, S) -> FrameOutput<S>,
                                                  init: S, m: nat, i: nat)
    requires |window| == blockSize && i < |x| && !Covered(i, m, blockSize, hop)
    ensures Accumulate(x, noise, blockSize, hop, window, frame, init, m).0[i] == 0.0
  {
    if m > 0 {
      AccumulateUncovered(x, noise, blockSize, hop, window, frame, init, m - 1, i);
      var start := BlockIdxToSampleIdx(m - 1, hop);
      assert !(start <= i < start + blockSize);
    }
  }

  /** The denominator of the resynthesis: the window sum over the processed
      blocks, with every entry below 0.01 raised to 0.01. */
  function WindowCompensation(len: nat, blockSize: nat, hop: nat, window: seq<real>): (c: seq<real>)
    requires hop > 0 && |window| == blockSize
    ensures |c| == len
    ensures forall i :: 0 <= i < len ==> c[i] >= 0.01
  {
    FloorEntries(OlaWindows(len, window, hop, NumFullBlocks(len, blockSize, hop)), 0.01, 0.01, len)
  }

  /** The frame loop of the noise remover: every full block is read, handed
      to the spectral stage with the profile and the running state, and its
      windowed output is overlap-added at the block's start. Returns the
      accumulator and the number of blocks processed. */
  method AccumulateFrames<S>(x: seq<real>, noise: seq<real>, blockSize: nat, hop: nat, window: seq<real>,
                             frame: (seq<real>, seq<real>, S) -> FrameOutput<S>, init: S)
    returns (acc: seq<real>, numBlocks: nat)
    requires hop > 0 && |window| == blockSize
    ensures numBlocks == NumFullBlocks(|x|, blockSize, hop)
    ensures acc == Accumulate(x, noise, blockSize, hop, window, frame, init, numBlocks).0
  {
    var n := NumFullBlocks(|x|, blockSize, hop);
    acc := Zeros(|x|);
    var state := init;
    var curBlock := Zeros(blockSize);
    var startIdx := 0;
    var stopIdx := startIdx + blockSize - 1;
    var blockIdx := 0;
    FullBlockBound(|x|, blockSize, hop, 0);
    while stopIdx < |x|
      invariant 0 <= blockIdx <= n
      invariant startIdx == blockIdx * hop && stopIdx == startIdx + blockSize - 1
      invariant stopIdx < |x| <==> blockIdx < n
      invariant |curBlock| == blockSize
      invariant (acc, state) == Accumulate(x, noise, blockSize, hop, window, frame, init, blockIdx)
      decreases n - blockIdx
    {
      var oldBlock := curBlock;
      curBlock := CopyToBlock(x, startIdx, stopIdx, curBlock);
      ReadFullBlock(x, blockIdx, blockSize, hop);
      CopyWholeBlock(x, startIdx, oldBlock);
      assert curBlock == ReadBlock(x, blockIdx, blockSize, hop);
      var result := frame(curBlock, noise, state);
      var synthesized := Multiply(Fit(result.block, blockSize), window);
      acc := OverlapAndAdd(acc, startIdx, stopIdx, synthesized);
      state := result.state;
      startIdx := startIdx + hop;
      stopIdx := startIdx + blockSize - 1;
      blockIdx := blockIdx + 1;
      FullBlockBound(|x|, blockSize, hop, blockIdx);
    }
    numBlocks := blockIdx;
  }

  /** The window sum over the first `numBlocks` blocks, accumulated by the
      same overlap-add as the output. */
  method WindowSum(len: nat, window: seq<real>, hop: nat, numBlocks: nat) returns (c: seq<real>)
    ensures c == OlaWindows(len, window, hop, numBlocks)
  {
    c := Zeros(len);
    var startIdx := 0;
    var stopIdx := |window| - 1;
    var k := 0;
    while k < numBlocks
      invariant 0 <= k <= numBlocks
      invariant startIdx == BlockIdxToSampleIdx(k, hop) && stopIdx == startIdx + |window| - 1
      invariant c == OlaWindows(len, window, hop, k)
    {
      c := OverlapAndAdd(c, startIdx, stopIdx, window);
      assert (k + 1) * hop == k * hop + hop;
      startIdx := startIdx + hop;
      stopIdx := startIdx + |window| - 1;
      k := k + 1;
    }
  }

  /** Block-by-block spectral processing of every full block, overlap-added
      into a zeroed output and divided by the floored window sum over the
      same blocks. The spectral stage of one frame (FFT, masks from the
      profile, smoothing, median filter, SNR tracking, inverse FFT) is the
      parameter `frame`. */
  method RemoveNoiseGivenProfile<S>(x: seq<real>, noise: seq<real>, blockSize: nat, hop: nat, window: seq<real>,
                                    frame: (seq<real>, seq<real>, S) -> FrameOutput<S>, init: S)
    returns (out: seq<real>)
    requires hop > 0 && |window| == blockSize
    ensures |out| == |x|
    ensures out == Divide(Accumulate(x, noise, blockSize, hop, window, frame, init, NumFullBlocks(|x|, blockSize, hop)).0,
                          WindowCompensation(|x|, blockSize, hop, window))
    ensures forall i :: 0 <= i < |x| && !Covered(i, NumFullBlocks(|x|, blockSize, hop), blockSize, hop) ==> out[i] == 0.0
  {
    var acc, numBlocks := AccumulateFrames(x, noise, blockSize, hop, window, frame, init);
    var compensation := WindowSum(|x|, window, hop, numBlocks);
    compensation := FloorEntries(compensation, 0.01, 0.01, |x|);
    out := Divide(acc, compensation);
    forall i | 0 <= i < |x| && !Covered(i, numBlocks, blockSize, hop)
      ensures out[i] == 0.0
    {
      AccumulateUncovered(x, noise, blockSize, hop, window, frame, init, numBlocks, i);
    }
  }

  /** The weight of the spectral-subtraction estimate in the decision-directed
      prior; the previous frame's SNR gets `1 - PriorAlpha`. */
  const PriorAlpha: real := 0.5

  /** `sqrt` behaves as the square root on non-negative arguments. */
  ghost predicate IsSqrt(sqrt: real -> real)
  {
    forall t :: t >= 0.0 ==> sqrt(t) >= 0.0 && Sq(sqrt(t)) == t
  }

  /** Posterior SNR of one bin: `y^2 / n^2`. */
  function PosteriorSnr(y: real, n: real): (r: real)
    requires n != 0.0
    ensures r >= 0.0
    ensures y != 0.0 ==> r > 0.0
    ensures r * Sq(n) == Sq(y)
  {
    SquareSign(y);
    SquareSign(n);
    DivNonneg(Sq(y), Sq(n));
    Sq(y) / Sq(n)
  }

  /** Decision-directed prior SNR of one bin: the spectral-subtraction
      estimate `(y - n)^2 / n^2` blended with the previous frame's SNR. */
  function PriorSnr(y: real, n: real, prev: real): (p: real)
    requires n != 0.0
    ensures prev >= 0.0 ==> p >= 0.0
    ensures prev == 0.0 && y == n ==> p == 0.0
  {
    PriorAlpha * PosteriorSnr(y - n, n) + (1.0 - PriorAlpha) * prev
  }

  /** The gain of one bin, `(prior + sqrt(prior^2 + 2 (1 + prior) prior / posterior)) / (2 (1 + prior))`.
      It is never below the Wiener gain `prior / (1 + prior)`, and it is 0
      exactly when the prior SNR is 0. */
  function MaskBin(y: real, n: real, prev: real, sqrt: real -> real): (m: real)
    requires y != 0.0 && n != 0.0 && prev >= 0.0 && IsSqrt(sqrt)
    ensures m >= PriorSnr(y, n, prev) / (1.0 + PriorSnr(y, n, prev)) >= 0.0
    ensures m == 0.0 <==> PriorSnr(y, n, prev) == 0.0
  {
    var posterior := PosteriorSnr(y, n);
    var prior := PriorSnr(y, n, prev);
    var tmp := Sq(prior) + (2.0 * (1.0 + prior)) * (prior / posterior);
    MaskTermNonneg(prior, posterior);
    var root := sqrt(tmp);
    MaskBinBounds(prior, posterior, root);
    (prior + root) / (2.0 * (1.0 + prior))
  }

  /** The term under the square root is at least `prior^2`. */
  lemma MaskTermNonneg(prior: real, posterior: real)
    requires prior >= 0.0 && posterior > 0.0
    ensures Sq(prior) + (2.0 * (1.0 + prior)) * (prior / posterior) >= Sq(prior) >= 0.0
  {
    DivNonneg(prior, posterior);
    MulNonneg(2.0 * (1.0 + prior), prior / posterior);
    SquareSign(prior);
  }

  /** The arithmetic behind `MaskBin`'s contract, for any non-negative
      prior, positive posterior and root of the term under the square root. */
  lemma MaskBinBounds(prior: real, posterior: real, root: real)
    requires prior >= 0.0 && posterior > 0.0 && root >= 0.0
    requires Sq(root) == Sq(prior) + (2.0 * (1.0 + prior)) * (prior / posterior)
    ensures (prior + root) / (2.0 * (1.0 + prior)) >= prior / (1.0 + prior) >= 0.0
    ensures (prior + root) / (2.0 * (1.0 + prior)) == 0.0 <==> prior == 0.0
  {
    var denom := 2.0 * (1.0 + prior);
    MaskTermNonneg(prior, posterior);
    RootAtLeast(root, prior);
    DivMonotone(prior + root, 2.0 * prior, denom);
    assert (2.0 * prior) / denom == prior / (1.0 + prior);
    DivNonneg(prior, 1.0 + prior);
    if prior == 0.0 {
      RootOfZero(root);
    }
  }

  /** Inputs for which every bin's gain is defined: non-zero signal and
      noise magnitudes and a non-negative previous SNR. */
  predicate MaskInputs(y: seq<real>, n: seq<real>, prev: seq<real>, blockSize: nat)
  {
    && |y| >= blockSize && |n| >= blockSize && |prev| >= blockSize
    && forall i :: 0 <= i < blockSize ==> y[i] != 0.0 && n[i] != 0.0 && prev[i] >= 0.0
  }

  /** The per-bin gains of one frame. Each is at least the Wiener gain of
      its bin, hence non-negative. */
  function GetMasks(y: seq<real>, n: seq<real>, prev: seq<real>, blockSize: nat, sqrt: real -> real): (m: seq<real>)
    requires MaskInputs(y, n, prev, blockSize) && IsSqrt(sqrt)
    ensures |m| == blockSize
    ensures forall i :: 0 <= i < blockSize ==>
      m[i] >= PriorSnr(y[i], n[i], prev[i]) / (1.0 + PriorSnr(y[i], n[i], prev[i])) >= 0.0
  {
    seq(blockSize, i requires 0 <= i < blockSize => MaskBin(y[i], n[i], prev[i], sqrt))
  }

  /** Each bin's gain depends only on that bin's inputs. */
  lemma MasksAreLocal(y: seq<real>, n: seq<real>, prev: seq<real>, y': seq<real>, n': seq<real>, prev': seq<real>,
                      blockSize: nat, sqrt: real -> real, i: nat)
    requires MaskInputs(y, n, prev, blockSize) && MaskInputs(y', n', prev', blockSize) && IsSqrt(sqrt)
    requires i < blockSize && y[i] == y'[i] && n[i] == n'[i] && prev[i] == prev'[i]
    ensures GetMasks(y, n, prev, blockSize, sqrt)[i] == GetMasks(y', n', prev', blockSize, sqrt)[i]
  {
  }

  /** A bin holding exactly the noise profile, after a frame with SNR 0, is
      silenced completely. */
  lemma PureNoiseIsSilenced(y: seq<real>, n: seq<real>, prev: seq<real>, blockSize: nat, sqrt: real -> real, i: nat)
    requires MaskInputs(y, n, prev, blockSize) && IsSqrt(sqrt)
    requires i < blockSize && y[i] == n[i] && prev[i] == 0.0
    ensures GetMasks(y, n, prev, blockSize, sqrt)[i] == 0.0
  {
  }

  /** Per-bin SNR `s^2 / n^2` of the processed magnitudes against the
      noise profile: non-negative, and `n^2` times it gives back `s^2`. */
  function CalculateSNR(s: seq<real>, n: seq<real>, blockSize: nat): (r: seq<real>)
    requires |s| >= blockSize && |n| >= blockSize
    requires forall i :: 0 <= i < blockSize ==> n[i] != 0.0
    ensures |r| == blockSize
    ensures forall i :: 0 <= i < blockSize ==> r[i] >= 0.0 && r[i] * Sq(n[i]) == Sq(s[i])
  {
    seq(blockSize, i requires 0 <= i < blockSize => PosteriorSnr(s[i], n[i]))
  }

  /** The SNR of a masked spectrum is the squared gain times the posterior
      SNR of the unmasked one. */
  lemma MaskedSnr(y: seq<real>, mask: seq<real>, n: seq<real>, blockSize: nat, i: nat)
    requires |y| == |mask| && |y| >= blockSize && |n| >= blockSize
    requires forall j :: 0 <= j < blockSize ==> n[j] != 0.0
    requires i < blockSize
    ensures CalculateSNR(Multiply(y, mask), n, blockSize)[i] == Sq(mask[i]) * PosteriorSnr(y[i], n[i])
  {
    SquareOfProduct(y[i], mask[i]);
    SquareSign(n[i]);
    assert (Sq(y[i]) * Sq(mask[i])) / Sq(n[i]) == Sq(mask[i]) * (Sq(y[i]) / Sq(n[i]));
  }
}

=== FILE: preview.dfy ===
/** Choice of the preview window: the loudest full block of the (mono)
    signal. The RMS of a block is computed by a collaborator and enters as
    the parameter `rms`. */
module Preview {
  import opened Types
  import opened Blocking

  /** Sample bounds of the preview; `(-1, -1)` means none was found. */
  datatype Bounds = Bounds(start: int, stop: int)

  const NoPreview := Bounds(-1, -1)

  /** RMS of block `k`. */
  function BlockRms(x: seq<real>, k: nat, blockSize: nat, hop: nat, rms: seq<real> -> real): real
  {
    rms(ReadBlock(x, k, blockSize, hop))
  }

  /** Scan the full blocks and keep the first one whose RMS beats every block
      before it, starting from a threshold of 0. */
  method GetPreviewBounds(x: seq<real>, blockSize: nat, hop: nat, rms: seq<real> -> real) returns (b: Bounds)
    requires hop > 0
    ensures NumFullBlocks(|x|, blockSize, hop) == 0 ==> b == NoPreview
    ensures b == NoPreview <==>
      forall k :: 0 <= k < NumFullBlocks(|x|, blockSize, hop) ==> BlockRms(x, k, blockSize, hop, rms) <= 0.0
    ensures b != NoPreview ==>
      && 0 <= b.start && b.start % hop == 0
      && b.stop == b.start + blockSize - 1 && b.stop < |x|
      && b.start / hop < NumFullBlocks(|x|, blockSize, hop)
      && BlockRms(x, b.start / hop, blockSize, hop, rms) > 0.0
      && (forall k :: 0 <= k < NumFullBlocks(|x|, blockSize, hop) ==>
            BlockRms(x, k, blockSize, hop, rms) <= BlockRms(x, b.start / hop, blockSize, hop, rms))
      && (forall k :: 0 <= k < b.start / hop ==>
            BlockRms(x, k, blockSize, hop, rms) < BlockRms(x, b.start / hop, blockSize, hop, rms))
  {
    var n := NumFullBlocks(|x|, blockSize, hop);
    var maxThreshold := 0.0;
    b := NoPreview;
    ghost var best := 0;
    var curBlock := Zeros(blockSize);
    var startIdx := 0;
    var stopIdx := startIdx + blockSize - 1;
    var blockIdx := 0;
    FullBlockBound(|x|, blockSize, hop, 0);
    while stopIdx < |x|
      invariant 0 <= blockIdx <= n
      invariant startIdx == blockIdx * hop && stopIdx == startIdx + blockSize - 1
      invariant stopIdx < |x| <==> blockIdx < n
      invariant |curBlock| == blockSize
      invariant b == NoPreview ==>
        && maxThreshold == 0.0
        && forall k :: 0 <= k < blockIdx ==> BlockRms(x, k, blockSize, hop, rms) <= 0.0
      invariant b != NoPreview ==>
        && 0 <= best < blockIdx
        && b == Bounds(best * hop, best * hop + blockSize - 1)
        && maxThreshold == BlockRms(x, best, blockSize, hop, rms) > 0.0
        && (forall k :: 0 <= k < blockIdx ==> BlockRms(x, k, blockSize, hop, rms) <= maxThreshold)
        && (forall k :: 0 <= k < best ==> BlockRms(x, k, blockSize, hop, rms) < maxThreshold)
      decreases n - blockIdx
    {
      var oldBlock := curBlock;
      curBlock := CopyToBlock(x, startIdx, stopIdx, curBlock);
      ReadFullBlock(x, blockIdx, blockSize, hop);
      CopyWholeBlock(x, startIdx, oldBlock);
      assert curBlock == ReadBlock(x, blockIdx, blockSize, hop);
      var curRms := rms(curBlock);
      if curRms > maxThreshold {
        b := Bounds(startIdx, stopIdx);
        best := blockIdx;
        maxThreshold := curRms;
      }
      assert (blockIdx + 1) * hop == blockIdx * hop + hop;
      startIdx := startIdx + hop;
      stopIdx := startIdx + blockSize - 1;
      blockIdx := blockIdx + 1;
      FullBlockBound(|x|, blockSize, hop, blockIdx);
    }
    if b != NoPreview {
      BlockStartDivides(best, hop);
      FullBlockBound(|x|, blockSize, hop, best);
    }
  }
}

=== FILE: real_facts.dfy ===
/** Small facts about real multiplication and division that the solver does
    not find on its own; the SNR, mask and interpolation proofs are built
    from them. */
module RealFacts {
  /** The identity; `Sq` multiplies through it so that the solver keeps a
      square as an ordinary product of two terms. */
  function Id(x: real): real
  {
    x
  }

  /** `a * a`. */
  function Sq(a: real): real
  {
    a * Id(a)
  }

  lemma MulNonneg(a: real, b: real)
    requires a >= 0.0 && b >= 0.0
    ensures a * b >= 0.0
  {
  }

  lemma MulPos(a: real, b: real)
    requires a > 0.0 && b > 0.0
    ensures a * b > 0.0
  {
  }

  lemma DivNonneg(a: real, b: real)
    requires a >= 0.0 && b > 0.0
    ensures a / b >= 0.0
    ensures a > 0.0 ==> a / b > 0.0
  {
  }

  /** A square is non-negative, and positive unless the base is 0. */
  lemma SquareSign(a: real)
    ensures Sq(a) >= 0.0
    ensures a != 0.0 ==> Sq(a) > 0.0
  {
    if a < 0.0 {
      MulPos(-a, -Id(a));
      assert (-a) * (-Id(a)) == a * Id(a);
    } else if a > 0.0 {
      MulPos(a, Id(a));
    } else {
      MulNonneg(a, Id(a));
    }
  }

  /** The square of a product is the product of the squares. */
  lemma SquareOfProduct(a: real, b: real)
    ensures Sq(a * b) == Sq(a) * Sq(b)
  {
  }

  lemma LeLt(x: real, y: real, z: real)
    requires x <= y < z
    ensures x < z
  {
  }

  /** Among non-negative reals, squaring is strictly monotone. */
  lemma SquareStrict(a: real, b: real)
    requires 0.0 <= a < b
    ensures Sq(a) < Sq(b)
  {
    MulNonneg(a, b - a);
    MulPos(b, b - a);
    assert a * (b - a) == a * b - Sq(a);
    assert b * (b - a) == Sq(b) - a * b;
    LeLt(Sq(a), a * b, Sq(b));
  }

  /** A non-negative root of something at least `p * p` is at least `p`. */
  lemma RootAtLeast(s: real, p: real)
    requires s >= 0.0 && p >= 0.0 && Sq(s) >= Sq(p)
    ensures s >= p
  {
    if s < p {
      SquareStrict(s, p);
    }
  }

  /** A root of 0 is 0. */
  lemma RootOfZero(s: real)
    requires Sq(s) == 0.0
    ensures s == 0.0
  {
    SquareSign(s);
  }

  /** Dividing by a positive number keeps the order. */
  lemma DivMonotone(a: real, b: real, d: real)
    requires a >= b && d > 0.0
    ensures a / d >= b / d
  {
    DivNonneg(a - b, d);
    assert (a - b) / d == a / d - b / d;
  }

  /** A convex combination `a * w + b * (1 - w)` with `0 <= w <= 1` lies
      between `a` and `b`. */
  lemma ConvexBetween(a: real, b: real, w: real)
    requires 0.0 <= w <= 1.0
    ensures a <= b ==> a <= a * w + b * (1.0 - w) <= b
    ensures b <= a ==> b <= a * w + b * (1.0 - w) <= a
  {
    assert a * w + b * (1.0 - w) == b + (a - b) * w;
    if a <= b {
      MulNonneg(b - a, w);
      MulNonneg(b - a, 1.0 - w);
      assert (b - a) * w + (b - a) * (1.0 - w) == b - a;
    } else {
      MulNonneg(a - b, w);
      MulNonneg(a - b, 1.0 - w);
      assert (a - b) * w + (a - b) * (1.0 - w) == a - b;
    }
  }
}

=== FILE: types.dfy ===
/** Value types shared by every stage of the engine: index intervals, known
    spectral points, and the pointwise signal arithmetic the stages build on.
    A channel is a `seq<real>`; the engine's Float32Array rounding is not
    modelled. */
module Types {

  /** An optional value; `None` stands for JavaScript's `undefined`. */
  datatype Option<+T> = None | Some(value: T)

  /** A closed range `[start, stop]` of sample or block indices. */
  datatype Interval = Interval(start: int, stop: int)

  /** A range measured in seconds. */
  datatype SecondsInterval = SecondsInterval(start: real, stop: real)

  /** A trusted spectral magnitude vector anchored at a sample index. */
  datatype KnownPoint = KnownPoint(time: int, magnitudes: seq<real>)

  /** `n` zeros: what a freshly allocated Float32Array holds. */
  function Zeros(n: nat): (r: seq<real>)
    ensures |r| == n
    ensures forall i :: 0 <= i < n ==> r[i] == 0.0
  {
    seq(n, _ => 0.0)
  }

  /** True when every entry of `s` is zero. */
  predicate AllZero(s: seq<real>)
  {
    forall i :: 0 <= i < |s| ==> s[i] == 0.0
  }

  /** What a collaborator's output looks like once it has been written into a
      preallocated array of `n` entries: cut to `n`, or zero-padded up to `n`. */
  function Fit(s: seq<real>, n: nat): (r: seq<real>)
    ensures |r| == n
    ensures forall i :: 0 <= i < n && i < |s| ==> r[i] == s[i]
    ensures forall i :: |s| <= i < n ==> r[i] == 0.0
  {
    seq(n, i requires 0 <= i < n => if i < |s| then s[i] else 0.0)
  }

  /** `c * s`, entry by entry (SignalScale). */
  function Scale(s: seq<real>, c: real): (r: seq<real>)
    ensures |r| == |s|
  {
    seq(|s|, i requires 0 <= i < |s| => s[i] * c)
  }

  /** `a + b`, entry by entry (SignalAdd). */
  function Add(a: seq<real>, b: seq<real>): (r: seq<real>)
    requires |a| == |b|
    ensures |r| == |a|
  {
    seq(|a|, i requires 0 <= i < |a| => a[i] + b[i])
  }

  /** `a - b`, entry by entry (SignalSubtract). */
  function Subtract(a: seq<real>, b: seq<real>): (r: seq<real>)
    requires |a| == |b|
    ensures |r| == |a|
  {
    seq(|a|, i requires 0 <= i < |a| => a[i] - b[i])
  }

  /** `a * b`, entry by entry (SignalPointwiseMultiplyInPlace). */
  function Multiply(a: seq<real>, b: seq<real>): (r: seq<real>)
    requires |a| == |b|
    ensures |r| == |a|
  {
    seq(|a|, i requires 0 <= i < |a| => a[i] * b[i])
  }

  /** `a / b`, entry by entry (SignalPointwiseDivideInPlace). */
  function Divide(a: seq<real>, b: seq<real>): (r: seq<real>)
    requires |a| == |b|
    requires forall i :: 0 <= i < |b| ==> b[i] != 0.0
    ensures |r| == |a|
  {
    seq(|a|, i requires 0 <= i < |a| => a[i] / b[i])
  }

  /** JavaScript's `Math.ceil(n / 2)` for a non-negative integer `n`. */
  function HalfUp(n: nat): (h: nat)
    ensures 2 * h == n || 2 * h == n + 1
  {
    (n + 1) / 2
  }
}

=== FILE: web_audio_utils.dfy ===
/** Helpers over Web Audio buffers. An `AudioBuffer` is modelled as its
    channels (one sample sequence each), its common length and its sample
    rate; the audio context that allocates buffers is not modelled. */
module WebAudioUtils {
  import opened Types
  import opened Averaging

  datatype AudioBuffer = AudioBuffer(channels: seq<seq<real>>, length: nat, sampleRate: real)
  {
    /** Every channel holds exactly `length` samples, as Web Audio guarantees. */
    predicate Valid()
    {
      Rectangular(channels, length)
    }
  }

  /** A fresh buffer with the same shape and rate, every sample copied over
      one channel and one index at a time. */
  method CopyAudioBuffer(buffer: AudioBuffer) returns (copy: AudioBuffer)
    requires buffer.Valid()
    ensures copy.Valid()
    ensures |copy.channels| == |buffer.channels|
    ensures copy.length == buffer.length && copy.sampleRate == buffer.sampleRate
    ensures forall c, i :: 0 <= c < |buffer.channels| && 0 <= i < buffer.length ==>
      copy.channels[c][i] == buffer.channels[c][i]
  {
    var numChannels := |buffer.channels|;
    var channels := seq(numChannels, _ => Zeros(buffer.length));
    var c := 0;
    while c < numChannels
      invariant 0 <= c <= numChannels
      invariant |channels| == numChannels && Rectangular(channels, buffer.length)
      invariant forall d, i :: 0 <= d < c && 0 <= i < buffer.length ==> channels[d][i] == buffer.channels[d][i]
    {
      var out := channels[c];
      var i := 0;
      while i < buffer.length
        invariant 0 <= i <= buffer.length
        invariant |out| == buffer.length
        invariant forall j :: 0 <= j < i ==> out[j] == buffer.channels[c][j]
      {
        out := out[i := buffer.channels[c][i]];
        i := i + 1;
      }
      channels := channels[c := out];
      c := c + 1;
    }
    copy := AudioBuffer(channels, buffer.length, buffer.sampleRate);
  }

  /** The copy is the same buffer value. */
  lemma CopyIsIdentity(buffer: AudioBuffer, copy: AudioBuffer)
    requires buffer.Valid() && copy.Valid()
    requires |copy.channels| == |buffer.channels|
    requires copy.length == buffer.length && copy.sampleRate == buffer.sampleRate
    requires forall c, i :: 0 <= c < |buffer.channels| && 0 <= i < buffer.length ==>
      copy.channels[c][i] == buffer.channels[c][i]
    ensures copy == buffer
  {
    forall c | 0 <= c < |buffer.channels|
      ensures copy.channels[c] == buffer.channels[c]
    {
    }
  }

  /** One down-mix step (two SignalScale calls and a SignalAdd) is one
      online-average update. */
  lemma MixStepIsOnlineUpdate(mix: seq<real>, next: seq<real>, k: nat)
    requires k >= 1 && |next| == |mix|
    ensures Add(Scale(mix, ((k - 1) as real) / (k as real)), Scale(next, 1.0 / (k as real)))
         == OnlineUpdate(mix, next, k)
  {
    var a := Add(Scale(mix, ((k - 1) as real) / (k as real)), Scale(next, 1.0 / (k as real)));
    var b := OnlineUpdate(mix, next, k);
    forall i | 0 <= i < |mix|
      ensures a[i] == b[i]
    {
    }
  }

  /** Down-mix to mono by a running mean over channels: the mix so far keeps
      weight `(k-1)/k` and the `k`-th channel gets `1/k`. */
  method AudioBufferToMono(buffer: AudioBuffer) returns (mono: seq<real>)
    requires buffer.Valid()
    ensures |buffer.channels| == 0 ==> mono == []
    ensures |buffer.channels| == 1 ==> mono == buffer.channels[0]
    ensures |buffer.channels| > 0 ==> |mono| == buffer.length
    ensures |buffer.channels| > 0 ==> mono == Mean(buffer.channels, buffer.length)
  {
    var numChannels := |buffer.channels|;
    if numChannels == 0 {
      return [];
    }
    var first := buffer.channels[0];
    mono := first;
    assert buffer.channels[..1] == [first];
    OnlineAverageFirst(first, first);
    var numItems := 2;
    var c := 1;
    while c < numChannels
      invariant 1 <= c <= numChannels && numItems == c + 1
      invariant |mono| == buffer.length
      invariant mono == OnlineAverage(buffer.channels[..c], first)
    {
      var scaledMix := Scale(mono, ((numItems - 1) as real) / (numItems as real));
      var scaledNext := Scale(buffer.channels[c], 1.0 / (numItems as real));
      assert buffer.channels[..c + 1] == buffer.channels[..c] + [buffer.channels[c]];
      OnlineAverageSnoc(buffer.channels[..c], buffer.channels[c], first);
      MixStepIsOnlineUpdate(mono, buffer.channels[c], numItems);
      mono := Add(scaledMix, scaledNext);
      numItems := numItems + 1;
      c := c + 1;
    }
    assert buffer.channels[..c] == buffer.channels;
    OnlineAverageIsMean(buffer.channels, first);
  }
}
